=== FILE: README.md ===
# clarity-mobile core, modelled in Dafny

This project models the logic at the heart of the clarity-mobile client, a
React Native app in which citizens drop pins on a map to report litter,
dumps, overflowing bins and graffiti. It proves properties of that model.
The model covers:

- **Map screen.** The status/category filter and the grid clustering of the
  visible pins into single markers, cluster badges and "spiderfied" rings.
  Also the region-change gate that ignores jitter and opens the Android
  marker-tracking window on a significant pan or zoom, the single resettable
  tracking timer, focusing a point, and zooming into a cluster.
- **Pins list.** The newest-first ordering, the chip and free-text filter, who
  may delete a pin, and the removal after a delete.
- **Statistics screen.** Totals, tallies by status and category, and the
  newest pin.
- **Photo references.** Turning a stored reference into a displayable URI, and
  deciding whether a URI is a device file that must be uploaded.
- **Admin detection.** `normalizeString`/`normalizeNumber`, the hand-written
  base64 decoder (up to its UTF-8 step), the JWT payload segment,
  `isAdminByText`, and the five-step `isAdminUser` chain.
- **Date handling.** Parsing server timestamps (numbers, seconds or
  milliseconds, ISO text, `"YYYY-MM-DD HH:mm"` text, numeric text), the
  `dd.mm.yyyy hh:mm` formatter, and the creation-time field chain of a pin.
- **Device storage of category and status** (`pinMeta`), and the owner-id field
  chain.
- **The two forms.** The new-pin form (dirty tracking, leave guard, submit
  checks, payload, stored meta) and the pin details editor (load, edit, pick or
  remove a photo, cancel, save).

JavaScript values are the datatype `Js.Value`; objects keep their properties
in creation order. Numbers are `Fin(real)` or non-finite. The library
primitives the code calls are fields of a `Host` record passed as a parameter:
`Number(text)` on non-integer text, `String(number)` on non-integers
(integer text and integers are handled exactly; see "Left out"),
`Date.parse`, the local calendar getters, `JSON.parse`/`JSON.stringify` and
`decodeURIComponent`. `Math.cos`/`Math.sin` are the fields of
`Clustering.Trig`. Device storage is a `map<string, string>` passed in and
returned. Network replies are parameters: `None` means the request threw.

The model follows the code as written, including at these points:

- The tracking window opened on first load and on filter changes is 700 ms
  (`src/screens/MapScreen.tsx` line 112), not 650 ms. The 650 ms window is used
  only after a significant pan.
- Render items come out in the insertion order of the bucket `Map`, that is, in
  the order each grid cell is first met.
- The token's role id is `normalizeNumber(role_id ?? roleId ?? role.id)`: the
  raw fields are coalesced first and normalised once. A non-numeric `role_id`
  therefore hides a numeric `roleId`.
- Category and status are stored only on the device, under
  `clarity_pin_meta:<id>`. A comment in the statistics screen says they are
  stored server-side. The map, list and statistics screens read the pin's own
  `status_id`/`category_id`, which the server may never send; a missing status
  counts as `new` and a missing category as `other`.
- `isOwner` requires a truthy current user id, so a user whose id is `0` owns
  nothing.
- A number below 10^12 is read as seconds, so a genuine millisecond timestamp
  from before September 2001 is multiplied by 1000.
- Cancelling an edit restores the description and photo, but not the category
  and status chips.

## Model

| member | source | states |
|---|---|---|
| Clustering.FilteredPins | src/screens/MapScreen.tsx:197-203 | Every kept pin is one of the loaded pins and passes both chips; every loaded pin passing both chips is kept. |
| Clustering.FilteredPinsSpec | src/screens/MapScreen.tsx:197-203 | The filtered list is a subsequence of the input. Each pin occurs in it exactly as often as in the input if it matches the chips, and not at all otherwise. |
| Clustering.FilteredPinsAll | src/screens/MapScreen.tsx:199-200 | With both chips on "all" the filter returns the loaded list unchanged. |
| Clustering.ClampSpan | src/screens/MapScreen.tsx:212-213 | The span used for the grid is at least 0.001 and at least the region's span, and is one of the two. |
| Clustering.DeclusterMode | src/screens/MapScreen.tsx:218-219 | Spiderfy mode holds exactly when both region spans are at most 0.007 (the 0.001 floor cannot change the outcome). |
| Clustering.DeclusterBoundary | src/screens/MapScreen.tsx:218-219 | The threshold is inclusive: spans of 0.007 spread the pins; 0.0071 on either axis clusters them. |
| Clustering.GridOf | src/screens/MapScreen.tsx:223-228 | The grid has 14 cells per axis over the clamped span, centred on the region, with positive cell sizes. |
| Clustering.CellTextInjective | src/screens/MapScreen.tsx:235 | Two cells with the same `i:j` key text are the same cell, so keying buckets by text groups exactly by cell. |
| Clustering.GroupSpec | src/screens/MapScreen.tsx:230-242 | After the bucketing loop, bucket keys are distinct. Cell k's bucket holds exactly the pins of cell k in input order, with their ids and coordinate sums. A cell without pins has no bucket. |
| Clustering.SameBucketIff | src/screens/MapScreen.tsx:232-241 | A loaded pin is in a bucket if and only if it falls into that bucket's cell. |
| Clustering.GroupPartition | src/screens/MapScreen.tsx:230-242 | The buckets together hold every input pin exactly as often as the input does: none lost, none duplicated. |
| Clustering.Spiderfy | src/screens/MapScreen.tsx:252-270 | Spiderfy emits one marker per bucket pin, in ascending id order (a permutation of the bucket). Marker idx sits at ring angle 2π·idx/n around the bucket mean, with radius 0.18 of the clamped span. |
| Clustering.SpiderfyRank | src/screens/MapScreen.tsx:252-270 | The marker at ring position idx carries the bucket pin with the idx-th smallest id: at most idx bucket pins have a smaller id and more than idx have an id no larger. It sits at angle 2π·idx/n around the bucket mean with its `p-` key. |
| Clustering.EmitBucketFaithful | src/screens/MapScreen.tsx:245-281 | Each item a bucket emits is faithful to the input. A plain marker is the only pin of its cell. A ring marker belongs to a cell of two or more pins, in spiderfy mode. A badge counts all pins of its cell, lists their ids in input order and is centred on their mean, in cluster mode. |
| Clustering.ClusterItemsFaithful | src/screens/MapScreen.tsx:209-283 | Every item `clusterItems` renders is faithful, in the sense above, to the filtered pins and the region's grid. |
| Clustering.EmitBucketIds | src/screens/MapScreen.tsx:245-281 | One bucket's items stand for exactly that bucket's pin ids, and their counts add up to the bucket size. |
| Clustering.EmitBucket | src/screens/MapScreen.tsx:245-281 | One bucket gives one plain marker, the spiderfied ring, or one badge. EmitBucketFaithful shows what each item means and EmitBucketIds that they stand for exactly the bucket's ids. |
| Clustering.KeyTextInjective | src/screens/MapScreen.tsx:248-275 | Distinct items get distinct `p-<id>`/`c-<i>:<j>` React keys: equal key text means the same pin id or the same cell. |
| Clustering.ClusterItemsPartition | src/screens/MapScreen.tsx:209-283 | Every pin id occurs among the items exactly as often as among the pins. Badge counts plus single markers add up to the number of pins. There are no items exactly when there are no pins. |
| Clustering.ClusterItems | src/screens/MapScreen.tsx:209-283 | The filtered pins are bucketed by grid cell and each bucket is emitted in first-met order. ClusterItemsFaithful and ClusterItemsPartition show that every item is faithful and that pin ids are preserved exactly. |
| Clustering.SameSpotCluster | src/screens/MapScreen.tsx:272-279 | Outside spiderfy mode, three pins on one spot make a single badge of count 3, centred on that spot, listing the ids in input order. |
| Viewport.TracksClusters | src/screens/MapScreen.tsx:109 | Cluster badges are tracked on Android and nowhere else. |
| Viewport.Initial | src/screens/MapScreen.tsx:51-53 | The screen starts on the default region with no timer pending. Pin tracking is on at first exactly on Android. |
| Viewport.Enable | src/screens/MapScreen.tsx:55-61 | Off Android nothing changes. On Android the flag turns on and exactly one timer, with the requested delay and a fresh handle, replaces any pending one; the region is untouched. |
| Viewport.Fire | src/screens/MapScreen.tsx:60 | A pending timer firing turns pin tracking off and is no longer pending. The ref keeps the stale handle. |
| Viewport.OnRegionChange | src/screens/MapScreen.tsx:63-98 | Jitter (every field moved by less than 1e-5) changes nothing. Any other change adopts the new region. The last significant zoom is updated exactly when the latitude span changed by at least 12%. |
| Viewport.RegionChangeTracking | src/screens/MapScreen.tsx:80-97 | On Android a non-jitter change that is a significant pan or zoom leaves the flag on and one timer pending: 700 ms if the zoom was significant, else 650 ms. Any other change leaves the tracking state alone. |
| Viewport.ThresholdScenarios | src/screens/MapScreen.tsx:82-94 | The pan test is strict at 18% of the span and the zoom test inclusive at 12%, shown on concrete regions either side of each threshold. |
| Viewport.JitterBoundary | src/screens/MapScreen.tsx:66-74 | Jitter is a strict test: an unchanged region is jitter, while a change of exactly 1e-5 in one field is not. |
| Viewport.StepInv | src/screens/MapScreen.tsx:55-117 | Every event (mount, region change, data or filter change, timer firing, focus, zoom to cluster, unmount) keeps the invariant. At most one timer is pending, the ref holds its handle, and a pending timer means tracking is on. |
| Viewport.Step | src/screens/MapScreen.tsx:55-117 | Each screen event goes to its handler. StepInv shows that every event keeps the single-timer invariant. |
| Viewport.RunInv | src/screens/MapScreen.tsx:51-117 | From the first render, after any sequence of events, at most one tracking timer is pending. Off Android pin tracking is never on. |
| Viewport.Run | src/screens/MapScreen.tsx:51-117 | Events are applied in order from the first render. RunInv shows that at most one timer is ever pending and that tracking is never on off Android. |
| Viewport.FireClosesWindow | src/screens/MapScreen.tsx:59-60 | When the pending timer fires, tracking is off and no timer is left. |
| Viewport.DataChangeReopens | src/screens/MapScreen.tsx:111-117 | On Android, whenever the effect re-runs because `pins.length`, the status chip or the category chip changed, the window reopens with one 700 ms timer, replacing any pending one and keeping the region. A reload with the same number of pins and the same chips is not such an event. |
| Viewport.OnDataChange | src/screens/MapScreen.tsx:111-117 | The effect's cleanup clears the pending timer, then a 700 ms window is armed. DataChangeReopens states the outcome on Android and StepInv that the invariant is kept. |
| Viewport.Focus | src/screens/MapScreen.tsx:182-195 | Focusing a point centres on it with a 0.02 span on both axes and changes nothing else. |
| Viewport.ZoomToCluster | src/screens/MapScreen.tsx:285-294 | Zooming to a cluster centres on the badge. Each span, latitude and longitude alike, becomes half the current span or 0.002 when half would be smaller: it is never below 0.002 and never below half the old span, and nothing else in the state changes. |
| Viewport.ZoomToClusterSpans | src/screens/MapScreen.tsx:285-294 | Each new span is exactly half the old one when that half is at least 0.002, and exactly 0.002 otherwise. |
| PinsList.NewestFirst | src/screens/PinsListScreen.tsx:45 | The list is a permutation of the loaded pins with ids never increasing. |
| PinsList.NewestFirstStrict | src/screens/PinsListScreen.tsx:45 | When the server's ids are distinct, the list is strictly decreasing by id. |
| PinsList.FilteredList | src/screens/PinsListScreen.tsx:60-74 | Kept pins pass both chips and contain the trimmed, lower-cased query in their description-and-`#id` text; every such loaded pin is kept. |
| PinsList.FilteredListSpec | src/screens/PinsListScreen.tsx:60-74 | The list filter is order-preserving and keeps each accepted pin as often as it occurs, and no rejected one. |
| PinsList.BlankQueryIsMapFilter | src/screens/PinsListScreen.tsx:61-67 | With a blank query the list filter is exactly the map's filter. |
| PinsList.PhotoNotSearched | src/screens/PinsListScreen.tsx:68-69 | The photo link is never searched: pins differing only in their photo are kept or dropped alike. |
| PinsList.SearchByOwnId | src/screens/PinsListScreen.tsx:67-70 | Searching `#<id>` finds the pin with that id whenever the chips let it through. |
| PinsList.CanDeleteIff | src/screens/PinsListScreen.tsx:136-138 | Deletion is allowed exactly to an administrator, or to a user whose id is a non-zero number equal to the owner id, on a pin that is new or has no status. |
| PinsList.TextUserIdNeverOwns | src/screens/PinsListScreen.tsx:136 | The owner comparison is strict, so a user id held as text never owns a pin. |
| PinsList.CanDelete | src/screens/PinsListScreen.tsx:136-138 | An administrator, or the owner of a pin whose status is new or missing. CanDeleteIff spells out exactly who that is. |
| PinsList.RemoveByIdSpec | src/screens/PinsListScreen.tsx:151 | After a delete, exactly the pins with that id are gone. The others stay in order, as often as before. |
| PinsList.RemoveById | src/screens/PinsListScreen.tsx:151 | Every remaining pin was loaded and has a different id, and every loaded pin with a different id remains. |
| Stats.Summarize | src/screens/StatsScreen.tsx:31-46 | Total is the number of pins. The photo count is the number of positions holding a pin with a non-empty link, and the description count the number holding a non-blank description. Each tally sums to the total, and for every id the status (category) tally shows how often that id occurs among the pins' statuses (categories), missing read as `new` (`other`). "Last" is absent only for no pins; otherwise it is the first loaded pin with the largest id, as the stable sort leaves it in front. |
| Stats.SummarizeTallies | src/screens/StatsScreen.tsx:36-46 | The number shown for a status or category id is the number of pins whose status (category), with a missing one read as `new` (`other`), is that id. |
| Stats.AbsentShownZero | src/screens/StatsScreen.tsx:86-98 | A status or category id that no pin has is displayed as 0. |
| Stats.TallyCounts | src/screens/StatsScreen.tsx:36-43 | A key's tally is exactly how often it occurs among the keys, and a key that never occurs has no entry. |
| Stats.TallyOf | src/screens/StatsScreen.tsx:36-43 | One `(t[k] ?? 0) + 1` per key, in order. TallyCounts shows each key's count is its number of occurrences, and TallySum that the counts add up to the number of keys. |
| Stats.ShownCount | src/screens/StatsScreen.tsx:86 | The number displayed for a status or category id (`?? 0`) is its number of occurrences. |
| Stats.MissingFieldsDefault | src/screens/StatsScreen.tsx:39-42 | The `new` tally is exactly the number of pins whose status is missing or `new`, and the `other` tally exactly the number whose category is missing or `other`. |
| Stats.MissingFieldCounted | src/screens/StatsScreen.tsx:39-42 | A pin without status or category makes the `new` and `other` tallies at least one. |
| Stats.EmptyFieldsNotCounted | src/screens/StatsScreen.tsx:33-34 | An empty or missing photo link is not a photo, and a description of white space is not a description. |
| Photo.TrimSlashes | src/utils/photo.ts:34 | Stripping trailing slashes leaves a prefix of the text that does not end in `/`, and everything removed was a slash. |
| Photo.ServerPath | src/utils/photo.ts:34-36 | A relative path becomes the server base, one `/`, and the path without its own leading slash. |
| Photo.PhotoToImageUri | src/utils/photo.ts:13-37 | The URI is empty exactly for a missing or blank reference. Otherwise it is the trimmed reference if it passes through, a JPEG data URI of a long base64-ish reference, or a URL on the API server. |
| Photo.ShownPhoto | src/utils/photo.ts:13-46 | A non-blank link shows a non-blank photo that is a device file exactly when the link is. |
| Photo.DisplayKeepsLocality | src/utils/photo.ts:13-46 | For every reference, the displayed URI needs uploading exactly when the reference itself does. |
| Photo.LocalShownAsIs | src/utils/photo.ts:17-23 | A device photo is displayed straight from the device, trimmed. |
| Photo.BlankReference | src/utils/photo.ts:14-15 | A missing or blank reference displays nothing and is not a device file. |
| Photo.PhotoToImageUriIdempotent | src/utils/photo.ts:13-37 | Converting a converted reference changes nothing: every result passes through. |
| Photo.LegacyBase64Photo | src/utils/photo.ts:28-31 | Standard base64 of more than 200 characters, as old builds stored photos, is shown as a JPEG data URI of exactly that text. |
| Base64.IndexOfCharIsPosition | src/utils/admin.ts:34 | The lookup returns the first position of the character in the 65-character alphabet string, and -1 exactly for characters not in it. |
| Base64.Pad | src/utils/admin.ts:32 | Padding appends the fewest `=` that reach a multiple of four. |
| Base64.PadExact | src/utils/admin.ts:32 | Any extension of the input by fewer than four `=` to a multiple of four is the padded form. |
| Base64.DecodeUnitsLength | src/utils/admin.ts:38-51 | The loop emits three code units per group, less one for each `=` in a group's last two places. |
| Base64.ChrRange | src/utils/admin.ts:44-46 | Whatever the lookups return, including -1 for a stray character, every computed code unit is a valid non-surrogate 16-bit unit. |
| Base64.GroupRoundTrip | src/utils/admin.ts:44-46 | The decoder's shifts and masks undo the encoder's regrouping of three bytes into four 6-bit digits. |
| Base64.DecodeEncode | src/utils/admin.ts:38-51 | Decoding standard padded base64 of any bytes gives back exactly those bytes, one code unit each. |
| Base64.PrepareUrlEncode | src/utils/admin.ts:29-32 | The `-`/`_` mapping plus padding turns the unpadded base64url form into the standard form. |
| Base64.RawDecodeUrlEncode | src/utils/admin.ts:28-51 | The intermediate text decoded from a JWT-style segment has exactly the encoded bytes as its code units. |
| Base64.PercentUnitSpellsByte | src/utils/admin.ts:59 | The two hex digits after `%` spell the code unit's low byte. |
| Base64.Base64DecodeUrlEncode | src/utils/admin.ts:53-64 | `base64Decode` of an encoded segment hands each byte as `%xx` to the UTF-8 step, and falls back to the raw text when that step throws. |
| Base64.Base64Decode | src/utils/admin.ts:53-64 | The raw decode's code units, each spelled `%xx`, go to the UTF-8 step; when that step throws, the raw text is returned. Base64DecodeUrlEncode states this for an encoded segment. |
| Base64.UrlEncodeNoDot | src/utils/admin.ts:69 | A base64url segment never contains `.`, so it never splits a token. |
| Admin.NormalizeString | src/utils/admin.ts:14-16 | The result neither starts nor ends with white space. It is empty for `null`/`undefined` and is the trimmed text for text. |
| Admin.NormalizeStringIdempotent | src/utils/admin.ts:14-16 | Normalising a normalised string changes nothing. |
| Admin.NormalizeNumber | src/utils/admin.ts:18-25 | Nullish gives null. A finite number is returned as is. A non-number whose text is blank gives null. |
| Admin.NormalizeNumberOfIdText | src/utils/admin.ts:18-25 | An integer written as text, with white space around it, reads back as that integer. |
| Admin.AdminTextIff | src/utils/admin.ts:79-83 | The admin-text test holds exactly for the two Russian words or any text containing `admin`. The English words need no separate case because they contain it. |
| Admin.IsAdminByText | src/utils/admin.ts:79-83 | The value's normalised, lower-cased text is an admin word. AdminTextIff shows this means one of the two Russian words or containing `admin`, and NotAdminEmpty that nullish values never qualify. |
| Admin.NotAdminEmpty | src/utils/admin.ts:80-81 | `null`/`undefined` is never admin text. |
| Admin.AdminByTextCaseAndSpace | src/utils/admin.ts:80 | Capitals and surrounding white space do not matter. |
| Admin.AdminByTextRussian | src/utils/admin.ts:82 | A capitalised Cyrillic `Админ` lower-cases to an admin word. |
| Admin.AdminByTextBadminton | src/utils/admin.ts:82 | Because the test is a substring test, `Badminton` is admin text. |
| Admin.AdminByTextArray | src/utils/admin.ts:80 | A one-element array is judged by its element's text. |
| Admin.ScanAdminWord | src/utils/admin.ts:104 | The regex scan succeeds exactly when `admin`, in any ASCII case, occurs at some position with no word character on either side. |
| Admin.ScopeWords | src/utils/admin.ts:103-104 | A scope list grants admin by the whole word only: `read ADMIN` does; `read badminton` and `admin_panel` do not. |
| Admin.DecodeJwtPayload | src/utils/admin.ts:67-77 | A missing or empty token, or one without a `.`, decodes to null. |
| Admin.DecodeJwtPayloadSegment | src/utils/admin.ts:67-77 | A token whose second segment is base64url of some bytes decodes to the host's JSON reading of the text `base64Decode` makes of those bytes. |
| Admin.RoleId | src/utils/admin.ts:111-115 | The first of the user's `role_id`, `roleId` and `role.id` that normalises to a number is the role id. When none does, a truthy token payload supplies `normalizeNumber(payload.role_id ?? payload.roleId ?? payload.role.id)`, and a falsy payload gives no role id. |
| Admin.PayloadRoleId | src/utils/admin.ts:115 | The payload's raw role id is its `role_id` unless that is nullish, then its `roleId` unless that is nullish, then its `role.id`. |
| Admin.TokenRoleIdTwo | src/utils/admin.ts:111-117 | A user with no role fields at all is an admin when the token payload's `role_id` is the number 2. |
| Admin.UserRoleIdFirst | src/utils/admin.ts:111-115 | When the user has a numeric `role_id`, no token changes the role id. |
| Admin.ByFlag | src/utils/admin.ts:92 | A flag that is exactly `true` makes an admin, whatever the rest says. |
| Admin.ByTextRole | src/utils/admin.ts:95 | An admin-text role field on the user makes an admin. |
| Admin.ByClaims | src/utils/admin.ts:98-107 | Claims in a decodable token that grant admin make an admin, whatever the user record says. |
| Admin.ByRoleId | src/utils/admin.ts:111-117 | A role id of 2 makes an admin. |
| Admin.ByUsername | src/utils/admin.ts:121-122 | A username whose trimmed lower-case form contains `admin` makes an admin. |
| Admin.RoleIdTextTwo | src/utils/admin.ts:111-117 | A `role_id` of `"2"`, with or without white space around it, makes an admin. |
| Admin.UsernameBadminton | src/utils/admin.ts:121-122 | The fallback is a substring test, so a user named `Badminton` is an admin. |
| Admin.NobodyByDefault | src/utils/admin.ts:88-125 | Without a user record or with an empty one, and without a token, nobody is an admin. |
| Admin.TokenOnlyAdds | src/utils/admin.ts:88-125 | Whoever is an admin without a token is one with any token. |
| Admin.UnsignedClaimGrants | src/utils/admin.ts:98-100 | A token is not verified: any token whose middle segment encodes `is_admin: true` makes an admin. |
| Admin.IsAdminUser | src/utils/admin.ts:88-125 | The five steps in source order, on `user ?? {}`. ByFlag, ByTextRole, ByClaims, ByRoleId and ByUsername show each step alone grants admin. NobodyByDefault shows an absent user without a token is not admin, and TokenOnlyAdds that a token can only add the right. |
| DateTime.Trunc | src/utils/datetime.ts:17 | Truncation rounds toward zero and stays within one of the input. |
| DateTime.TimeClip | src/utils/datetime.ts:17-18 | A number gives a date exactly when its magnitude is at most 8.64e15 ms; an integral one gives that instant. |
| DateTime.FromNumber | src/utils/datetime.ts:14-19 | Numbers below 10^12 are seconds and are multiplied by 1000; larger ones are milliseconds. |
| DateTime.ParseDateTime | src/utils/datetime.ts:10-41 | Nullish, non-finite, non-number-non-text and blank text parse to nothing. Finite numbers go by the number rule. Text the date parser accepts gives its instant. |
| DateTime.NumberDateInRange | src/utils/datetime.ts:14-19 | A number's date, when it has one, is a valid time value. |
| DateTime.SecondsMeanMilliseconds | src/utils/datetime.ts:16 | A ten-digit second count and the same instant in milliseconds parse to the same date. |
| DateTime.EarlyMillisecondsReadAsSeconds | src/utils/datetime.ts:16 | A positive millisecond count below 10^12 is taken for seconds and lands 1000 times later. |
| DateTime.NumericText | src/utils/datetime.ts:36-37 | Integer text that the date parser refuses parses as the number it spells. |
| DateTime.SpaceRetried | src/utils/datetime.ts:29-33 | Text the parser refuses, with a space and no `T`, is retried with its first space replaced by `T`, and the retry's date is taken. |
| DateTime.Pad2TwoDigits | src/utils/datetime.ts:6-8 | Each number below 100 pads to exactly two digits that read back as it. |
| DateTime.FormatRoundTrip | src/utils/datetime.ts:43-50 | `dd.mm.yyyy hh:mm` text reads back into the same calendar fields whenever day, month, hour and minute have at most two digits. |
| DateTime.FormatInjective | src/utils/datetime.ts:43-50 | Different calendar fields print differently. |
| DateTime.ReadPartsExact | src/utils/datetime.ts:43-50 | Only text the formatter could have printed is read back; reading is exact. |
| DateTime.FirstFieldDecides | src/utils/datetime.ts:55-66 | The first present creation field alone decides the shown creation time; later fields are ignored. |
| DateTime.NoCreatedAt | src/utils/datetime.ts:55-66 | A pin with none of the five fields shows no creation time. |
| PinMeta.Key | src/storage/pinMeta.ts:14-18 | A storage key is `clarity_pin_meta:` followed by the id's decimal text. |
| PinMeta.KeyInjective | src/storage/pinMeta.ts:16-18 | Distinct pins never share a storage key. |
| PinMeta.IdOfKeyRoundTrip | src/storage/pinMeta.ts:40-41 | Stripping the prefix from a key and reading the number gives back the pin id. |
| PinMeta.GetPinMeta | src/storage/pinMeta.ts:20-28 | A missing entry reads as null. A non-empty entry reads as the host's JSON parse, with null when parsing throws. |
| PinMeta.WriteEntry | src/storage/pinMeta.ts:30-32 | Writing sets this pin's key to the JSON text and leaves every other key as it was. |
| PinMeta.SetThenGet | src/storage/pinMeta.ts:20-32 | What is written for a pin is read back, and every other pin reads as before. |
| PinMeta.GetManyPinMeta | src/storage/pinMeta.ts:34-50 | The batch read holds an entry for a requested id exactly when reading that pin alone finds one, with the same value, and holds no other ids. |
| PinMeta.DefaultPinMeta | src/storage/pinMeta.ts:52-54 | The default record is category `other` and status `new`, the vocabularies' own fallbacks, stamped now. |
| PinOwner.PinOwnerId | src/utils/pinOwner.ts:5-18 | The owner id is the first present owner field: a finite number, or text read as a finite number; anything else gives null. |
| PinOwner.FirstOwnerFieldDecides | src/utils/pinOwner.ts:5-18 | The first present field alone decides: a finite number is the owner id, integer text reads as its integer, and other values give null. |
| PinOwner.NoOwnerFields | src/utils/pinOwner.ts:5-14 | A pin with none of the seven fields has no owner. |
| PinOwner.OwnerIdTextOrNumber | src/utils/pinOwner.ts:16-17 | An owner id given as a number and the same id given as text name the same owner. |
| Requests.IdsDistinct | src/constants/requests.ts:24-38 | The six category ids and the four status ids are each pairwise distinct. |
| Requests.CategoryById | src/constants/requests.ts:40-42 | The lookup always gives a listed category: the one with that id, else `other`. |
| Requests.StatusById | src/constants/requests.ts:44-46 | The lookup always gives a listed status: the one with that id, else `new`. |
| Requests.CategoryLookupListed | src/constants/requests.ts:40-42 | Looking up a listed category's own id returns exactly that entry. |
| Requests.StatusLookupListed | src/constants/requests.ts:44-46 | Looking up a listed status's own id returns exactly that entry. |
| CreatePin.NewForm | src/screens/CreatePinScreen.tsx:21-35 | A fresh form is not dirty and does not block leaving. It holds the marker at the given point and a listed status. |
| CreatePin.ChooseCategory | src/screens/CreatePinScreen.tsx:199 | Choosing a chip sets exactly that listed category and nothing else. |
| CreatePin.ChooseStatus | src/screens/CreatePinScreen.tsx:209 | Choosing a status chip sets exactly that listed status and nothing else. |
| CreatePin.PickImage | src/screens/CreatePinScreen.tsx:97-101 | A cancelled pick, or one with no asset, changes nothing. Otherwise only the photo changes, to the asset. |
| CreatePin.RemovePhoto | src/screens/CreatePinScreen.tsx:240 | Removing the photo disables submit and changes nothing else. |
| CreatePin.CheckSubmit | src/screens/CreatePinScreen.tsx:142-154 | The checks refuse, in order: a missing category, then a blank photo, then a photo that is not a device file. The photo is uploaded exactly when a category is set and the photo is a device file. |
| CreatePin.TrimmedOrNull | src/screens/CreatePinScreen.tsx:167 | A blank description is sent as null. Otherwise it is sent trimmed and non-empty. |
| CreatePin.CreatePayload | src/screens/CreatePinScreen.tsx:163-168 | The body carries the marker's longitude as `x` and latitude as `y`, the uploaded link and the trimmed description. |
| CreatePin.Submit | src/screens/CreatePinScreen.tsx:141-178 | A submission is refused exactly when a check refuses, for that reason. It creates a pin exactly when the checks pass and both requests succeed; then it sends the payload and stores category and status under the new id. |
| CreatePin.EditsMakeDirty | src/screens/CreatePinScreen.tsx:33-35 | A chosen category always makes the form dirty. Typed text, a picked photo or a moved marker does exactly when it is non-blank or actually moved. |
| CreatePin.Dirty | src/screens/CreatePinScreen.tsx:33-35 | A chosen category, non-blank text or photo, or a moved marker. EditsMakeDirty states each of these exactly, and StatusKeepsDirty shows the status is ignored. |
| CreatePin.StatusKeepsDirty | src/screens/CreatePinScreen.tsx:33-35 | Choosing a status neither dirties nor cleans the form, and does not change whether leaving is blocked. |
| CreatePin.LeavingAllowed | src/screens/CreatePinScreen.tsx:39-41 | Leaving is allowed without asking exactly when submitting, or when nothing has been entered and the marker has not moved. |
| CreatePin.DisabledMatchesChecks | src/screens/CreatePinScreen.tsx:255 | When idle, the button is disabled exactly when the first two checks would refuse. An enabled button can still be refused for a non-device photo. |
| CreatePin.RemotePhotoRefused | src/screens/CreatePinScreen.tsx:151-154 | An `https://` photo leaves the button enabled but is refused as not a device file. |
| CreatePin.PickedDevicePhotoUploads | src/screens/CreatePinScreen.tsx:97-101 | With a category chosen, picking a device photo makes the form submittable and uploads that file. |
| CreatePin.SubmitStoresMeta | src/screens/CreatePinScreen.tsx:170-171 | After a successful submission the chosen category and status read back under the new id, and every other pin's entry is unchanged. |
| CreatePin.DescriptionStable | src/screens/CreatePinScreen.tsx:167 | Sending a sent description again sends it unchanged. |
| PinDetails.Opened | src/screens/PinDetailsScreen.tsx:23-34 | Before loading, no pin is found and nothing is being edited; the chips show `other` and `new`. |
| PinDetails.FindPin | src/screens/PinDetailsScreen.tsx:44 | The lookup finds nothing exactly when no loaded pin has the id; otherwise it finds the first pin with it. |
| PinDetails.Load | src/screens/PinDetailsScreen.tsx:39-61 | A failed fetch changes nothing. Otherwise the found pin is set, and the category and status come from storage or the defaults. When the pin is found, the description is its description or empty, the link its link or empty, and the photo the displayable form of that link; otherwise these are unchanged. |
| PinDetails.LoadWithoutEntry | src/screens/PinDetailsScreen.tsx:47-49 | Without a stored entry the screen shows category `other` and status `new`. |
| PinDetails.StoredMetaLoads | src/screens/PinDetailsScreen.tsx:47-49 | A stored object supplies the category and status that loading shows. |
| PinDetails.PickImage | src/screens/PinDetailsScreen.tsx:108-114 | A new photo replaces the shown one and drops the link, so it will be uploaded. A cancelled pick changes nothing. |
| PinDetails.RemovePhoto | src/screens/PinDetailsScreen.tsx:254-256 | Removing clears both the shown photo and the link, and nothing else. |
| PinDetails.ChooseCategory | src/screens/PinDetailsScreen.tsx:286 | A chip sets exactly that listed category and nothing else. |
| PinDetails.ChooseStatus | src/screens/PinDetailsScreen.tsx:294 | A chip sets exactly that listed status and nothing else. |
| PinDetails.StartEdit | src/screens/PinDetailsScreen.tsx:322 | The edit button enters edit mode and changes nothing else. |
| PinDetails.Cancel | src/screens/PinDetailsScreen.tsx:312-316 | Cancelling leaves edit mode and keeps the pin and the category and status chips. |
| PinDetails.CancelRestoresLoad | src/screens/PinDetailsScreen.tsx:312-316 | Cancelling puts back exactly the description, link and photo that loading the same pin shows. |
| PinDetails.Save | src/screens/PinDetailsScreen.tsx:138-186 | With no pin, saving does nothing. A blank photo is refused. A photo without a link that is not a device file is refused. Saving succeeds exactly when the photo needs no upload or its upload succeeded. It then sends the pin's coordinates, the final link and the trimmed description, and writes the chips under the pin's id. A failed update is tolerated. |
| PinDetails.SaveThenLoad | src/screens/PinDetailsScreen.tsx:174-175 | After a save, reloading the pin shows the saved category and status. |
| PinDetails.KeptPhotoNotUploaded | src/screens/PinDetailsScreen.tsx:149-156 | A photo that already has a link and is not a device file is kept: nothing is uploaded and the link is sent. |
| PinDetails.UntouchedPhotoKept | src/screens/PinDetailsScreen.tsx:51-55 | Saving right after loading a pin with a non-blank link succeeds. It sends the pin's own link, or the fresh upload's link when that link is itself a device file. |
| PinDetails.PickedPhotoUploaded | src/screens/PinDetailsScreen.tsx:150-155 | A newly picked device photo is uploaded and its new link sent; a picked photo that is not a device file is refused. |
| PinDetails.RemovedPhotoRefused | src/screens/PinDetailsScreen.tsx:140-143 | After removing the photo, saving is refused as photo required. |
| PinDetails.SavedMetaTyped | src/screens/PinDetailsScreen.tsx:175 | When the chips hold ids, the saved entry is exactly the typed record that storage documents. |

## Left out

- Base64.RawDecode: text is modelled as a sequence of Unicode scalar values, not UTF-16 code units, so the decoder matches the engine on every character of the Basic Multilingual Plane only; a character above U+FFFF, which JavaScript sees as two surrogate units each looked up as -1, is one character here and decodes differently.
- Rendering, styles, alerts, navigation and the image picker's permission prompts are not modelled; only the state they read and write is.
- The camera error branch of `pickImage` (the `simulator|emulator|…` regular expression and the offer to open the gallery) is left out: it only chooses which alert to show.
- `useMyLocation` on the new-pin form, the `PickLocation` screen, and the map's own location watch are left out: they are device location I/O.
- Network requests are parameters (`None` when they throw). The `getPins(0, 500)` page limit is the server's concern.
- Real timers and elapsed time are left out. A timer is a pending record that fires as an event, so the 650 ms and 700 ms delays are recorded but not timed.
- Coordinates and spans are reals. IEEE-754 rounding and NaN or infinite coordinates are not modelled, and neither is the rounding of `input * 1000`.
- `Math.cos`, `Math.sin`, `Date.parse`, the local calendar getters, `JSON.parse`/`JSON.stringify`, `decodeURIComponent`, and `Number`/`String` on non-integers are abstract `Host`/`Trig` functions.
- Base64.Base64Decode: the UTF-8 step is the abstract `decodeURIComponent`, so only what it is given is stated.
- toLowerCase folds only ASCII and Cyrillic capitals (including Ё); other scripts are left unchanged.
- The `/\badmin\b/i` test folds ASCII letters only, as the regex does without the `u` flag.
- PinMeta.SetThenGet: reading back assumes the host's JSON parse inverts its stringify on the written record (`JsonRoundTrip`). That is a property of the platform's JSON, not of this code.
- Device-storage write failures and read errors are not modelled: the stored map is always readable and writable.
- PinDetails.Save: the server's reply to `updatePin` is accepted whatever it is, and a failed update is not reported; the model records only that saving continues.
- Js.ToNumber: decimal integer text of any length is read as that exact integer. JavaScript's `Number` rounds such text beyond 2^53 and gives Infinity above about 1.8e308; ids are taken to be safe integers, so a huge owner or role id is a finite number here rather than null.
- Js.ToNumberOfIntText: `String` of an integer is its plain decimal digits and reads back exactly. JavaScript prints 10^21 and above in exponent form and rounds beyond 2^53.
- Admin.NormalizeNumberOfIdText, PinMeta.IdOfKeyRoundTrip and PinOwner.OwnerIdTextOrNumber rest on that exact integer reading, so they hold here for ids of any size.
- Stats.TallyOf: the app's tallies are plain objects, so an id such as `constructor`, `toString` or `__proto__` would read an inherited member instead of 0, and writing `__proto__` adds no entry. These prototype keys are not modelled; every id is an ordinary key.
- The list's `FlatList` keys, the badge titles and `toFixed(5)` coordinate display are presentation only.

=== FILE: admin.dfy ===
/**
 * The client-side admin detection of `src/utils/admin.ts`: text and number
 * normalisation of loosely typed fields, the role-name test, reading the
 * payload segment of a JWT without checking its signature, and the
 * five-step precedence of `isAdminUser` over user fields and token claims.
 */
module Admin {
  import opened Wrappers
  import opened Strings
  import opened Decimal
  import opened Js
  import Base64

  // ---------------------------------------------------------------- normalisation

  /** `normalizeString`: `String(v ?? '').trim()`. */
  function NormalizeString(host: Host, v: Value): (r: string)
    ensures r == [] || (!IsSpace(r[0]) && !IsSpace(r[|r| - 1]))
    ensures Nullish(v) ==> r == []
    ensures v.Str? ==> r == Trim(v.s)
  {
    Trim(ToText(host, Coalesce(v, Str(""))))
  }

  /** Normalising normalised text changes nothing. */
  lemma NormalizeStringIdempotent(host: Host, v: Value)
    ensures NormalizeString(host, Str(NormalizeString(host, v))) == NormalizeString(host, v)
  {
    TrimOfTrimmed(NormalizeString(host, v));
  }

  /**
   * `normalizeNumber`: `null` for nullish input, a finite number as is, and
   * otherwise the number its trimmed text reads as, when that is finite.
   */
  function NormalizeNumber(host: Host, v: Value): (r: Option<real>)
    ensures Nullish(v) ==> r == None
    ensures IsFinite(v) ==> r == Some(v.n.value)
    ensures !Nullish(v) && !IsFinite(v) && NormalizeString(host, v) == [] ==> r == None
  {
    if Nullish(v) then None
    else if IsFinite(v) then Some(v.n.value)
    else
      var s := NormalizeString(host, v);
      if s == [] then None
      else
        match ToNumber(host, s)
        case Fin(x) => Some(x)
        case _ => None
  }

  /** An integer id written as text, with any surrounding white space, reads back as that id. */
  lemma NormalizeNumberOfIdText(host: Host, n: int, pad: string)
    requires forall i :: 0 <= i < |pad| ==> IsSpace(pad[i])
    ensures NormalizeNumber(host, Str(pad + IntToString(n) + pad)) == Some(n as real)
  {
    var t := IntToString(n);
    IdTextTrims(n, pad);
    var v := Str(pad + t + pad);
    assert NormalizeString(host, v) == t;
    ToNumberOfIntText(host, n);
    NormalizeNumberOfText(host, v, n as real);
  }

  /** Text normalising to the text of a number reads as that number. */
  lemma NormalizeNumberOfText(host: Host, v: Value, x: real)
    requires v.Str? && NormalizeString(host, v) != []
    requires ToNumber(host, NormalizeString(host, v)) == Fin(x)
    ensures NormalizeNumber(host, v) == Some(x)
  {
  }

  lemma IdTextTrims(n: int, pad: string)
    requires forall i :: 0 <= i < |pad| ==> IsSpace(pad[i])
    ensures Trim(pad + IntToString(n) + pad) == IntToString(n)
  {
    var t := IntToString(n);
    IntTextEdges(n);
    NotSpaceVisible(t[0]);
    NotSpaceVisible(t[|t| - 1]);
    TrimAround(pad, t);
  }

  /** Trimming removes white space around text that starts and ends with a digit or sign. */
  lemma TrimAround(pad: string, t: string)
    requires forall i :: 0 <= i < |pad| ==> IsSpace(pad[i])
    requires t != [] && !IsSpace(t[0]) && !IsSpace(t[|t| - 1])
    ensures Trim(pad + t + pad) == t
  {
    var s := pad + t + pad;
    var a, b := |pad|, |pad| + |t|;
    forall i | 0 <= i < a
      ensures IsSpace(s[i])
    {
      assert s[i] == pad[i];
    }
    forall i | b <= i < |s|
      ensures IsSpace(s[i])
    {
      assert s[i] == pad[i - b];
    }
    assert s[a] == t[0] && s[b - 1] == t[|t| - 1];
    TrimBounds(s, a, b);
    assert s[a..b] == t;
  }

  /**
   * The trimmed text of `s` is `s[a..b]` when everything before `a` and from
   * `b` on is white space and the characters at `a` and `b - 1` are not.
   */
  lemma TrimBounds(s: string, a: int, b: int)
    requires 0 <= a < b <= |s|
    requires forall i :: 0 <= i < a ==> IsSpace(s[i])
    requires forall i :: b <= i < |s| ==> IsSpace(s[i])
    requires !IsSpace(s[a]) && !IsSpace(s[b - 1])
    ensures Trim(s) == s[a..b]
  {
    var e := TrimEnd(s);
    assert !IsSpace(s[b - 1]);
    assert |e| == b;
    assert e == s[..b];
    var f := TrimStart(e);
    assert !IsSpace(e[a]);
    assert |e| - |f| == a;
  }

  // ---------------------------------------------------------------- role names

  /** `админ` and `администратор`, the Russian words for admin and administrator. */
  const AdminRu: string := "\U{430}\U{434}\U{43C}\U{438}\U{43D}"
  const AdministratorRu: string := AdminRu + "\U{438}\U{441}\U{442}\U{440}\U{430}\U{442}\U{43E}\U{440}"

  /** The admin words, or any text containing `admin`; never the empty text. */
  predicate AdminText(s: string) {
    s != [] && (s == "admin" || s == "administrator" || s == AdminRu || s == AdministratorRu || Contains(s, "admin"))
  }

  /** `isAdminByText`: the lower-cased normalised text is one of the admin words or contains `admin`. */
  predicate IsAdminByText(host: Host, v: Value) {
    AdminText(Lower(NormalizeString(host, v)))
  }

  /**
   * The two English words are special cases of the substring test: the
   * rule is "contains `admin`, or is exactly one of the two Russian words".
   */
  lemma AdminTextIff(s: string)
    ensures AdminText(s) <==> (s == AdminRu || s == AdministratorRu || Contains(s, "admin"))
  {
    if s == "administrator" || s == "admin" {
      assert MatchAt(s, "admin", 0);
    }
  }

  /** Text with `admin` somewhere in it is admin text. */
  lemma AdminTextAt(s: string, i: int)
    requires MatchAt(s, "admin", i)
    ensures AdminText(s)
  {
  }

  /** The empty text is not. */
  lemma NotAdminEmpty(host: Host, v: Value)
    requires Nullish(v)
    ensures !IsAdminByText(host, v)
  {
  }

  /** Capitals and surrounding white space do not matter. */
  lemma AdminByTextCaseAndSpace(host: Host)
    ensures IsAdminByText(host, Str(" ADMIN "))
  {
    var s, t := " ADMIN ", "ADMIN";
    TrimBounds(s, 1, 6);
    assert s[1..6] == t;
    LowerAdmin();
    AdminTextAt("admin", 0);
  }

  lemma LowerAdmin()
    ensures Lower("ADMIN") == "admin"
  {
    var l := Lower("ADMIN");
    forall i | 0 <= i < 5
      ensures l[i] == "admin"[i]
    {
      assert IsAsciiUpper("ADMIN"[i]);
    }
  }

  /** Russian capitals fold too. */
  lemma AdminByTextRussian(host: Host)
    ensures IsAdminByText(host, Str("\U{410}\U{434}\U{43C}\U{438}\U{43D}"))
  {
    var ru := "\U{410}\U{434}\U{43C}\U{438}\U{43D}";
    TrimOfTrimmed(ru);
    assert Lower(ru) == AdminRu;
  }

  /** The substring test also accepts words that merely contain `admin`. */
  lemma AdminByTextBadminton(host: Host)
    ensures IsAdminByText(host, Str("Badminton"))
  {
    BadmintonHasAdmin();
    assert NormalizeString(host, Str("Badminton")) == Trim("Badminton");
  }

  /** A one-element array is read through its element's text: `String(['admin'])` is `admin`. */
  lemma AdminByTextArray(host: Host, v: Value)
    requires !Nullish(v)
    ensures IsAdminByText(host, Arr([v])) == IsAdminByText(host, v)
  {
    assert ToText(host, Arr([v])) == ToText(host, v);
  }

  // ---------------------------------------------------------------- scopes

  /** `\w`: ASCII letters, digits and `_`. */
  predicate IsWordChar(c: char) {
    'a' <= c <= 'z' || 'A' <= c <= 'Z' || '0' <= c <= '9' || c == '_'
  }

  /** Case-insensitive comparison of `/i` without the `u` flag: only ASCII letters fold. */
  function FoldAscii(c: char): char {
    if 'A' <= c <= 'Z' then (c as int + 32) as char else c
  }

  /** `\badmin\b` matches at `i`: `admin` in any case, with no word character on either side. */
  predicate AdminWordAt(s: string, i: int) {
    && 0 <= i <= |s| - 5
    && FoldAscii(s[i]) == 'a' && FoldAscii(s[i + 1]) == 'd' && FoldAscii(s[i + 2]) == 'm'
    && FoldAscii(s[i + 3]) == 'i' && FoldAscii(s[i + 4]) == 'n'
    && (i == 0 || !IsWordChar(s[i - 1]))
    && (i + 5 == |s| || !IsWordChar(s[i + 5]))
  }

  predicate HasAdminWord(s: string) {
    exists i | 0 <= i <= |s| :: AdminWordAt(s, i)
  }

  /** `/\badmin\b/i.test(s)`: the scan the regular expression engine performs, from position `k`. */
  function ScanAdminWord(s: string, k: nat): (r: bool)
    ensures r <==> exists i | k <= i <= |s| :: AdminWordAt(s, i)
    decreases |s| - k
  {
    if k + 5 > |s| then false
    else AdminWordAt(s, k) || ScanAdminWord(s, k + 1)
  }

  /** The scan from the start decides the regular expression. */
  lemma ScanAdminWordIff(s: string)
    ensures ScanAdminWord(s, 0) <==> HasAdminWord(s)
  {
  }

  /** A space-separated scope list grants admin by the whole word only. */
  lemma ScopeWords()
    ensures HasAdminWord("read ADMIN")
    ensures !HasAdminWord("read badminton")
    ensures !HasAdminWord("admin_panel")
  {
    assert AdminWordAt("read ADMIN", 5);
    BadmintonNoWord();
    PanelNoWord();
  }

  lemma BadmintonNoWord()
    ensures !HasAdminWord("read badminton")
  {
    var s := "read badminton";
    forall i | 0 <= i <= |s|
      ensures !AdminWordAt(s, i)
    {
      if i == 6 {
        assert IsWordChar(s[5]);
      } else if 0 <= i <= |s| - 5 {
        assert s[i] != 'a' || s[i + 1] != 'd' || s[i + 2] != 'm';
      }
    }
  }

  lemma PanelNoWord()
    ensures !HasAdminWord("admin_panel")
  {
    ScanAdminWordIff("admin_panel");
    assert !ScanAdminWord("admin_panel", 0);
  }

  // ---------------------------------------------------------------- the token

  /**
   * `decodeJwtPayload`: `null` for a missing or empty token or one without a
   * `.`; otherwise the parse of the decoded second segment, `null` when the
   * parse fails. The signature is not looked at.
   */
  function DecodeJwtPayload(host: Host, token: Option<string>): (r: Value)
    ensures token.None? || token.value == [] || '.' !in token.value ==> r == Null
  {
    match token
    case None => Null
    case Some(t) =>
      if t == [] then Null
      else
        var parts := Split(t, '.');
        SplitHasTwoParts(t, '.');
        if |parts| < 2 then Null
        else host.jsonParse(Base64.Base64Decode(host, parts[1])).GetOr(Null)
  }

  /**
   * For a token `header.payload.signature` whose payload segment is the
   * base64url form of some bytes, what is parsed is those bytes, read by the
   * UTF-8 step; header and signature play no part.
   */
  lemma DecodeJwtPayloadSegment(host: Host, header: string, bytes: seq<Base64.Byte>, signature: string)
    requires '.' !in header
    ensures var text := Base64.Latin1(bytes);
      DecodeJwtPayload(host, Some(header + "." + Base64.UrlEncode(bytes) + "." + signature))
        == host.jsonParse(host.uriDecode(Base64.PercentText(text)).GetOr(text)).GetOr(Null)
  {
    var p := Base64.UrlEncode(bytes);
    Base64.UrlEncodeNoDot(bytes);
    SplitMiddle(header, p, signature, '.');
    var t := header + "." + p + "." + signature;
    assert Split(t, '.')[1] == p;
    Base64.Base64DecodeUrlEncode(host, bytes);
  }

  // ---------------------------------------------------------------- the precedence

  /** `v.is_admin === true || v.isAdmin === true || v.admin === true`. */
  predicate HasTrueFlag(v: Value) {
    Field(v, "is_admin") == Bool(true) || Field(v, "isAdmin") == Bool(true) || Field(v, "admin") == Bool(true)
  }

  /** `isAdminByText` of `v.role`, `v.role_name` or `v.role.name`. */
  predicate HasTextRole(host: Host, v: Value) {
    IsAdminByText(host, Field(v, "role")) || IsAdminByText(host, Field(v, "role_name"))
    || IsAdminByText(host, Field(Field(v, "role"), "name"))
  }

  /** `Array.isArray(v) && v.some(isAdminByText)`. */
  predicate AnyAdminText(host: Host, v: Value) {
    v.Arr? && exists i | 0 <= i < |v.items| :: IsAdminByText(host, v.items[i])
  }

  /** Step 3: the claims of a truthy payload that grant admin. */
  predicate ClaimsGrant(host: Host, payload: Value) {
    var scopes := NormalizeString(host, Or(Field(payload, "scope"), Field(payload, "scopes")));
    || HasTrueFlag(payload)
    || HasTextRole(host, payload)
    || (scopes != [] && ScanAdminWord(scopes, 0))
    || AnyAdminText(host, Field(payload, "roles"))
    || AnyAdminText(host, Field(payload, "permissions"))
  }

  /**
   * Step 4's role id: the first of the user's `role_id`, `roleId` and
   * `role.id` that normalises to a number; only when none does, the
   * payload's `role_id ?? roleId ?? role.id`, normalised.
   */
  function RoleId(host: Host, u: Value, payload: Value): (r: Option<real>)
    ensures NormalizeNumber(host, Field(u, "role_id")).Some? ==> r == NormalizeNumber(host, Field(u, "role_id"))
    ensures NormalizeNumber(host, Field(u, "role_id")).None? && NormalizeNumber(host, Field(u, "roleId")).Some?
            ==> r == NormalizeNumber(host, Field(u, "roleId"))
    ensures NormalizeNumber(host, Field(u, "role_id")).None? && NormalizeNumber(host, Field(u, "roleId")).None?
            && NormalizeNumber(host, Field(Field(u, "role"), "id")).Some?
            ==> r == NormalizeNumber(host, Field(Field(u, "role"), "id"))
    ensures NormalizeNumber(host, Field(u, "role_id")).None? && NormalizeNumber(host, Field(u, "roleId")).None?
            && NormalizeNumber(host, Field(Field(u, "role"), "id")).None?
            ==> r == if Truthy(payload) then NormalizeNumber(host, PayloadRoleId(payload)) else None
    ensures !Truthy(payload) && r.Some? ==> r in [NormalizeNumber(host, Field(u, "role_id")), NormalizeNumber(host, Field(u, "roleId")), NormalizeNumber(host, Field(Field(u, "role"), "id"))]
  {
    var a := NormalizeNumber(host, Field(u, "role_id"));
    var b := NormalizeNumber(host, Field(u, "roleId"));
    var c := NormalizeNumber(host, Field(Field(u, "role"), "id"));
    if a.Some? then a
    else if b.Some? then b
    else if c.Some? then c
    else if Truthy(payload) then NormalizeNumber(host, PayloadRoleId(payload))
    else None
  }

  /** The token's raw role id, `payload.role_id ?? payload.roleId ?? payload.role.id`, coalesced before normalising. */
  function PayloadRoleId(payload: Value): (r: Value)
    ensures !Nullish(Field(payload, "role_id")) ==> r == Field(payload, "role_id")
    ensures Nullish(Field(payload, "role_id")) && !Nullish(Field(payload, "roleId")) ==> r == Field(payload, "roleId")
    ensures Nullish(Field(payload, "role_id")) && Nullish(Field(payload, "roleId")) ==>
            r == Coalesce(Field(Field(payload, "role"), "id"), Null)
  {
    Coalesce(Field(payload, "role_id"), Coalesce(Field(payload, "roleId"), Coalesce(Field(Field(payload, "role"), "id"), Null)))
  }

  /** Step 5: the normalised, lower-cased `username` contains `admin`. */
  predicate UsernameSaysAdmin(host: Host, u: Value) {
    var name := Lower(NormalizeString(host, Field(u, "username")));
    name != [] && Contains(name, "admin")
  }

  /** `isAdminUser`: the five steps in order; the first that holds decides. */
  predicate IsAdminUser(host: Host, user: Value, token: Option<string>) {
    var u := Coalesce(user, Obj([]));
    var payload := DecodeJwtPayload(host, token);
    || HasTrueFlag(u)
    || HasTextRole(host, u)
    || (Truthy(payload) && ClaimsGrant(host, payload))
    || RoleId(host, u, payload) == Some(2.0)
    || UsernameSaysAdmin(host, u)
  }

  /** Each step's grant, on its own, makes an admin: a flag that is exactly `true`, whatever else the record says. */
  lemma ByFlag(host: Host, user: Value, token: Option<string>)
    requires !Nullish(user) && HasTrueFlag(user)
    ensures IsAdminUser(host, user, token)
  {
  }

  lemma ByTextRole(host: Host, user: Value, token: Option<string>)
    requires !Nullish(user) && HasTextRole(host, user)
    ensures IsAdminUser(host, user, token)
  {
  }

  lemma ByUsername(host: Host, user: Value, token: Option<string>)
    requires !Nullish(user) && UsernameSaysAdmin(host, user)
    ensures IsAdminUser(host, user, token)
  {
  }

  lemma ByRoleId(host: Host, user: Value, token: Option<string>)
    requires !Nullish(user) && RoleId(host, user, DecodeJwtPayload(host, token)) == Some(2.0)
    ensures IsAdminUser(host, user, token)
  {
  }

  lemma ByClaims(host: Host, user: Value, token: Option<string>)
    requires Truthy(DecodeJwtPayload(host, token)) && ClaimsGrant(host, DecodeJwtPayload(host, token))
    ensures IsAdminUser(host, user, token)
  {
  }

  /** The empty record has no field that grants anything. */
  lemma EmptyRecord(host: Host)
    ensures !HasTrueFlag(Obj([])) && !HasTextRole(host, Obj([]))
    ensures RoleId(host, Obj([]), Null) == None
    ensures !UsernameSaysAdmin(host, Obj([]))
  {
    EmptyNoTextRole(host);
    EmptyNoRoleId(host);
    EmptyNoName(host);
  }

  lemma EmptyNoTextRole(host: Host)
    ensures !HasTrueFlag(Obj([])) && !HasTextRole(host, Obj([]))
  {
    assert Field(Obj([]), "role") == Undefined && Field(Obj([]), "role_name") == Undefined;
    assert Field(Undefined, "name") == Undefined;
    NotAdminEmpty(host, Undefined);
    assert !HasTextRole(host, Obj([]));
  }

  lemma EmptyNoRoleId(host: Host)
    ensures RoleId(host, Obj([]), Null) == None
  {
  }

  lemma EmptyNoName(host: Host)
    ensures !UsernameSaysAdmin(host, Obj([]))
  {
    assert Field(Obj([]), "username") == Undefined;
    assert NormalizeString(host, Undefined) == [];
    assert Lower([]) == [];
  }

  /** Without a user record and without a token nobody is an admin. */
  lemma NobodyByDefault(host: Host)
    ensures !IsAdminUser(host, Null, None)
    ensures !IsAdminUser(host, Obj([]), None)
  {
    EmptyRecord(host);
    assert DecodeJwtPayload(host, None) == Null;
  }

  /** A token can only add admin rights: whoever is an admin without it is one with any token. */
  lemma TokenOnlyAdds(host: Host, user: Value, token: Option<string>)
    requires IsAdminUser(host, user, None)
    ensures IsAdminUser(host, user, token)
  {
    var u := Coalesce(user, Obj([]));
    var payload := DecodeJwtPayload(host, token);
    if RoleId(host, u, Null) == Some(2.0) {
      assert RoleId(host, u, payload) == Some(2.0);
    }
  }

  /**
   * The token's signature is not checked: a token whose payload parses to
   * `{"is_admin": true}` makes any user an admin, whoever signed it.
   */
  lemma UnsignedClaimGrants(host: Host, user: Value, header: string, bytes: seq<Base64.Byte>, signature: string)
    requires '.' !in header
    requires var text := Base64.Latin1(bytes);
      host.jsonParse(host.uriDecode(Base64.PercentText(text)).GetOr(text)) == Some(Obj([("is_admin", Bool(true))]))
    ensures IsAdminUser(host, user, Some(header + "." + Base64.UrlEncode(bytes) + "." + signature))
  {
    var token := Some(header + "." + Base64.UrlEncode(bytes) + "." + signature);
    DecodeJwtPayloadSegment(host, header, bytes, signature);
    var payload := DecodeJwtPayload(host, token);
    assert payload == Obj([("is_admin", Bool(true))]);
    assert HasTrueFlag(payload);
    ByClaims(host, user, token);
  }

  /** A role id of 2 given as text, white space around it or not, makes an admin. */
  lemma RoleIdTextTwo(host: Host, user: Value, pad: string, token: Option<string>)
    requires !Nullish(user) && Field(user, "role_id") == Str(pad + "2" + pad)
    requires forall i :: 0 <= i < |pad| ==> IsSpace(pad[i])
    ensures IsAdminUser(host, user, token)
  {
    assert IntToString(2) == "2";
    NormalizeNumberOfIdText(host, 2, pad);
    ByRoleId(host, user, token);
  }

  /** The user's own role id comes first: a token cannot supply one when the user has one. */
  lemma UserRoleIdFirst(host: Host, u: Value, p1: Value, p2: Value)
    requires NormalizeNumber(host, Field(u, "role_id")).Some?
    ensures RoleId(host, u, p1) == RoleId(host, u, p2)
  {
  }

  /**
   * The token is consulted only when the user record gives no role id: a user
   * without role fields whose token carries `role_id: 2` is an administrator.
   */
  lemma TokenRoleIdTwo(host: Host, user: Value, token: Option<string>)
    requires !Nullish(user)
    requires Field(user, "role_id") == Undefined && Field(user, "roleId") == Undefined && Field(user, "role") == Undefined
    requires Field(DecodeJwtPayload(host, token), "role_id") == Number(Fin(2.0))
    ensures IsAdminUser(host, user, token)
  {
    var payload := DecodeJwtPayload(host, token);
    assert Truthy(payload);
    assert PayloadRoleId(payload) == Number(Fin(2.0));
    assert RoleId(host, user, payload) == Some(2.0);
  }

  /** The fallback is a substring test on the user name: `Badminton` passes it. */
  lemma UsernameBadminton(host: Host, user: Value, token: Option<string>)
    requires !Nullish(user) && Field(user, "username") == Str("Badminton")
    ensures IsAdminUser(host, user, token)
  {
    BadmintonHasAdmin();
    NameWithAdmin(host, user, "Badminton");
    ByUsername(host, user, token);
  }

  lemma BadmintonHasAdmin()
    ensures Contains(Lower(Trim("Badminton")), "admin")
  {
    BadmintonTrimmed();
    BadmintonLower();
  }

  lemma BadmintonTrimmed()
    ensures Trim("Badminton") == "Badminton"
  {
    TrimOfTrimmed("Badminton");
  }

  lemma BadmintonLower()
    ensures Contains(Lower("Badminton"), "admin")
  {
    var t := "Badminton";
    var l := Lower(t);
    forall i | 1 <= i < 6
      ensures l[i] == t[i]
    {
      assert 'a' <= t[i] <= 'n';
    }
    assert l[1..6] == t[1..6] == "admin";
    assert MatchAt(l, "admin", 1);
  }

  /** A user name whose trimmed lower-case text contains `admin` says admin. */
  lemma NameWithAdmin(host: Host, user: Value, name: string)
    requires Field(user, "username") == Str(name)
    requires Contains(Lower(Trim(name)), "admin")
    ensures UsernameSaysAdmin(host, user)
  {
    assert NormalizeString(host, Field(user, "username")) == Trim(name);
    var i :| 0 <= i <= |Lower(Trim(name))| - 5 && MatchAt(Lower(Trim(name)), "admin", i);
  }
}

=== FILE: assoc.dfy ===
/**
 * Insertion-ordered association lists: the model of a JavaScript `Map` and of a
 * plain object used as a record with string keys. `set` on a present key keeps
 * its position; a new key goes to the end, as `entries()` iterates.
 */
module Assoc {
  import opened Wrappers

  type Assoc<K, V> = seq<(K, V)>

  function Keys<K, V>(a: Assoc<K, V>): (ks: seq<K>)
    ensures |ks| == |a| && forall i :: 0 <= i < |a| ==> ks[i] == a[i].0
  {
    if a == [] then [] else [a[0].0] + Keys(a[1..])
  }

  ghost predicate DistinctKeys<K, V>(a: Assoc<K, V>) {
    forall i, j :: 0 <= i < j < |a| ==> a[i].0 != a[j].0
  }

  /** Position of `k`, or -1. */
  function Find<K(==), V>(a: Assoc<K, V>, k: K): (r: int)
    ensures -1 <= r < |a|
    ensures r >= 0 ==> a[r].0 == k && forall i :: 0 <= i < r ==> a[i].0 != k
    ensures r == -1 <==> forall i :: 0 <= i < |a| ==> a[i].0 != k
  {
    if a == [] then -1
    else if a[0].0 == k then 0
    else var r := Find(a[1..], k); if r < 0 then -1 else r + 1
  }

  /** `m.get(k)`. */
  function Get<K(==), V>(a: Assoc<K, V>, k: K): (r: Option<V>)
    ensures r.Some? <==> k in Keys(a)
    ensures r.Some? ==> (k, r.value) in a
  {
    var i := Find(a, k);
    if i < 0 then None else Some(a[i].1)
  }

  /** `m.set(k, v)`: overwrite in place, or append a new entry. */
  function Put<K(==), V>(a: Assoc<K, V>, k: K, v: V): (r: Assoc<K, V>)
    ensures k in Keys(a) ==> |r| == |a| && Keys(r) == Keys(a)
    ensures k !in Keys(a) ==> r == a + [(k, v)]
  {
    var i := Find(a, k);
    if i < 0 then a + [(k, v)] else a[i := (k, v)]
  }

  /** Reading a key that is present gives the value at its position. */
  lemma GetFound<K, V>(a: Assoc<K, V>, k: K)
    requires Find(a, k) >= 0
    ensures Get(a, k) == Some(a[Find(a, k)].1)
  {
  }

  /** Writing a present key overwrites its entry in place. */
  lemma PutFound<K, V>(a: Assoc<K, V>, k: K, v: V)
    requires Find(a, k) >= 0
    ensures Put(a, k, v) == a[Find(a, k) := (k, v)]
  {
  }

  /** Writing an absent key appends it. */
  lemma PutNew<K, V>(a: Assoc<K, V>, k: K, v: V)
    requires Find(a, k) < 0
    ensures Get(a, k) == None && Put(a, k, v) == a + [(k, v)]
  {
  }

  /** A stored value is read back; every other key is untouched. */
  lemma PutGet<K, V>(a: Assoc<K, V>, k: K, v: V, k': K)
    requires DistinctKeys(a)
    ensures DistinctKeys(Put(a, k, v))
    ensures Get(Put(a, k, v), k') == if k' == k then Some(v) else Get(a, k')
  {
    PutDistinct(a, k, v);
    if k' == k {
      PutGetSame(a, k, v);
    } else {
      PutGetOther(a, k, v, k');
    }
  }

  /** Writing keeps the keys distinct. */
  lemma PutDistinct<K, V>(a: Assoc<K, V>, k: K, v: V)
    requires DistinctKeys(a)
    ensures DistinctKeys(Put(a, k, v))
  {
    var r := Put(a, k, v);
    if Find(a, k) >= 0 {
      assert forall j :: 0 <= j < |r| ==> r[j].0 == a[j].0;
    } else {
      assert forall j :: 0 <= j < |a| ==> r[j] == a[j];
    }
  }

  /** Lists with the same keys in the same places find every key at the same place. */
  lemma FindSameKeys<K, V>(a: Assoc<K, V>, b: Assoc<K, V>, k: K)
    requires |a| == |b| && forall j :: 0 <= j < |a| ==> a[j].0 == b[j].0
    ensures Find(a, k) == Find(b, k)
  {
  }

  /** Appending an entry does not move the keys already present, nor hide an absent one. */
  lemma FindAppend<K, V>(a: Assoc<K, V>, e: (K, V), k: K)
    ensures Find(a + [e], k) == if Find(a, k) >= 0 then Find(a, k) else if e.0 == k then |a| else -1
  {
    var r := a + [e];
    assert forall j :: 0 <= j < |a| ==> r[j] == a[j];
    assert r[|a|] == e;
  }

  /** Writing a key reads it back, whatever the rest of the list. */
  lemma PutGetSame<K, V>(a: Assoc<K, V>, k: K, v: V)
    ensures Get(Put(a, k, v), k) == Some(v)
  {
    var i := Find(a, k);
    var r := Put(a, k, v);
    if i >= 0 {
      FindSameKeys(r, a, k);
    } else {
      FindAppend(a, (k, v), k);
    }
  }

  /** Writing a key leaves every other key's value alone, whatever the rest of the list. */
  lemma PutGetOther<K, V>(a: Assoc<K, V>, k: K, v: V, k': K)
    requires k' != k
    ensures Get(Put(a, k, v), k') == Get(a, k')
  {
    var i := Find(a, k);
    var r := Put(a, k, v);
    if i >= 0 {
      FindSameKeys(r, a, k');
    } else {
      FindAppend(a, (k, v), k');
    }
  }
}

=== FILE: base64.dfy ===
/**
 * The hand-written base64 decoder of `src/utils/admin.ts` (`base64Decode`):
 * base64url characters are mapped to base64 (section 5 of RFC 4648), `=` is
 * appended up to a multiple of four, and every group of four characters is
 * regrouped into up to three UTF-16 code units with 32-bit integer bit
 * operations, exactly as the engine evaluates them on every character of the
 * Basic Multilingual Plane, including characters outside the alphabet. The
 * UTF-8 step that follows is a `Host` primitive.
 *
 * An independent encoder (section 4 of RFC 4648, and the unpadded base64url
 * form tokens use) states what the decoder is meant to invert.
 */
module Base64 {
  import opened Wrappers
  import opened Seqs
  import opened Js

  const Upper: string := "ABCDEFGHIJKLMNOPQRSTUVWXYZ"
  const LowerCase: string := "abcdefghijklmnopqrstuvwxyz"
  const Decimals: string := "0123456789"

  /** The decoder's lookup string: the 64 digits of the alphabet, then `=` at index 64. */
  const Chars: string := Upper + LowerCase + Decimals + "+/="

  /** The base64 digit with value `x`. */
  function Digit(x: int): (c: char)
    requires 0 <= x < 64
  {
    if x < 26 then ('A' as int + x) as char
    else if x < 52 then ('a' as int + x - 26) as char
    else if x < 62 then ('0' as int + x - 52) as char
    else if x == 62 then '+'
    else '/'
  }

  /** The base64url digit with value `x`: `-` and `_` replace `+` and `/`. */
  function UrlDigit(x: int): (c: char)
    requires 0 <= x < 64
  {
    if x == 62 then '-' else if x == 63 then '_' else Digit(x)
  }

  /** `chars.indexOf(c)`: 0-63 for a digit, 64 for `=`, -1 for anything else. */
  function IndexOfChar(c: char): (r: int)
    ensures -1 <= r <= 64
  {
    if 'A' <= c <= 'Z' then c as int - 'A' as int
    else if 'a' <= c <= 'z' then c as int - 'a' as int + 26
    else if '0' <= c <= '9' then c as int - '0' as int + 52
    else if c == '+' then 62
    else if c == '/' then 63
    else if c == '=' then 64
    else -1
  }

  lemma UpperAt(i: int)
    requires 0 <= i < 26
    ensures Upper[i] == ('A' as int + i) as char
  {
    assert Upper == ['A', 'B', 'C', 'D', 'E', 'F', 'G', 'H', 'I', 'J', 'K', 'L', 'M',
                     'N', 'O', 'P', 'Q', 'R', 'S', 'T', 'U', 'V', 'W', 'X', 'Y', 'Z'];
  }

  lemma LowerAt(i: int)
    requires 0 <= i < 26
    ensures LowerCase[i] == ('a' as int + i) as char
  {
    assert LowerCase == ['a', 'b', 'c', 'd', 'e', 'f', 'g', 'h', 'i', 'j', 'k', 'l', 'm',
                         'n', 'o', 'p', 'q', 'r', 's', 't', 'u', 'v', 'w', 'x', 'y', 'z'];
  }

  lemma DecimalAt(i: int)
    requires 0 <= i < 10
    ensures Decimals[i] == ('0' as int + i) as char
  {
    assert Decimals == ['0', '1', '2', '3', '4', '5', '6', '7', '8', '9'];
  }

  /** The lookup string holds digit `i` at position `i`, and `=` last. */
  lemma CharsAt(i: int)
    requires 0 <= i < 65
    ensures |Chars| == 65 && Chars[i] == if i < 64 then Digit(i) else '='
  {
    if i < 26 {
      UpperAt(i);
    } else if i < 52 {
      LowerAt(i - 26);
    } else if i < 62 {
      DecimalAt(i - 52);
    }
  }

  /** `IndexOfChar` is `chars.indexOf`: the first position of the character in the lookup string, -1 when absent. */
  lemma IndexOfCharIsPosition(c: char)
    ensures IndexOfChar(c) >= 0 ==> Chars[IndexOfChar(c)] == c
    ensures IndexOfChar(c) == -1 <==> c !in Chars
    ensures forall i :: 0 <= i < IndexOfChar(c) ==> Chars[i] != c
  {
    CharsAt(0);
    forall i | 0 <= i < |Chars|
      ensures IndexOfChar(Chars[i]) == i
    {
      IndexOfCharsAt(i);
    }
    var k := IndexOfChar(c);
    if k >= 0 {
      CharsAt(k);
      if k < 64 {
        DigitOfIndex(c);
      }
    }
  }

  /** Each character of the lookup string is found at its own position. */
  lemma IndexOfCharsAt(i: int)
    requires 0 <= i < 65
    ensures |Chars| == 65 && IndexOfChar(Chars[i]) == i
  {
    CharsAt(i);
    if i < 64 {
      IndexOfDigit(i);
    }
  }

  /** A character with a digit position is that digit. */
  lemma DigitOfIndex(c: char)
    requires 0 <= IndexOfChar(c) < 64
    ensures Digit(IndexOfChar(c)) == c
  {
  }

  lemma IndexOfDigit(x: int)
    requires 0 <= x < 64
    ensures IndexOfChar(Digit(x)) == x
  {
  }

  // ---------------------------------------------------------------- preparation

  /** `.replace(/-/g, '+').replace(/_/g, '/')` on one character. */
  function FromUrlChar(c: char): char {
    if c == '-' then '+' else if c == '_' then '/' else c
  }

  function FromUrl(s: string): (r: string)
    ensures |r| == |s| && forall i :: 0 <= i < |s| ==> r[i] == FromUrlChar(s[i])
  {
    if s == [] then [] else [FromUrlChar(s[0])] + FromUrl(s[1..])
  }

  /** `while (input.length % 4 !== 0) input += '='`. */
  function Pad(s: string): (r: string)
    ensures |r| % 4 == 0 && |s| <= |r| < |s| + 4
    ensures r[..|s|] == s && forall i :: |s| <= i < |r| ==> r[i] == '='
    decreases (4 - |s| % 4) % 4
  {
    if |s| % 4 == 0 then s else Pad(s + "=")
  }

  function Prepare(s: string): (r: string)
    ensures |r| % 4 == 0
  {
    Pad(FromUrl(s))
  }

  // ---------------------------------------------------------------- 32-bit arithmetic

  /*
   * The decoder combines indices with `<<`, `>>`, `&` and `|` on 32-bit
   * integers and hands the result to `String.fromCharCode`, which keeps
   * only the low 16 bits (`ToUint16`). Every one of these operators is
   * bitwise or shifts towards the high end, so the low 16 bits of the
   * result depend only on the low 16 bits of the operands: the model
   * computes on those, as integers in [0, 65536).
   */

  function Pow2(k: nat): (r: nat)
    ensures r >= 1
  {
    if k == 0 then 1 else 2 * Pow2(k - 1)
  }

  /** The low 16 bits of a 32-bit integer, read as unsigned (`ToUint16`); -1 is all ones. */
  function Low16(x: int): int {
    x % 0x1_0000
  }

  /** Bitwise or of two non-negative integers. */
  function BitOr(a: nat, b: nat): (r: nat)
    decreases a + b
  {
    if a == 0 then b
    else if b == 0 then a
    else 2 * BitOr(a / 2, b / 2) + (if a % 2 == 1 || b % 2 == 1 then 1 else 0)
  }

  /** `(enc1 << 2) | (enc2 >> 4)`, to 16 bits; `>>` propagates the sign, so -1 stays all ones. */
  function Chr1(e1: int, e2: int): int {
    BitOr(Low16(e1 * 4), Low16(e2 / 16))
  }

  /** `((enc2 & 15) << 4) | (enc3 >> 2)`, to 16 bits. */
  function Chr2(e2: int, e3: int): int {
    BitOr(Low16(e2 % 16 * 16), Low16(e3 / 4))
  }

  /** `((enc3 & 3) << 6) | enc4`, to 16 bits. */
  function Chr3(e3: int, e4: int): int {
    BitOr(Low16(e3 % 4 * 64), Low16(e4))
  }

  /** The code units the decoder can produce: never a surrogate, so always a character. */
  predicate UnitOk(u: int) {
    0 <= u <= 0x104 || 0xFFFC <= u <= 0xFFFF
  }

  /** An or is at least either operand and at most their sum. */
  lemma {:induction false} BitOrBounds(a: nat, b: nat)
    ensures a <= BitOr(a, b) && b <= BitOr(a, b) <= a + b
    decreases a + b
  {
    if a != 0 && b != 0 {
      BitOrBounds(a / 2, b / 2);
    }
  }

  /** Or-ing into `k` ones below `2^k` leaves the ones. */
  lemma BitOrOnes(a: nat, k: nat)
    requires a < Pow2(k)
    ensures BitOr(a, Pow2(k) - 1) == Pow2(k) - 1 && BitOr(Pow2(k) - 1, a) == Pow2(k) - 1
  {
    BitOrOnesRight(a, k);
    BitOrCommutes(a, Pow2(k) - 1);
  }

  lemma {:induction false} BitOrOnesRight(a: nat, k: nat)
    requires a < Pow2(k)
    ensures BitOr(a, Pow2(k) - 1) == Pow2(k) - 1
    decreases k
  {
    if k > 0 && a > 0 {
      var half := Pow2(k - 1);
      var ones := Pow2(k) - 1;
      assert Pow2(k) == 2 * half;
      assert ones / 2 == half - 1 && ones % 2 == 1;
      assert a / 2 < half;
      BitOrOnesRight(a / 2, k - 1);
      assert BitOr(a, ones) == 2 * BitOr(a / 2, half - 1) + 1;
    }
  }

  lemma {:induction false} BitOrCommutes(a: nat, b: nat)
    ensures BitOr(a, b) == BitOr(b, a)
    decreases a + b
  {
    if a != 0 && b != 0 {
      BitOrCommutes(a / 2, b / 2);
    }
  }

  /** Two values below `2^k` or to a value below `2^k`. */
  lemma {:induction false} BitOrBelow(a: nat, b: nat, k: nat)
    requires a < Pow2(k) && b < Pow2(k)
    ensures BitOr(a, b) < Pow2(k)
    decreases k
  {
    if k > 0 && a != 0 && b != 0 {
      BitOrBelow(a / 2, b / 2, k - 1);
    }
  }

  /** With no bits in common, `(a << k) | b` is `a * 2^k + b`. */
  lemma {:induction false} BitOrDisjoint(a: nat, b: nat, k: nat)
    requires b < Pow2(k)
    ensures BitOr(a * Pow2(k), b) == a * Pow2(k) + b
    decreases k
  {
    if k > 0 && a != 0 && b != 0 {
      var half := a * Pow2(k - 1);
      assert a * Pow2(k) == 2 * half;
      assert (2 * half) / 2 == half && (2 * half) % 2 == 0;
      BitOrDisjoint(a, b / 2, k - 1);
      assert BitOr(half, b / 2) == half + b / 2;
    }
  }

  lemma ChrRange(e1: int, e2: int)
    requires -1 <= e1 <= 64 && -1 <= e2 <= 64
    ensures UnitOk(Chr1(e1, e2)) && UnitOk(Chr2(e1, e2)) && UnitOk(Chr3(e1, e2))
  {
    Chr1Range(e1, e2);
    Chr2Range(e1, e2);
    Chr3Range(e1, e2);
  }

  lemma Chr1Range(e1: int, e2: int)
    requires -1 <= e1 <= 64 && -1 <= e2 <= 64
    ensures UnitOk(Chr1(e1, e2))
  {
    var a := if e1 == -1 then 0xFFFC else e1 * 4;
    var b := if e2 == -1 then 0xFFFF else e2 / 16;
    assert Low16(e1 * 4) == a;
    assert Low16(e2 / 16) == b;
    OrRange(a, b);
  }

  lemma Chr2Range(e2: int, e3: int)
    requires -1 <= e2 <= 64 && -1 <= e3 <= 64
    ensures UnitOk(Chr2(e2, e3))
  {
    var a := e2 % 16 * 16;
    var b := if e3 == -1 then 0xFFFF else e3 / 4;
    assert 0 <= a <= 240;
    assert Low16(a) == a;
    assert Low16(e3 / 4) == b;
    OrRange(a, b);
  }

  lemma Chr3Range(e3: int, e4: int)
    requires -1 <= e3 <= 64 && -1 <= e4 <= 64
    ensures UnitOk(Chr3(e3, e4))
  {
    var a := e3 % 4 * 64;
    var b := if e4 == -1 then 0xFFFF else e4;
    assert 0 <= a <= 192;
    assert Low16(a) == a;
    assert Low16(e4) == b;
    OrRange(a, b);
  }

  /** The or of two 16-bit operands that are small together, or one of which is near the top. */
  lemma OrRange(a: nat, b: nat)
    requires a < 0x1_0000 && b < 0x1_0000
    requires a + b <= 0x104 || 0xFFFC <= a || b == 0xFFFF
    ensures UnitOk(BitOr(a, b))
  {
    Pow2Values();
    BitOrBounds(a, b);
    BitOrBelow(a, b, 16);
    if b == 0xFFFF {
      BitOrOnes(a, 16);
    }
  }

  // ---------------------------------------------------------------- decoding

  /** The code units of a group whose characters have lookup positions `e1`..`e4`; a `=` (64) in the last two places ends the output. */
  function DecodeIndices(e1: int, e2: int, e3: int, e4: int): (r: seq<int>)
    requires -1 <= e1 <= 64 && -1 <= e2 <= 64 && -1 <= e3 <= 64 && -1 <= e4 <= 64
    ensures |r| == 1 + (if e3 != 64 then 1 else 0) + (if e4 != 64 then 1 else 0)
    ensures forall i :: 0 <= i < |r| ==> UnitOk(r[i])
  {
    ChrRange(e1, e2);
    ChrRange(e2, e3);
    ChrRange(e3, e4);
    [Chr1(e1, e2)] + (if e3 != 64 then [Chr2(e2, e3)] else []) + (if e4 != 64 then [Chr3(e3, e4)] else [])
  }

  /** The code units of one group of four characters. */
  function DecodeGroup(g: string): (r: seq<int>)
    requires |g| == 4
    ensures |r| == 1 + (if g[2] != '=' then 1 else 0) + (if g[3] != '=' then 1 else 0)
    ensures forall i :: 0 <= i < |r| ==> UnitOk(r[i])
  {
    DecodeIndices(IndexOfChar(g[0]), IndexOfChar(g[1]), IndexOfChar(g[2]), IndexOfChar(g[3]))
  }

  /** The decoding loop over a padded input: the code units of `str`. */
  function DecodeUnits(input: string): (r: seq<int>)
    requires |input| % 4 == 0
    ensures forall i :: 0 <= i < |r| ==> UnitOk(r[i])
  {
    if input == [] then [] else DecodeGroup(input[..4]) + DecodeUnits(input[4..])
  }

  /** The number of `=` among the 3rd and 4th characters of the groups. */
  function GroupPadding(input: string): nat
    requires |input| % 4 == 0
  {
    if input == [] then 0
    else (if input[2] == '=' then 1 else 0) + (if input[3] == '=' then 1 else 0) + GroupPadding(input[4..])
  }

  /** Three units per group, less one per `=` in a group's last two places. */
  lemma {:induction false} DecodeUnitsLength(input: string)
    requires |input| % 4 == 0
    ensures |DecodeUnits(input)| == 3 * (|input| / 4) - GroupPadding(input)
    decreases |input|
  {
    if input != [] {
      DecodeUnitsLength(input[4..]);
    }
  }

  function UnitChar(u: int): char
    requires UnitOk(u)
  {
    u as char
  }

  /** `str`, the decoder's intermediate text: one character per decoded code unit. */
  function RawDecode(b64: string): (r: string)
    ensures |r| == |DecodeUnits(Prepare(b64))|
    ensures forall i :: 0 <= i < |r| ==> r[i] as int == DecodeUnits(Prepare(b64))[i]
  {
    var units := DecodeUnits(Prepare(b64));
    seq(|units|, i requires 0 <= i < |units| => UnitChar(units[i]))
  }

  /** Lower-case hexadecimal digit. */
  function HexDigit(d: int): char
    requires 0 <= d < 16
  {
    if d < 10 then ('0' as int + d) as char else ('a' as int + d - 10) as char
  }

  /** `'%' + ('00' + c.charCodeAt(0).toString(16)).slice(-2)`: the low byte of the unit in two hex digits. */
  function PercentUnit(c: char): (r: string)
    ensures |r| == 3 && r[0] == '%'
  {
    var b := c as int % 256;
    ['%', HexDigit(b / 16), HexDigit(b % 16)]
  }

  /** The value of a lower-case hexadecimal digit. */
  function HexValue(c: char): int {
    if '0' <= c <= '9' then c as int - '0' as int else c as int - 'a' as int + 10
  }

  /** The two digits after `%` spell the unit's low byte. */
  lemma PercentUnitSpellsByte(c: char)
    ensures 16 * HexValue(PercentUnit(c)[1]) + HexValue(PercentUnit(c)[2]) == c as int % 256
  {
  }

  function PercentText(s: string): (r: string)
    ensures |r| == 3 * |s|
  {
    if s == [] then [] else PercentUnit(s[0]) + PercentText(s[1..])
  }

  /** `base64Decode`: the UTF-8 reading of `str`'s bytes, or `str` itself when that throws. */
  function Base64Decode(host: Host, b64: string): string {
    var str := RawDecode(b64);
    host.uriDecode(PercentText(str)).GetOr(str)
  }

  // ---------------------------------------------------------------- encoding

  type Byte = x: int | 0 <= x < 256

  /** The four 6-bit values a group of three bytes is written with. */
  function S0(b0: Byte): int { b0 / 4 }
  function S1(b0: Byte, b1: Byte): int { b0 % 4 * 16 + b1 / 16 }
  function S2(b1: Byte, b2: Byte): int { b1 % 16 * 4 + b2 / 64 }
  function S3(b2: Byte): int { b2 % 64 }

  lemma SextetRange(b0: Byte, b1: Byte)
    ensures 0 <= S0(b0) < 64 && 0 <= S1(b0, b1) < 64 && 0 <= S2(b0, b1) < 64 && 0 <= S3(b0) < 64
  {
  }

  /** The `=` the padded form adds after the last group of `n` bytes. */
  function Padding(n: nat): (r: string)
    ensures |r| < 4 && forall i :: 0 <= i < |r| ==> r[i] == '='
    ensures |r| == (3 - n % 3) % 3
  {
    if n % 3 == 1 then "==" else if n % 3 == 2 then "=" else ""
  }

  /** A base64 digit's value. */
  type Sextet = x: int | 0 <= x < 64

  /** The 6-bit values of the first (up to) three bytes: one more than the bytes. */
  function Sextets(bytes: seq<Byte>): (xs: seq<Sextet>)
    requires bytes != []
    ensures |xs| == (if |bytes| > 2 then 3 else |bytes|) + 1
  {
    var b0, b1, b2 := bytes[0], if |bytes| > 1 then bytes[1] else 0, if |bytes| > 2 then bytes[2] else 0;
    SextetRange(b0, b1);
    SextetRange(b1, b2);
    SextetRange(b2, 0);
    if |bytes| == 1 then [S0(b0), S1(b0, b1)]
    else if |bytes| == 2 then [S0(b0), S1(b0, b1), S2(b1, b2)]
    else [S0(b0), S1(b0, b1), S2(b1, b2), S3(b2)]
  }

  function Digits(xs: seq<Sextet>): (r: string)
    ensures |r| == |xs|
  {
    seq(|xs|, i requires 0 <= i < |xs| => Digit(xs[i]))
  }

  function UrlDigits(xs: seq<Sextet>): (r: string)
    ensures |r| == |xs|
  {
    seq(|xs|, i requires 0 <= i < |xs| => UrlDigit(xs[i]))
  }

  /** Standard padded base64 of `bytes` (section 4 of RFC 4648). */
  function Encode(bytes: seq<Byte>): (r: string)
    ensures |r| % 4 == 0
    decreases |bytes|
  {
    if bytes == [] then []
    else if |bytes| > 2 then Digits(Sextets(bytes)) + Encode(bytes[3..])
    else Digits(Sextets(bytes)) + Padding(|bytes|)
  }

  /** Unpadded base64url of `bytes` (section 5 of RFC 4648), as JWT segments are written. */
  function UrlEncode(bytes: seq<Byte>): string
    decreases |bytes|
  {
    if bytes == [] then []
    else if |bytes| > 2 then UrlDigits(Sextets(bytes)) + UrlEncode(bytes[3..])
    else UrlDigits(Sextets(bytes))
  }

  /** Every character of standard base64 text is one the decoder looks up: a digit or `=`. */
  lemma {:induction false} EncodeAlphabet(bytes: seq<Byte>)
    ensures forall i :: 0 <= i < |Encode(bytes)| ==> 0 <= IndexOfChar(Encode(bytes)[i])
    decreases |bytes|
  {
    if bytes != [] {
      var xs := Sextets(bytes);
      forall i | 0 <= i < |xs|
        ensures 0 <= IndexOfChar(Digits(xs)[i])
      {
        IndexOfDigit(xs[i]);
      }
      if |bytes| > 2 {
        EncodeAlphabet(bytes[3..]);
      }
    }
  }

  /** The text whose code units are the bytes, one per character (what `atob` returns). */
  function Latin1(bytes: seq<Byte>): (r: string)
    ensures |r| == |bytes| && forall i :: 0 <= i < |bytes| ==> r[i] as int == bytes[i]
  {
    seq(|bytes|, i requires 0 <= i < |bytes| => bytes[i] as char)
  }

  // ---------------------------------------------------------------- the bits of a group

  lemma Pow2Values()
    ensures Pow2(2) == 4 && Pow2(4) == 16 && Pow2(6) == 64 && Pow2(16) == 0x1_0000
  {
  }

  /** Division and remainder of `q * m + r` with `r < m`. */
  lemma DivModSum(q: nat, r: nat, m: nat)
    requires m == 4 || m == 16
    requires r < m
    ensures (q * m + r) / m == q && (q * m + r) % m == r
  {
    if m == 4 {
      assert q * m + r == q * 4 + r;
    } else {
      assert q * m + r == q * 16 + r;
    }
  }

  lemma FirstByte(b0: Byte, b1: Byte)
    ensures Chr1(S0(b0), S1(b0, b1)) == b0
  {
    Pow2Values();
    var hi, lo := b0 / 4, b0 % 4;
    assert Low16(S0(b0) * 4) == hi * 4;
    DivModSum(lo, b1 / 16, 16);
    assert Low16(S1(b0, b1) / 16) == lo;
    BitOrDisjoint(hi, lo, 2);
  }

  lemma SecondByte(b0: Byte, b1: Byte, b2: Byte)
    ensures Chr2(S1(b0, b1), S2(b1, b2)) == b1
  {
    Pow2Values();
    var hi, lo := b1 / 16, b1 % 16;
    DivModSum(b0 % 4, hi, 16);
    assert Low16(S1(b0, b1) % 16 * 16) == hi * 16;
    DivModSum(lo, b2 / 64, 4);
    assert Low16(S2(b1, b2) / 4) == lo;
    BitOrDisjoint(hi, lo, 4);
  }

  lemma ThirdByte(b1: Byte, b2: Byte)
    ensures Chr3(S2(b1, b2), S3(b2)) == b2
  {
    Pow2Values();
    var hi, lo := b2 / 64, b2 % 64;
    DivModSum(b1 % 16, hi, 4);
    assert Low16(S2(b1, b2) % 4 * 64) == hi * 64;
    assert Low16(S3(b2)) == lo;
    BitOrDisjoint(hi, lo, 6);
  }

  // ---------------------------------------------------------------- round trips

  lemma DecodeFour(x0: int, x1: int, x2: int, x3: int)
    requires 0 <= x0 < 64 && 0 <= x1 < 64 && 0 <= x2 < 64 && 0 <= x3 < 64
    ensures DecodeGroup([Digit(x0), Digit(x1), Digit(x2), Digit(x3)]) == [Chr1(x0, x1), Chr2(x1, x2), Chr3(x2, x3)]
  {
    IndexOfDigit(x0);
    IndexOfDigit(x1);
    IndexOfDigit(x2);
    IndexOfDigit(x3);
  }

  lemma DecodeThree(x0: int, x1: int, x2: int)
    requires 0 <= x0 < 64 && 0 <= x1 < 64 && 0 <= x2 < 64
    ensures DecodeGroup([Digit(x0), Digit(x1), Digit(x2), '=']) == [Chr1(x0, x1), Chr2(x1, x2)]
  {
    IndexOfDigit(x0);
    IndexOfDigit(x1);
    IndexOfDigit(x2);
  }

  lemma DecodeTwo(x0: int, x1: int)
    requires 0 <= x0 < 64 && 0 <= x1 < 64
    ensures DecodeGroup([Digit(x0), Digit(x1), '=', '=']) == [Chr1(x0, x1)]
  {
    IndexOfDigit(x0);
    IndexOfDigit(x1);
  }

  /** The first group the encoder writes decodes to the first (up to) three bytes. */
  lemma DecodeFirstGroup(bytes: seq<Byte>)
    requires bytes != []
    ensures var n := if |bytes| > 2 then 3 else |bytes|;
      DecodeGroup(Digits(Sextets(bytes)) + (if n == 3 then [] else Padding(|bytes|))) == bytes[..n]
  {
    var b0, b1, b2 := bytes[0], if |bytes| > 1 then bytes[1] else 0, if |bytes| > 2 then bytes[2] else 0;
    SextetRange(b0, b1);
    SextetRange(b1, b2);
    SextetRange(b2, 0);
    if |bytes| > 2 {
      DecodeFour(S0(b0), S1(b0, b1), S2(b1, b2), S3(b2));
      GroupRoundTrip(b0, b1, b2);
    } else if |bytes| == 2 {
      DecodeThree(S0(b0), S1(b0, b1), S2(b1, b2));
      FirstByte(b0, b1);
      SecondByte(b0, b1, b2);
    } else {
      DecodeTwo(S0(b0), S1(b0, b1));
      FirstByte(b0, b1);
    }
  }

  /** The bit regrouping is undone by the decoder's: each group gives back its three bytes. */
  lemma GroupRoundTrip(b0: Byte, b1: Byte, b2: Byte)
    ensures Chr1(S0(b0), S1(b0, b1)) == b0
    ensures Chr2(S1(b0, b1), S2(b1, b2)) == b1
    ensures Chr3(S2(b1, b2), S3(b2)) == b2
  {
    FirstByte(b0, b1);
    SecondByte(b0, b1, b2);
    ThirdByte(b1, b2);
  }

  /** Decoding what the encoder wrote gives back the bytes, one code unit each. */
  lemma {:induction false} DecodeEncode(bytes: seq<Byte>)
    ensures DecodeUnits(Encode(bytes)) == bytes
    decreases |bytes|
  {
    if bytes != [] {
      DecodeFirstGroup(bytes);
      var e := Encode(bytes);
      if |bytes| > 2 {
        assert e[..4] == Digits(Sextets(bytes)) && e[4..] == Encode(bytes[3..]);
        DecodeEncode(bytes[3..]);
        assert bytes == bytes[..3] + bytes[3..];
      } else {
        assert e[..4] == e && e[4..] == [];
        assert bytes[..|bytes|] == bytes;
      }
    }
  }

  lemma FromUrlAppend(a: string, b: string)
    ensures FromUrl(a + b) == FromUrl(a) + FromUrl(b)
  {
    assert forall i :: 0 <= i < |a + b| ==> FromUrl(a + b)[i] == (FromUrl(a) + FromUrl(b))[i];
  }

  lemma FromUrlDigits(xs: seq<Sextet>)
    ensures FromUrl(UrlDigits(xs)) == Digits(xs)
  {
  }

  /** The base64url form, mapped back to the base64 alphabet and padded, is the standard form. */
  lemma {:induction false} UrlEncodeUnpadded(bytes: seq<Byte>)
    ensures FromUrl(UrlEncode(bytes)) + Padding(|bytes|) == Encode(bytes)
    decreases |bytes|
  {
    if |bytes| > 2 {
      UrlEncodeUnpadded(bytes[3..]);
      UrlEncodeStep(bytes);
    } else if bytes != [] {
      FromUrlDigits(Sextets(bytes));
    }
  }

  /** One group more: the group's digits come first in both forms. */
  lemma UrlEncodeStep(bytes: seq<Byte>)
    requires |bytes| > 2
    requires FromUrl(UrlEncode(bytes[3..])) + Padding(|bytes| - 3) == Encode(bytes[3..])
    ensures FromUrl(UrlEncode(bytes)) + Padding(|bytes|) == Encode(bytes)
  {
    UrlEncodeHead(bytes);
    PaddingStep(|bytes|);
    EncodeHead(bytes);
    ConcatStep(FromUrl(UrlEncode(bytes)), Digits(Sextets(bytes)), FromUrl(UrlEncode(bytes[3..])),
               Padding(|bytes| - 3), Encode(bytes[3..]), Encode(bytes));
  }

  lemma EncodeHead(bytes: seq<Byte>)
    requires |bytes| > 2
    ensures Encode(bytes) == Digits(Sextets(bytes)) + Encode(bytes[3..])
  {
  }

  lemma ConcatStep(x: string, d: string, f: string, p: string, e: string, y: string)
    requires x == d + f && f + p == e && y == d + e
    ensures x + p == y
  {
    assert (d + f) + p == d + (f + p);
  }

  lemma UrlEncodeHead(bytes: seq<Byte>)
    requires |bytes| > 2
    ensures FromUrl(UrlEncode(bytes)) == Digits(Sextets(bytes)) + FromUrl(UrlEncode(bytes[3..]))
  {
    var xs, u := Sextets(bytes), UrlEncode(bytes[3..]);
    FromUrlDigits(xs);
    assert UrlEncode(bytes) == UrlDigits(xs) + u;
    FromUrlAppend(UrlDigits(xs), u);
  }

  /** Three bytes more or less need the same padding. */
  lemma PaddingStep(n: nat)
    requires n > 2
    ensures Padding(n) == Padding(n - 3)
  {
    assert n % 3 == (n - 3) % 3;
  }

  /** `Pad` is determined by its contract: the shortest extension by `=` to a multiple of four. */
  lemma PadExact(s: string, t: string)
    requires |t| % 4 == 0 && |s| <= |t| < |s| + 4
    requires t[..|s|] == s && forall i :: |s| <= i < |t| ==> t[i] == '='
    ensures Pad(s) == t
  {
    var p := Pad(s);
    SameMultipleOfFour(|p|, |t|);
    forall i | 0 <= i < |t|
      ensures p[i] == t[i]
    {
      if i < |s| {
        assert p[i] == p[..|s|][i];
        assert t[i] == t[..|s|][i];
      }
    }
  }

  lemma SameMultipleOfFour(a: nat, b: nat)
    requires a % 4 == 0 && b % 4 == 0 && a - 4 < b < a + 4
    ensures a == b
  {
    var qa, qb := a / 4, b / 4;
    assert a == 4 * qa && b == 4 * qb;
  }

  /** The decoder's preparation turns the unpadded base64url form into the standard form. */
  lemma PrepareUrlEncode(bytes: seq<Byte>)
    ensures Prepare(UrlEncode(bytes)) == Encode(bytes)
  {
    var s := FromUrl(UrlEncode(bytes));
    UrlEncodeUnpadded(bytes);
    var t := Encode(bytes);
    assert t[..|s|] == s;
    PadExact(s, t);
  }

  /** A JWT-style segment decodes to the text whose code units are the encoded bytes. */
  lemma RawDecodeUrlEncode(bytes: seq<Byte>)
    ensures RawDecode(UrlEncode(bytes)) == Latin1(bytes)
  {
    PrepareUrlEncode(bytes);
    DecodeEncode(bytes);
  }

  /** `base64Decode` of an encoded segment hands the encoded bytes, one `%xx` each, to the UTF-8 step. */
  lemma Base64DecodeUrlEncode(host: Host, bytes: seq<Byte>)
    ensures Base64Decode(host, UrlEncode(bytes)) == host.uriDecode(PercentText(Latin1(bytes))).GetOr(Latin1(bytes))
  {
    RawDecodeUrlEncode(bytes);
  }

  /** The base64url alphabet has no `.`, so an encoded segment never splits a token. */
  lemma {:induction false} UrlEncodeNoDot(bytes: seq<Byte>)
    ensures '.' !in UrlEncode(bytes)
    decreases |bytes|
  {
    if bytes != [] {
      var d := UrlDigits(Sextets(bytes));
      assert '.' !in d;
      if |bytes| > 2 {
        UrlEncodeNoDot(bytes[3..]);
      }
    }
  }
}

=== FILE: clustering.dfy ===
/**
 * The map screen's clustering engine (`src/screens/MapScreen.tsx`): the status
 * and category filter, the uniform 14 x 14 grid laid over the current region,
 * the buckets of pins per grid cell (a JavaScript `Map` keyed by `"i:j"`,
 * iterated in insertion order), and the render items produced per bucket:
 * a single pin, a cluster badge, or, at high zoom, a "spiderfied" ring of pins.
 *
 * Coordinates are `real`; `Math.cos`/`Math.sin` are the uninterpreted fields of
 * `Trig`.
 */
module Clustering {
  import opened Wrappers
  import opened Seqs
  import opened Assoc
  import opened Pins
  import opened Decimal

  /** Smallest span used for the grid, so cells never collapse. */
  const MinSpan: real := 0.001
  /** At or below this span on both axes clusters are spread out instead. */
  const DisableClusterDelta: real := 0.007
  /** Cells per axis. */
  const GridDivisions: int := 14
  /** Ring radius as a fraction of the span. */
  const SpiderRadiusFactor: real := 0.18
  /** `Math.PI`. */
  const Pi: real := 3.141592653589793

  /** `Math.cos` and `Math.sin`, left uninterpreted. */
  datatype Trig = Trig(cos: real -> real, sin: real -> real)

  // ---------------------------------------------------------------- filter

  /** `filteredPins`: the pins passing both the status and the category chip. */
  function FilteredPins(pins: seq<Pin>, status: Choice, category: Choice): (r: seq<Pin>)
    ensures forall i :: 0 <= i < |r| ==> r[i] in pins && MatchesFilters(r[i], status, category)
    ensures forall i :: 0 <= i < |pins| && MatchesFilters(pins[i], status, category) ==> pins[i] in r
  {
    Filter(pins, p => MatchesFilters(p, status, category))
  }

  /** The filter keeps input order, keeps every matching pin as often as it occurs, and drops the rest. */
  lemma FilteredPinsSpec(pins: seq<Pin>, status: Choice, category: Choice, p: Pin)
    ensures IsSubseq(FilteredPins(pins, status, category), pins)
    ensures multiset(FilteredPins(pins, status, category))[p] ==
            if MatchesFilters(p, status, category) then multiset(pins)[p] else 0
  {
    FilterIsSubseq(pins, q => MatchesFilters(q, status, category));
    FilterMultiset(pins, q => MatchesFilters(q, status, category), p);
  }

  /** With both chips on `'all'` nothing is filtered out. */
  lemma FilteredPinsAll(pins: seq<Pin>)
    ensures FilteredPins(pins, All, All) == pins
  {
    FilterAll(pins, p => MatchesFilters(p, All, All));
  }

  // ---------------------------------------------------------------- grid

  /** `Math.max(delta, 0.001)`. */
  function ClampSpan(d: real): (r: real)
    ensures r >= MinSpan && r >= d
    ensures r == d || r == MinSpan
  {
    if d >= MinSpan then d else MinSpan
  }

  /** De-cluster ("spiderfy") mode: both clamped spans are at most 0.007. */
  predicate DeclusterMode(region: Region): (r: bool)
    ensures r <==> region.latitudeDelta <= 0.007 && region.longitudeDelta <= 0.007
  {
    ClampSpan(region.latitudeDelta) <= DisableClusterDelta && ClampSpan(region.longitudeDelta) <= DisableClusterDelta
  }

  /** The grid's south-west corner and cell sizes. */
  datatype Grid = Grid(minLat: real, minLon: real, cellLat: real, cellLon: real)

  type ValidGrid = g: Grid | g.cellLat > 0.0 && g.cellLon > 0.0 witness Grid(0.0, 0.0, 1.0, 1.0)

  /** The grid for a region: the clamped span split into 14 cells, centred on the region. */
  function GridOf(region: Region): (g: ValidGrid)
    ensures g.cellLat * GridDivisions as real == ClampSpan(region.latitudeDelta)
    ensures g.cellLon * GridDivisions as real == ClampSpan(region.longitudeDelta)
    ensures g.minLat == region.latitude - ClampSpan(region.latitudeDelta) / 2.0
    ensures g.minLon == region.longitude - ClampSpan(region.longitudeDelta) / 2.0
  {
    var latDelta := ClampSpan(region.latitudeDelta);
    var lonDelta := ClampSpan(region.longitudeDelta);
    Grid(region.latitude - latDelta / 2.0, region.longitude - lonDelta / 2.0,
         latDelta / GridDivisions as real, lonDelta / GridDivisions as real)
  }

  /** A grid cell: row `i` (latitude) and column `j` (longitude). */
  type Cell = (int, int)

  /** `Math.floor((y - minLat) / cellLat)` and `Math.floor((x - minLon) / cellLon)`. */
  function CellOf(g: ValidGrid, p: Pin): Cell {
    (((p.y - g.minLat) / g.cellLat).Floor, ((p.x - g.minLon) / g.cellLon).Floor)
  }

  /** The bucket key text `${i}:${j}`. */
  function CellText(c: Cell): string {
    IntToString(c.0) + ":" + IntToString(c.1)
  }

  /** Text around the first occurrence of a separator is determined by the whole. */
  lemma SplitAtSeparator(a: string, x: string, b: string, y: string, sep: char)
    requires sep !in a && sep !in b
    requires a + [sep] + x == b + [sep] + y
    ensures a == b && x == y
  {
    var s := a + [sep] + x;
    assert s[|a|] == sep && s[|b|] == sep;
    assert forall i :: 0 <= i < |a| ==> s[i] == a[i];
    assert forall i :: 0 <= i < |b| ==> s[i] == b[i];
    assert |a| == |b|;
    assert a == s[..|a|];
    assert x == s[|a| + 1..];
  }

  /** Distinct cells have distinct key text, so a map keyed by the text groups exactly by cell. */
  lemma CellTextInjective(c: Cell, d: Cell)
    requires CellText(c) == CellText(d)
    ensures c == d
  {
    IntToStringAvoids(c.0, ':');
    IntToStringAvoids(d.0, ':');
    SplitAtSeparator(IntToString(c.0), IntToString(c.1), IntToString(d.0), IntToString(d.1), ':');
    IntToStringInjective(c.0, d.0);
    IntToStringInjective(c.1, d.1);
  }

  // ---------------------------------------------------------------- buckets

  /** The pins of one cell, their ids, and the running coordinate sums. */
  datatype Bucket = Bucket(ids: seq<int>, pins: seq<Pin>, sumLat: real, sumLon: real)

  const EmptyBucket: Bucket := Bucket([], [], 0.0, 0.0)

  function SumLat(ps: seq<Pin>): real {
    if ps == [] then 0.0 else SumLat(ps[..|ps| - 1]) + ps[|ps| - 1].y
  }

  function SumLon(ps: seq<Pin>): real {
    if ps == [] then 0.0 else SumLon(ps[..|ps| - 1]) + ps[|ps| - 1].x
  }

  /** The bucket holding exactly `members`, in this order. */
  function BucketOf(members: seq<Pin>): Bucket {
    Bucket(Ids(members), members, SumLat(members), SumLon(members))
  }

  /** Assignment of pins to grid cells. */
  type CellMap = Pin -> Cell

  /** One iteration of the bucketing loop: append `p` to the bucket of its cell. */
  function AddPin(bs: Assoc<Cell, Bucket>, cell: CellMap, p: Pin): Assoc<Cell, Bucket> {
    Put(bs, cell(p), Push(Get(bs, cell(p)).GetOr(EmptyBucket), p))
  }

  /** `b.ids.push(pin.id); b.pins.push(pin); b.sumLat += pin.y; b.sumLon += pin.x`. */
  function Push(b: Bucket, p: Pin): Bucket {
    Bucket(b.ids + [p.id], b.pins + [p], b.sumLat + p.y, b.sumLon + p.x)
  }

  /** The buckets after the loop has visited every pin of `ps` in order. */
  function Group(ps: seq<Pin>, cell: CellMap): Assoc<Cell, Bucket> {
    if ps == [] then [] else AddPin(Group(ps[..|ps| - 1], cell), cell, ps[|ps| - 1])
  }

  function InCell(cell: CellMap, k: Cell): Pin -> bool {
    p => cell(p) == k
  }

  /** The pins of `ps` that fall into cell `k`, in input order. */
  function Members(ps: seq<Pin>, cell: CellMap, k: Cell): seq<Pin> {
    Filter(ps, InCell(cell, k))
  }

  lemma MembersSnoc(ps: seq<Pin>, p: Pin, cell: CellMap, k: Cell)
    ensures Members(ps + [p], cell, k) == Members(ps, cell, k) + (if cell(p) == k then [p] else [])
  {
    FilterAppend(ps, [p], InCell(cell, k));
  }

  lemma SumsSnoc(ms: seq<Pin>, p: Pin)
    ensures SumLat(ms + [p]) == SumLat(ms) + p.y
    ensures SumLon(ms + [p]) == SumLon(ms) + p.x
  {
    assert (ms + [p])[..|ms|] == ms;
  }

  lemma BucketOfSnoc(ms: seq<Pin>, p: Pin)
    ensures BucketOf(ms + [p]) == Push(BucketOf(ms), p)
  {
    IdsAppend(ms, [p]);
    SumsSnoc(ms, p);
  }

  /** One loop step updates only the bucket of the pin's own cell. */
  lemma AddPinGet(bs: Assoc<Cell, Bucket>, cell: CellMap, p: Pin, k: Cell)
    requires DistinctKeys(bs)
    ensures DistinctKeys(AddPin(bs, cell, p))
    ensures Get(AddPin(bs, cell, p), k) ==
            if cell(p) == k then Some(Push(Get(bs, k).GetOr(EmptyBucket), p)) else Get(bs, k)
  {
    PutGet(bs, cell(p), Push(Get(bs, cell(p)).GetOr(EmptyBucket), p), k);
  }

  /** The bucket of cell `k` stored by a map in which `k` holds exactly `m`. */
  function BucketEntry(m: seq<Pin>): Option<Bucket> {
    if m == [] then None else Some(BucketOf(m))
  }

  /** One loop step keeps every cell's entry equal to the bucket of that cell's members. */
  lemma GroupStep(prev: Assoc<Cell, Bucket>, cell: CellMap, p: Pin, k: Cell, m: seq<Pin>)
    requires DistinctKeys(prev) && Get(prev, k) == BucketEntry(m)
    ensures DistinctKeys(AddPin(prev, cell, p))
    ensures Get(AddPin(prev, cell, p), k) == BucketEntry(m + (if cell(p) == k then [p] else []))
  {
    AddPinGet(prev, cell, p, k);
    if cell(p) == k {
      assert Get(prev, k).GetOr(EmptyBucket) == BucketOf(m);
      BucketOfSnoc(m, p);
    } else {
      assert m + [] == m;
    }
  }

  /**
   * The bucket map after the loop: cell keys are distinct, and the bucket stored
   * under cell `k` holds exactly the pins of `k` in input order, their ids and
   * their coordinate sums; a cell with no pin has no bucket.
   */
  lemma {:induction false} GroupSpec(ps: seq<Pin>, cell: CellMap, k: Cell)
    ensures DistinctKeys(Group(ps, cell))
    ensures Get(Group(ps, cell), k) == BucketEntry(Members(ps, cell, k))
    decreases |ps|
  {
    if ps != [] {
      var init, p := ps[..|ps| - 1], ps[|ps| - 1];
      assert ps == init + [p];
      GroupSpec(init, cell, k);
      GroupStep(Group(init, cell), cell, p, k, Members(init, cell, k));
      MembersSnoc(init, p, cell, k);
    }
  }

  /** Every bucket of the map is the non-empty bucket of its own cell. */
  lemma GroupEntries(ps: seq<Pin>, cell: CellMap, i: int)
    requires 0 <= i < |Group(ps, cell)|
    ensures Members(ps, cell, Group(ps, cell)[i].0) != []
    ensures Group(ps, cell)[i].1 == BucketOf(Members(ps, cell, Group(ps, cell)[i].0))
  {
    var bs := Group(ps, cell);
    var k := bs[i].0;
    GroupSpec(ps, cell, k);
    assert k in Keys(bs);
    assert Find(bs, k) == i;
  }

  /** Two pins share a bucket exactly when they fall into the same grid cell. */
  lemma SameBucketIff(ps: seq<Pin>, cell: CellMap, i: int, p: Pin)
    requires 0 <= i < |Group(ps, cell)| && p in ps
    ensures p in Group(ps, cell)[i].1.pins <==> cell(p) == Group(ps, cell)[i].0
  {
    GroupEntries(ps, cell, i);
  }

  /** The pins of all buckets, bucket after bucket. */
  function AllPins(bs: Assoc<Cell, Bucket>): seq<Pin> {
    if bs == [] then [] else bs[0].1.pins + AllPins(bs[1..])
  }

  lemma {:induction false} AllPinsAppend(bs: Assoc<Cell, Bucket>, e: (Cell, Bucket))
    ensures AllPins(bs + [e]) == AllPins(bs) + e.1.pins
  {
    if bs != [] {
      assert (bs + [e])[1..] == bs[1..] + [e];
      AllPinsAppend(bs[1..], e);
    }
  }

  lemma {:induction false} AllPinsUpdate(bs: Assoc<Cell, Bucket>, i: int, e: (Cell, Bucket), p: Pin)
    requires 0 <= i < |bs| && e.1.pins == bs[i].1.pins + [p]
    ensures multiset(AllPins(bs[i := e])) == multiset(AllPins(bs)) + multiset{p}
  {
    if i == 0 {
      assert bs[i := e][1..] == bs[1..];
    } else {
      assert bs[i := e][1..] == bs[1..][i - 1 := e];
      AllPinsUpdate(bs[1..], i - 1, e, p);
    }
  }

  /** Bucketing loses and duplicates no pin: the buckets partition the input. */
  lemma {:induction false} GroupPartition(ps: seq<Pin>, cell: CellMap)
    ensures multiset(AllPins(Group(ps, cell))) == multiset(ps)
    decreases |ps|
  {
    if ps != [] {
      var init, p := ps[..|ps| - 1], ps[|ps| - 1];
      assert ps == init + [p];
      var prev := Group(init, cell);
      GroupPartition(init, cell);
      var c := cell(p);
      var nb := Push(Get(prev, c).GetOr(EmptyBucket), p);
      var f := Find(prev, c);
      if f < 0 {
        AllPinsAppend(prev, (c, nb));
      } else {
        AllPinsUpdate(prev, f, (c, nb), p);
      }
    }
  }

  // ---------------------------------------------------------------- render items

  /** A render item's React key: `p-<id>` for a pin, `c-<i>:<j>` for a cluster. */
  datatype ItemKey = PinKey(id: int) | ClusterKey(cell: Cell)

  function KeyText(k: ItemKey): string {
    match k
    case PinKey(id) => "p-" + IntToString(id)
    case ClusterKey(c) => "c-" + CellText(c)
  }

  /** Distinct items get distinct key texts: the `p-`/`c-` prefix separates the kinds, the rest the ids and cells. */
  lemma KeyTextInjective(a: ItemKey, b: ItemKey)
    requires KeyText(a) == KeyText(b)
    ensures a == b
  {
    var ta, tb := KeyText(a), KeyText(b);
    assert ta[0] == tb[0];
    match a
    case PinKey(x) =>
      assert b.PinKey?;
      assert ta[2..] == IntToString(x) && tb[2..] == IntToString(b.id);
      IntToStringInjective(x, b.id);
    case ClusterKey(c) =>
      assert b.ClusterKey?;
      assert ta[2..] == CellText(c) && tb[2..] == CellText(b.cell);
      CellTextInjective(c, b.cell);
  }

  /** A pin marker (at `coord` when spread out, else at the pin) or a cluster badge. */
  datatype ClusterItem =
    | PinItem(key: ItemKey, pin: Pin, coord: Option<LatLng>)
    | ClusterMarker(key: ItemKey, count: int, center: LatLng, ids: seq<int>)

  /** The pin ids an item stands for. */
  function ItemIds(it: ClusterItem): seq<int> {
    match it
    case PinItem(_, pin, _) => [pin.id]
    case ClusterMarker(_, _, _, ids) => ids
  }

  function AllItemIds(items: seq<ClusterItem>): seq<int> {
    if items == [] then [] else ItemIds(items[0]) + AllItemIds(items[1..])
  }

  /** Pins represented: 1 per pin marker, `count` per cluster badge. */
  function TotalCount(items: seq<ClusterItem>): int {
    if items == [] then 0
    else (match items[0] case PinItem(_, _, _) => 1 case ClusterMarker(_, n, _, _) => n) + TotalCount(items[1..])
  }

  /** Rendering parameters fixed for one clustering pass. */
  datatype Pass = Pass(decluster: bool, latDelta: real, lonDelta: real, trig: Trig)

  function PassOf(region: Region, trig: Trig): Pass {
    Pass(DeclusterMode(region), ClampSpan(region.latitudeDelta), ClampSpan(region.longitudeDelta), trig)
  }

  /** `2 * Math.PI * idx / n`. */
  function Angle(idx: int, n: int): real
    requires n > 0
  {
    2.0 * Pi * idx as real / n as real
  }

  /** The ring position of the `idx`-th of `n` pins around `center`. */
  function RingPoint(center: LatLng, pass: Pass, idx: int, n: int): LatLng
    requires n > 0
  {
    var radiusLat := ClampSpan(pass.latDelta) * SpiderRadiusFactor;
    var radiusLon := ClampSpan(pass.lonDelta) * SpiderRadiusFactor;
    LatLng(center.latitude + radiusLat * pass.trig.cos(Angle(idx, n)),
           center.longitude + radiusLon * pass.trig.sin(Angle(idx, n)))
  }

  /** Spiderfy: the bucket's pins by ascending id, each on the ring around the bucket mean. */
  function Spiderfy(b: Bucket, pass: Pass): (r: seq<ClusterItem>)
    requires |b.pins| >= 1
    ensures |r| == |b.pins|
    ensures var sorted := SortBy(b.pins, IdOf);
            var center := LatLng(b.sumLat / |b.pins| as real, b.sumLon / |b.pins| as real);
            SortedBy(sorted, IdOf) && multiset(sorted) == multiset(b.pins) &&
            forall idx :: 0 <= idx < |r| ==>
              r[idx] == PinItem(PinKey(sorted[idx].id), sorted[idx], Some(RingPoint(center, pass, idx, |b.pins|)))
  {
    var n := |b.pins|;
    var center := LatLng(b.sumLat / n as real, b.sumLon / n as real);
    var sorted := SortBy(b.pins, IdOf);
    seq(n, idx requires 0 <= idx < n => PinItem(PinKey(sorted[idx].id), sorted[idx], Some(RingPoint(center, pass, idx, n))))
  }

  /**
   * Ring position `idx` holds the bucket pin with the `idx`-th smallest id:
   * at most `idx` bucket pins have a smaller id and more than `idx` have an id
   * no larger. It sits at angle 2π·idx/n around the bucket mean.
   */
  lemma SpiderfyRank(b: Bucket, pass: Pass, idx: int)
    requires |b.pins| >= 1 && 0 <= idx < |b.pins|
    ensures var r := Spiderfy(b, pass);
            var n := |b.pins|;
            && r[idx].PinItem? && r[idx].pin in b.pins && r[idx].key == PinKey(r[idx].pin.id)
            && r[idx].coord == Some(RingPoint(LatLng(b.sumLat / n as real, b.sumLon / n as real), pass, idx, n))
            && Count(b.pins, KeyBelow(IdOf, r[idx].pin.id)) <= idx < Count(b.pins, KeyAtMost(IdOf, r[idx].pin.id))
  {
    SortByRank(b.pins, IdOf, idx);
  }

  /** The render items of one bucket. */
  function EmitBucket(k: Cell, b: Bucket, pass: Pass): seq<ClusterItem>
    requires |b.pins| >= 1
  {
    var n := |b.pins|;
    if n == 1 then [PinItem(PinKey(b.pins[0].id), b.pins[0], None)]
    else if pass.decluster then Spiderfy(b, pass)
    else [ClusterMarker(ClusterKey(k), n, LatLng(b.sumLat / n as real, b.sumLon / n as real), b.ids)]
  }

  ghost predicate NonEmptyBuckets(bs: Assoc<Cell, Bucket>) {
    forall i :: 0 <= i < |bs| ==> |bs[i].1.pins| >= 1
  }

  /** The loop over `buckets.entries()`. */
  function Emit(bs: Assoc<Cell, Bucket>, pass: Pass): seq<ClusterItem>
    requires NonEmptyBuckets(bs)
  {
    if bs == [] then [] else EmitBucket(bs[0].0, bs[0].1, pass) + Emit(bs[1..], pass)
  }

  lemma GroupNonEmpty(ps: seq<Pin>, cell: CellMap)
    ensures NonEmptyBuckets(Group(ps, cell))
  {
    forall i | 0 <= i < |Group(ps, cell)|
      ensures |Group(ps, cell)[i].1.pins| >= 1
    {
      GroupEntries(ps, cell, i);
    }
  }

  /** The grid cell assignment of a region. */
  function GridCells(region: Region): CellMap {
    var g := GridOf(region);
    p => CellOf(g, p)
  }

  /** `clusterItems`: the render items for the (already filtered) pins in `region`. */
  function ClusterItems(pins: seq<Pin>, region: Region, trig: Trig): seq<ClusterItem> {
    if pins == [] then []
    else
      var bs := Group(pins, GridCells(region));
      GroupNonEmpty(pins, GridCells(region));
      Emit(bs, PassOf(region, trig))
  }

  // ---------------------------------------------------------------- what the items mean

  /** The mean position of a cell's pins: `sumLat / n`, `sumLon / n`. */
  function Mean(m: seq<Pin>): LatLng
    requires m != []
  {
    LatLng(SumLat(m) / |m| as real, SumLon(m) / |m| as real)
  }

  /**
   * What a render item says about the input, independently of how it was
   * produced: a plain pin marker is the only pin of its cell; a spread-out pin
   * lies on the ring around the mean of its cell of two or more pins (de-cluster
   * mode only); a badge stands for all two or more pins of its cell, with their
   * ids in input order and their mean as centre (cluster mode only).
   */
  ghost predicate ItemFaithful(it: ClusterItem, ps: seq<Pin>, cell: CellMap, pass: Pass) {
    match it
    case PinItem(key, p, None) =>
      key == PinKey(p.id) && Members(ps, cell, cell(p)) == [p]
    case PinItem(key, p, Some(c)) =>
      var m := Members(ps, cell, cell(p));
      pass.decluster && key == PinKey(p.id) && |m| >= 2 && p in m &&
      exists idx :: 0 <= idx < |m| && c == RingPoint(Mean(m), pass, idx, |m|)
    case ClusterMarker(key, n, c, ids) =>
      !pass.decluster && key.ClusterKey? &&
      var m := Members(ps, cell, key.cell);
      n == |m| && n >= 2 && ids == Ids(m) && c == Mean(m)
  }

  /** The buckets `bs` are (a suffix of) the buckets of `ps`: each is the full, non-empty bucket of its cell. */
  ghost predicate GroupedFrom(bs: Assoc<Cell, Bucket>, ps: seq<Pin>, cell: CellMap) {
    forall i :: 0 <= i < |bs| ==>
      Members(ps, cell, bs[i].0) != [] && bs[i].1 == BucketOf(Members(ps, cell, bs[i].0))
  }

  lemma GroupGroupedFrom(ps: seq<Pin>, cell: CellMap)
    ensures GroupedFrom(Group(ps, cell), ps, cell)
  {
    forall i | 0 <= i < |Group(ps, cell)|
      ensures Members(ps, cell, Group(ps, cell)[i].0) != []
      ensures Group(ps, cell)[i].1 == BucketOf(Members(ps, cell, Group(ps, cell)[i].0))
    {
      GroupEntries(ps, cell, i);
    }
  }

  lemma GroupedFromNonEmpty(bs: Assoc<Cell, Bucket>, ps: seq<Pin>, cell: CellMap)
    requires GroupedFrom(bs, ps, cell)
    ensures NonEmptyBuckets(bs)
  {
    forall i | 0 <= i < |bs|
      ensures |bs[i].1.pins| >= 1
    {
      assert bs[i].1.pins == Members(ps, cell, bs[i].0);
    }
  }

  /** Every member of cell `k` falls into `k`. */
  lemma MemberInCell(ps: seq<Pin>, cell: CellMap, k: Cell, p: Pin)
    requires p in Members(ps, cell, k)
    ensures cell(p) == k && p in ps
  {
    var m := Members(ps, cell, k);
    var i :| 0 <= i < |m| && m[i] == p;
  }

  /** Each item one bucket emits is faithful to the input. */
  lemma EmitBucketFaithful(ps: seq<Pin>, cell: CellMap, k: Cell, pass: Pass, it: ClusterItem)
    requires Members(ps, cell, k) != []
    requires it in EmitBucket(k, BucketOf(Members(ps, cell, k)), pass)
    ensures ItemFaithful(it, ps, cell, pass)
  {
    var m := Members(ps, cell, k);
    if |m| == 1 {
      SingleFaithful(ps, cell, k, pass, it, m);
    } else if pass.decluster {
      RingFaithful(ps, cell, k, pass, it, m);
    }
  }

  lemma SingleFaithful(ps: seq<Pin>, cell: CellMap, k: Cell, pass: Pass, it: ClusterItem, m: seq<Pin>)
    requires m == Members(ps, cell, k) && |m| == 1
    requires it in EmitBucket(k, BucketOf(m), pass)
    ensures ItemFaithful(it, ps, cell, pass)
  {
    MemberInCell(ps, cell, k, m[0]);
    assert m == [m[0]];
    assert it == PinItem(PinKey(m[0].id), m[0], None);
  }

  lemma RingFaithful(ps: seq<Pin>, cell: CellMap, k: Cell, pass: Pass, it: ClusterItem, m: seq<Pin>)
    requires m == Members(ps, cell, k) && |m| >= 2 && pass.decluster
    requires it in EmitBucket(k, BucketOf(m), pass)
    ensures ItemFaithful(it, ps, cell, pass)
  {
    var b := BucketOf(m);
    var r := Spiderfy(b, pass);
    assert it in r;
    var sorted := SortBy(b.pins, IdOf);
    var idx :| 0 <= idx < |r| && r[idx] == it;
    var p := sorted[idx];
    assert p in multiset(m);
    MemberInCell(ps, cell, k, p);
    assert it == PinItem(PinKey(p.id), p, Some(RingPoint(Mean(m), pass, idx, |m|)));
  }

  /** Every item of the loop over the buckets is faithful to the input. */
  lemma {:induction false} EmitFaithful(bs: Assoc<Cell, Bucket>, ps: seq<Pin>, cell: CellMap, pass: Pass, it: ClusterItem)
    requires GroupedFrom(bs, ps, cell)
    requires NonEmptyBuckets(bs) && it in Emit(bs, pass)
    ensures ItemFaithful(it, ps, cell, pass)
  {
    if bs != [] {
      assert GroupedFrom(bs[1..], ps, cell) by {
        forall i | 0 <= i < |bs[1..]|
          ensures Members(ps, cell, bs[1..][i].0) != [] && bs[1..][i].1 == BucketOf(Members(ps, cell, bs[1..][i].0))
        {
          assert bs[1..][i] == bs[i + 1];
        }
      }
      if it in EmitBucket(bs[0].0, bs[0].1, pass) {
        EmitBucketFaithful(ps, cell, bs[0].0, pass, it);
      } else {
        EmitFaithful(bs[1..], ps, cell, pass, it);
      }
    }
  }

  /** Every item `clusterItems` renders is faithful to the filtered pins and the region's grid. */
  lemma ClusterItemsFaithful(pins: seq<Pin>, region: Region, trig: Trig, it: ClusterItem)
    requires it in ClusterItems(pins, region, trig)
    ensures ItemFaithful(it, pins, GridCells(region), PassOf(region, trig))
  {
    var cell := GridCells(region);
    GroupGroupedFrom(pins, cell);
    GroupedFromNonEmpty(Group(pins, cell), pins, cell);
    EmitFaithful(Group(pins, cell), pins, cell, PassOf(region, trig), it);
  }

  // ---------------------------------------------------------------- nothing lost, nothing doubled

  lemma {:induction false} AllItemIdsAppend(a: seq<ClusterItem>, b: seq<ClusterItem>)
    ensures AllItemIds(a + b) == AllItemIds(a) + AllItemIds(b)
    ensures TotalCount(a + b) == TotalCount(a) + TotalCount(b)
  {
    if a == [] {
      assert a + b == b;
    } else {
      assert (a + b)[0] == a[0] && (a + b)[1..] == a[1..] + b;
      AllItemIdsAppend(a[1..], b);
    }
  }

  /** The ids of a ring of pin markers are the ids of the ring's pins, one per marker. */
  lemma {:induction false} RingIds(items: seq<ClusterItem>, sorted: seq<Pin>)
    requires |items| == |sorted|
    requires forall idx :: 0 <= idx < |items| ==> items[idx].PinItem? && items[idx].pin == sorted[idx]
    ensures AllItemIds(items) == Ids(sorted) && TotalCount(items) == |sorted|
  {
    if items != [] {
      RingIds(items[1..], sorted[1..]);
      IdsAppend([sorted[0]], sorted[1..]);
      assert sorted == [sorted[0]] + sorted[1..];
    }
  }

  /** One bucket's items stand for exactly the bucket's pins. */
  lemma EmitBucketIds(k: Cell, b: Bucket, pass: Pass)
    requires |b.pins| >= 1 && b.ids == Ids(b.pins)
    ensures multiset(AllItemIds(EmitBucket(k, b, pass))) == multiset(Ids(b.pins))
    ensures TotalCount(EmitBucket(k, b, pass)) == |b.pins|
  {
    var items := EmitBucket(k, b, pass);
    if |b.pins| == 1 {
      assert AllItemIds(items) == [b.pins[0].id] + AllItemIds([]);
    } else if pass.decluster {
      var sorted := SortBy(b.pins, IdOf);
      RingIds(items, sorted);
      MapPermutation(sorted, b.pins, IdOf);
    } else {
      assert AllItemIds(items) == b.ids + AllItemIds([]);
    }
  }

  /** The ids of the pins of all buckets, bucket after bucket. */
  lemma {:induction false} EmitIds(bs: Assoc<Cell, Bucket>, pass: Pass)
    requires NonEmptyBuckets(bs) && forall i :: 0 <= i < |bs| ==> bs[i].1.ids == Ids(bs[i].1.pins)
    ensures multiset(AllItemIds(Emit(bs, pass))) == multiset(Ids(AllPins(bs)))
    ensures TotalCount(Emit(bs, pass)) == |AllPins(bs)|
  {
    if bs != [] {
      EmitIds(bs[1..], pass);
      EmitBucketIds(bs[0].0, bs[0].1, pass);
      AllItemIdsAppend(EmitBucket(bs[0].0, bs[0].1, pass), Emit(bs[1..], pass));
      IdsAppend(bs[0].1.pins, AllPins(bs[1..]));
    }
  }

  /**
   * `clusterItems` is a partition of the filtered pins: every pin id occurs among
   * the items exactly as often as among the pins, and the badge counts plus the
   * pin markers add up to the number of pins.
   */
  lemma ClusterItemsPartition(pins: seq<Pin>, region: Region, trig: Trig)
    ensures multiset(AllItemIds(ClusterItems(pins, region, trig))) == multiset(Ids(pins))
    ensures TotalCount(ClusterItems(pins, region, trig)) == |pins|
    ensures ClusterItems(pins, region, trig) == [] <==> pins == []
  {
    if pins != [] {
      var cell := GridCells(region);
      var bs := Group(pins, cell);
      GroupGroupedFrom(pins, cell);
      GroupedFromNonEmpty(bs, pins, cell);
      EmitIds(bs, PassOf(region, trig));
      GroupPartition(pins, cell);
      MapPermutation(AllPins(bs), pins, IdOf);
      assert |AllPins(bs)| == |multiset(AllPins(bs))| == |pins|;
    }
  }

  /** The de-cluster threshold is inclusive: a span of 0.007 on both axes spreads, 0.0071 on either does not. */
  lemma DeclusterBoundary(lat: real, lon: real)
    ensures DeclusterMode(Region(lat, lon, 0.007, 0.007))
    ensures !DeclusterMode(Region(lat, lon, 0.0071, 0.007)) && !DeclusterMode(Region(lat, lon, 0.007, 0.0071))
  {
  }

  lemma GroupOne(a: Pin, cell: CellMap)
    ensures Group([a], cell) == [(cell(a), Push(EmptyBucket, a))]
  {
    assert [a][..0] == [];
  }

  /** A pin joining the only bucket, which is its own cell's. */
  lemma GroupSnocSame(ps: seq<Pin>, p: Pin, cell: CellMap, k: Cell, b: Bucket)
    requires Group(ps, cell) == [(k, b)] && cell(p) == k
    ensures Group(ps + [p], cell) == [(k, Push(b, p))]
  {
    assert (ps + [p])[..|ps|] == ps;
  }

  /** Three pins of one cell make one bucket. */
  lemma SameCellGroup(a: Pin, b: Pin, c: Pin, cell: CellMap)
    requires cell(b) == cell(a) && cell(c) == cell(a)
    ensures Group([a, b, c], cell) ==
            [(cell(a), Bucket([a.id, b.id, c.id], [a, b, c], 0.0 + a.y + b.y + c.y, 0.0 + a.x + b.x + c.x))]
  {
    var k := cell(a);
    GroupOne(a, cell);
    var b1 := Push(EmptyBucket, a);
    assert [a] + [b] == [a, b] && [a, b] + [c] == [a, b, c];
    GroupSnocSame([a], b, cell, k, b1);
    GroupSnocSame([a, b], c, cell, k, Push(b1, b));
    PushThree(a, b, c);
  }

  lemma PushThree(a: Pin, b: Pin, c: Pin)
    ensures Push(Push(Push(EmptyBucket, a), b), c) ==
            Bucket([a.id, b.id, c.id], [a, b, c], 0.0 + a.y + b.y + c.y, 0.0 + a.x + b.x + c.x)
  {
    assert [] + [a.id] + [b.id] + [c.id] == [a.id, b.id, c.id];
    assert [] + [a] + [b] + [c] == [a, b, c];
  }

  /** The cell of a pin depends on its position only. */
  lemma SameSpotSameCell(region: Region, a: Pin, b: Pin)
    requires a.x == b.x && a.y == b.y
    ensures GridCells(region)(a) == GridCells(region)(b)
  {
  }

  /**
   * Three pins on the same spot, outside de-cluster mode, make one badge of
   * three, centred on that spot, with their ids in input order.
   */
  lemma SameSpotCluster(a: Pin, b: Pin, c: Pin, region: Region, trig: Trig)
    requires !DeclusterMode(region)
    requires b.x == a.x && c.x == a.x && b.y == a.y && c.y == a.y
    ensures ClusterItems([a, b, c], region, trig) ==
            [ClusterMarker(ClusterKey(GridCells(region)(a)), 3, LatLng(a.y, a.x), [a.id, b.id, c.id])]
  {
    var cell := GridCells(region);
    var k := cell(a);
    SameSpotSameCell(region, a, b);
    SameSpotSameCell(region, a, c);
    SameCellGroup(a, b, c, cell);
    var b3 := Bucket([a.id, b.id, c.id], [a, b, c], 0.0 + a.y + b.y + c.y, 0.0 + a.x + b.x + c.x);
    assert b3.sumLat / 3.0 == a.y && b3.sumLon / 3.0 == a.x;
    var pass := PassOf(region, trig);
    var bs := [(k, b3)];
    assert Group([a, b, c], cell) == bs;
    assert bs[1..] == [];
    var item := ClusterMarker(ClusterKey(k), 3, LatLng(a.y, a.x), [a.id, b.id, c.id]);
    assert EmitBucket(k, b3, pass) == [item];
    assert Emit(bs, pass) == [item] + Emit([], pass);
  }
}

=== FILE: createpin.dfy ===
/**
 * The new-pin form (`src/screens/CreatePinScreen.tsx`): the marker position,
 * the chosen category and status, a description and a device photo. The form
 * guards against leaving with unsaved input, and submitting checks the
 * category, then the photo, then that the photo is a device file, before the
 * photo is uploaded, the pin created and its category and status stored on
 * the device under the new pin's id.
 */
module CreatePin {
  import opened Wrappers
  import opened Strings
  import opened Requests
  import opened Js
  import opened Photo
  import PinMeta

  /** The body of `POST /pins` and of an update (`PinCreate` in `src/types/api.ts`). */
  datatype PinCreate = PinCreate(x: real, y: real, photoLink: Option<string>, description: Option<string>)

  /** The form's state; `initialLat`/`initialLon` are where the marker was first placed. */
  datatype Form = Form(
    initialLat: real,
    initialLon: real,
    lat: real,
    lon: real,
    categoryId: Option<string>,
    statusId: string,
    descr: string,
    photoUri: string,
    busy: bool)

  /** The form as it opens: the marker at the given point, no category, status `new`, nothing typed. */
  function NewForm(lat: real, lon: real): (f: Form)
    ensures !Dirty(f) && !BlocksLeaving(f) && !f.busy
    ensures f.lat == f.initialLat == lat && f.lon == f.initialLon == lon
    ensures StatusById(Some(f.statusId)).id == f.statusId
  {
    Form(lat, lon, lat, lon, None, "new", "", "", false)
  }

  /** `!!categoryId`. */
  predicate HasCategory(f: Form) {
    f.categoryId.Some? && f.categoryId.value != []
  }

  /** `dirty`: a category, non-blank text or photo, or a moved marker. */
  predicate Dirty(f: Form) {
    || HasCategory(f) || Trim(f.descr) != [] || Trim(f.photoUri) != []
    || f.lat != f.initialLat || f.lon != f.initialLon
  }

  /** The `beforeRemove` listener asks before leaving exactly when the form is dirty and not submitting. */
  predicate BlocksLeaving(f: Form) {
    Dirty(f) && !f.busy
  }

  /** The submit button is disabled while busy, without a category, or without a photo. */
  predicate SubmitDisabled(f: Form) {
    f.busy || !HasCategory(f) || Trim(f.photoUri) == []
  }

  /** Tapping a category chip. */
  function ChooseCategory(f: Form, i: nat): (r: Form)
    requires i < |Categories|
    ensures HasCategory(r) && CategoryById(r.categoryId) == Categories[i]
    ensures r.(categoryId := f.categoryId) == f
  {
    CategoryLookupListed(i);
    f.(categoryId := Some(Categories[i].id))
  }

  /** Tapping a status chip. */
  function ChooseStatus(f: Form, i: nat): (r: Form)
    requires i < |Statuses|
    ensures StatusById(Some(r.statusId)) == Statuses[i]
    ensures r.(statusId := f.statusId) == f
  {
    StatusLookupListed(i);
    f.(statusId := Statuses[i].id)
  }

  /** `dirty` does not look at the status: choosing one neither dirties nor cleans the form. */
  lemma StatusKeepsDirty(f: Form, i: nat)
    requires i < |Statuses|
    ensures Dirty(ChooseStatus(f, i)) == Dirty(f) && BlocksLeaving(ChooseStatus(f, i)) == BlocksLeaving(f)
  {
  }

  /** `pickImage`: a cancelled pick or one without an asset changes nothing; otherwise the asset's URI is the photo. */
  function PickImage(f: Form, asset: Option<string>): (r: Form)
    ensures asset.None? ==> r == f
    ensures asset.Some? ==> r.photoUri == asset.value && r.(photoUri := f.photoUri) == f
  {
    match asset
    case None => f
    case Some(uri) => f.(photoUri := uri)
  }

  /** The remove-photo button. */
  function RemovePhoto(f: Form): (r: Form)
    ensures SubmitDisabled(r) && r.(photoUri := f.photoUri) == f
  {
    f.(photoUri := "")
  }

  /** Why a submission is refused before anything is sent. */
  datatype Refusal = NoCategory | NoPhoto | PhotoNotLocal

  /** The checks of `onSubmit`, in order; `Upload(uri)` when the photo at `uri` is to be uploaded. */
  datatype Check = Refuse(reason: Refusal) | Upload(uri: string)

  function CheckSubmit(f: Form): (r: Check)
    ensures r.Upload? <==> HasCategory(f) && IsLocalPhotoUri(Some(f.photoUri))
    ensures r.Upload? ==> r.uri == f.photoUri
    ensures r == Refuse(NoCategory) <==> !HasCategory(f)
    ensures r == Refuse(NoPhoto) <==> HasCategory(f) && Trim(f.photoUri) == []
  {
    if !HasCategory(f) then Refuse(NoCategory)
    else if Trim(f.photoUri) == [] then Refuse(NoPhoto)
    else if !IsLocalPhotoUri(Some(f.photoUri)) then Refuse(PhotoNotLocal)
    else Upload(f.photoUri)
  }

  /** `descr.trim() ? descr.trim() : null`. */
  function TrimmedOrNull(descr: string): (r: Option<string>)
    ensures r.None? <==> Trim(descr) == []
    ensures r.Some? ==> r.value != [] && Trim(r.value) == r.value && |r.value| <= |descr|
  {
    var t := Trim(descr);
    if t == [] then None else (TrimOfTrimmed(t); Some(t))
  }

  /** The body sent: the marker as `x` (longitude) and `y` (latitude), the uploaded link, the trimmed description. */
  function CreatePayload(f: Form, photoLink: string): (p: PinCreate)
    ensures p.x == f.lon && p.y == f.lat && p.photoLink == Some(photoLink)
    ensures p.description == TrimmedOrNull(f.descr)
  {
    PinCreate(f.lon, f.lat, Some(photoLink), TrimmedOrNull(f.descr))
  }

  /**
   * How a submission ends. `Failed` is the error alert after a request threw
   * (the upload or the creation); nothing is stored then.
   */
  datatype Outcome = Refused(reason: Refusal) | Failed | Created(payload: PinCreate, store: PinMeta.Store)

  /**
   * `onSubmit`: `uploaded` is what the upload returned (`None` when it threw),
   * `created` the id of the created pin (`None` when creating threw), `now`
   * the clock. The category and status are never sent to the server; they go
   * to the device storage only.
   */
  function Submit(host: Host, f: Form, store: PinMeta.Store, uploaded: Option<string>, created: Option<int>, now: int): (o: Outcome)
    ensures o.Refused? <==> CheckSubmit(f).Refuse?
    ensures o.Refused? ==> o.reason == CheckSubmit(f).reason
    ensures o.Created? <==> CheckSubmit(f).Upload? && uploaded.Some? && created.Some?
    ensures o.Created? ==> o.payload == CreatePayload(f, uploaded.value)
    ensures o.Created? ==> o.store == PinMeta.SetPinMeta(host, store, created.value, PinMeta.PinMeta(f.categoryId.value, f.statusId, now))
  {
    match CheckSubmit(f)
    case Refuse(reason) => Refused(reason)
    case Upload(_) =>
      if uploaded.None? || created.None? then Failed
      else
        var meta := PinMeta.PinMeta(f.categoryId.value, f.statusId, now);
        Created(CreatePayload(f, uploaded.value), PinMeta.SetPinMeta(host, store, created.value, meta))
  }

  /** Each single edit of a fresh form makes it dirty, except typing only white space. */
  lemma EditsMakeDirty(lat: real, lon: real, i: nat, text: string, uri: string, lat': real)
    requires i < |Categories|
    ensures Dirty(ChooseCategory(NewForm(lat, lon), i))
    ensures Dirty(NewForm(lat, lon).(descr := text)) <==> Trim(text) != []
    ensures Dirty(PickImage(NewForm(lat, lon), Some(uri))) <==> Trim(uri) != []
    ensures Dirty(NewForm(lat, lon).(lat := lat')) <==> lat' != lat
  {
  }

  /** A clean form or a submitting one lets the user leave without asking. */
  lemma LeavingAllowed(f: Form)
    ensures !BlocksLeaving(f) <==> f.busy || (!HasCategory(f) && Trim(f.descr) == [] && Trim(f.photoUri) == [] && f.lat == f.initialLat && f.lon == f.initialLon)
  {
  }

  /**
   * When not busy, the button is disabled exactly when the first two checks
   * would refuse; an enabled button can still be refused for a photo that is
   * not a device file.
   */
  lemma DisabledMatchesChecks(f: Form)
    requires !f.busy
    ensures SubmitDisabled(f) <==> CheckSubmit(f) == Refuse(NoCategory) || CheckSubmit(f) == Refuse(NoPhoto)
    ensures !SubmitDisabled(f) ==> CheckSubmit(f) == Refuse(PhotoNotLocal) || CheckSubmit(f).Upload?
  {
  }

  /** A web photo is refused even with the button enabled. */
  lemma RemotePhotoRefused(f: Form)
    requires HasCategory(f) && !f.busy
    requires StartsWith(f.photoUri, "https://")
    ensures !SubmitDisabled(f) && CheckSubmit(f) == Refuse(PhotoNotLocal)
  {
    StartsWithH(f.photoUri);
    NotLocalByFirstChar(f.photoUri);
  }

  lemma StartsWithH(s: string)
    requires StartsWith(s, "https://")
    ensures s != [] && s[0] == 'h'
  {
    assert s[0] == s[..8][0];
  }

  /** With a category chosen, picking a device photo makes the form submittable, uploading that file. */
  lemma {:induction false} PickedDevicePhotoUploads(f: Form, uri: string)
    requires HasCategory(f) && IsLocalPhotoUri(Some(uri))
    ensures CheckSubmit(PickImage(f, Some(uri))) == Upload(uri)
    ensures !f.busy ==> !SubmitDisabled(PickImage(f, Some(uri)))
  {
  }

  /**
   * After a successful submission the chosen category and status read back
   * under the new pin's id, and every other pin's entry is as before.
   */
  lemma {:induction false} SubmitStoresMeta(host: Host, f: Form, store: PinMeta.Store, uploaded: string, id: int, now: int, other: int)
    requires CheckSubmit(f).Upload?
    requires PinMeta.JsonRoundTrip(host, PinMeta.MetaValue(PinMeta.PinMeta(f.categoryId.value, f.statusId, now)))
    ensures Submit(host, f, store, Some(uploaded), Some(id), now).Created?
    ensures PinMeta.GetPinMeta(host, Submit(host, f, store, Some(uploaded), Some(id), now).store, id)
         == Some(PinMeta.MetaValue(PinMeta.PinMeta(f.categoryId.value, f.statusId, now)))
    ensures other != id ==>
      PinMeta.GetPinMeta(host, Submit(host, f, store, Some(uploaded), Some(id), now).store, other)
         == PinMeta.GetPinMeta(host, store, other)
  {
    var meta := PinMeta.PinMeta(f.categoryId.value, f.statusId, now);
    SubmitWrites(host, f, store, uploaded, id, now);
    PinMeta.SetThenGet(host, store, id, meta, other);
  }

  /** A successful submission writes the form's category and status under the new id. */
  lemma SubmitWrites(host: Host, f: Form, store: PinMeta.Store, uploaded: string, id: int, now: int)
    requires CheckSubmit(f).Upload?
    ensures Submit(host, f, store, Some(uploaded), Some(id), now).Created?
    ensures Submit(host, f, store, Some(uploaded), Some(id), now).store
         == PinMeta.SetPinMeta(host, store, id, PinMeta.PinMeta(f.categoryId.value, f.statusId, now))
  {
    SubmitCreates(host, f, store, uploaded, id, now);
  }

  lemma SubmitCreates(host: Host, f: Form, store: PinMeta.Store, uploaded: string, id: int, now: int)
    requires CheckSubmit(f).Upload?
    ensures Submit(host, f, store, Some(uploaded), Some(id), now).Created?
  {
  }

  /** Trimming the description is idempotent: sending a sent description again sends it unchanged. */
  lemma DescriptionStable(f: Form, link: string)
    ensures var d := CreatePayload(f, link).description;
      d.Some? ==> CreatePayload(f.(descr := d.value), link).description == d
  {
  }
}

=== FILE: datetime.dfy ===
/**
 * Reading the many shapes a pin's creation time arrives in (unix seconds,
 * milliseconds, ISO text, "YYYY-MM-DD HH:mm:ss" text, numeric text) and
 * printing it as `dd.mm.yyyy hh:mm` in the device's local time.
 *
 * A `Date` is its time value: whole milliseconds since the epoch, or `None`
 * where JavaScript would hold an invalid date.
 */
module DateTime {
  import opened Wrappers
  import opened Strings
  import opened Decimal
  import opened Js

  /** The largest magnitude of a valid time value (TimeClip, section 21.4.1.31 of ECMA-262). */
  const MaxTime: real := 8_640_000_000_000_000.0

  /** Numbers below this are taken to be seconds rather than milliseconds. */
  const SecondsLimit: real := 1_000_000_000_000.0

  /** ToIntegerOrInfinity on a finite number: rounding toward zero. */
  function Trunc(x: real): (r: int)
    ensures x >= 0.0 ==> r as real <= x < r as real + 1.0
    ensures x < 0.0 ==> r as real - 1.0 < x <= r as real
  {
    if x >= 0.0 then x.Floor else -((-x).Floor)
  }

  /** `new Date(ms)` for a finite number `ms`: invalid beyond the representable range. */
  function TimeClip(ms: real): (r: Option<int>)
    ensures r.Some? <==> -MaxTime <= ms <= MaxTime
    ensures r.Some? ==> -MaxTime <= r.value as real <= MaxTime
    ensures ms == ms.Floor as real && r.Some? ==> r.value == ms.Floor
  {
    if ms < -MaxTime || ms > MaxTime then None else Some(Trunc(ms))
  }

  /** The number branch of `parseDateTime`: small values are seconds. */
  function FromNumber(x: real): (r: Option<int>)
    ensures x < SecondsLimit ==> r == TimeClip(x * 1000.0)
    ensures x >= SecondsLimit ==> r == TimeClip(x)
  {
    TimeClip(if x < SecondsLimit then x * 1000.0 else x)
  }

  /** The second attempt at text: its first space turned into `T`, only when it has a space and no `T`. */
  function Retry(host: Host, raw: string): (r: Option<int>)
    ensures !Contains(raw, " ") || Contains(raw, "T") ==> r == None
  {
    if Contains(raw, " ") && !Contains(raw, "T") then host.dateParse(ReplaceFirst(raw, " ", "T")) else None
  }

  /** The text branch of `parseDateTime` on trimmed, non-empty text. */
  function TextDate(host: Host, raw: string): Option<int> {
    if host.dateParse(raw).Some? then host.dateParse(raw)
    else if Retry(host, raw).Some? then Retry(host, raw)
    else
      match ToNumber(host, raw)
      case Fin(x) => FromNumber(x)
      case _ => None
  }

  /**
   * `parseDateTime(input)`: a finite number goes through the seconds rule; text
   * is trimmed and handed to the date parser, then retried with its first space
   * turned into `T` (only when it has a space and no `T`), then read as a number.
   * Every other value is no date.
   */
  function ParseDateTime(host: Host, input: Value): (r: Option<int>)
    ensures Nullish(input) ==> r == None
    ensures !input.Number? && !input.Str? ==> r == None
    ensures input.Number? && !input.n.Fin? ==> r == None
    ensures input.Number? && input.n.Fin? ==> r == FromNumber(input.n.value)
    ensures input.Str? && Trim(input.s) == [] ==> r == None
    ensures input.Str? && Trim(input.s) != [] && host.dateParse(Trim(input.s)).Some? ==>
      r == host.dateParse(Trim(input.s))
  {
    match input
    case Number(n) => if n.Fin? then FromNumber(n.value) else None
    case Str(s) => if Trim(s) == [] then None else TextDate(host, Trim(s))
    case _ => None
  }

  /** A number's date, when there is one, is always a valid time value. */
  lemma NumberDateInRange(host: Host, x: real)
    ensures ParseDateTime(host, Number(Fin(x))).Some? ==>
      -MaxTime <= ParseDateTime(host, Number(Fin(x))).value as real <= MaxTime
  {
  }

  /**
   * The seconds rule: a unix time in seconds from 2001-09-09 on (ten to twelve
   * digits) names the same instant as the same time written in milliseconds.
   */
  lemma SecondsMeanMilliseconds(host: Host, s: int)
    requires 1_000_000_000 <= s < 1_000_000_000_000
    ensures ParseDateTime(host, Number(Fin(s as real))) == Some(s * 1000)
    ensures ParseDateTime(host, Number(Fin((s * 1000) as real))) == Some(s * 1000)
  {
    assert (s as real) * 1000.0 == (s * 1000) as real;
  }

  /**
   * The other side of the seconds rule: a millisecond time value before
   * 2001-09-09 is read as seconds, so it lands a thousand times later.
   */
  lemma EarlyMillisecondsReadAsSeconds(host: Host, ms: int)
    requires 0 < ms < 1_000_000_000_000
    ensures ParseDateTime(host, Number(Fin(ms as real))) == Some(ms * 1000)
    ensures ParseDateTime(host, Number(Fin(ms as real))) != Some(ms)
  {
    assert (ms as real) * 1000.0 == (ms * 1000) as real;
  }

  /** `c` never occurs in `s`, so no one-character pattern of it matches. */
  lemma NotContainsChar(s: string, c: char)
    requires c !in s
    ensures !Contains(s, [c])
  {
    forall i | 0 <= i <= |s| - 1
      ensures !MatchAt(s, [c], i)
    {
      assert s[i..i + 1][0] == s[i];
    }
  }

  /**
   * Text holding a plain integer that the date parser rejects is read as that
   * number, so `" 1700000000 "` names the same instant as `1700000000`.
   */
  lemma NumericText(host: Host, s: string, n: int)
    requires Trim(s) == IntToString(n)
    requires host.dateParse(IntToString(n)).None?
    ensures ParseDateTime(host, Str(s)) == ParseDateTime(host, Number(Fin(n as real)))
  {
    IntToStringAvoids(n, ' ');
    NotContainsChar(IntToString(n), ' ');
    IntRoundTrip(n);
    assert Retry(host, IntToString(n)) == None;
  }

  /** On trimmed text the parser rejects, a space and no `T` lead to the retry. */
  lemma RetryTaken(host: Host, raw: string)
    requires ' ' in raw && 'T' !in raw
    ensures Retry(host, raw) == host.dateParse(ReplaceFirst(raw, " ", "T"))
  {
    var i :| 0 <= i < |raw| && raw[i] == ' ';
    assert MatchAt(raw, " ", i);
    NotContainsChar(raw, 'T');
  }

  /**
   * The retry: text the parser rejects that has a space and no `T` gets a
   * second chance with its first space turned into `T`.
   */
  lemma SpaceRetried(host: Host, s: string)
    requires Trim(s) != [] && host.dateParse(Trim(s)).None?
    requires ' ' in Trim(s) && 'T' !in Trim(s)
    requires host.dateParse(ReplaceFirst(Trim(s), " ", "T")).Some?
    ensures ParseDateTime(host, Str(s)) == host.dateParse(ReplaceFirst(Trim(s), " ", "T"))
  {
    RetryTaken(host, Trim(s));
  }

  /** `pad2(n)`: numbers below ten get a leading zero. */
  function Pad2(n: int): string {
    if n < 10 then "0" + IntToString(n) else IntToString(n)
  }

  /** Every number of at most two digits pads to exactly two digits that read back as it. */
  lemma Pad2TwoDigits(n: int)
    requires 0 <= n < 100
    ensures |Pad2(n)| == 2 && AllDigits(Pad2(n)) && DigitsValue(Pad2(n)) == n
  {
    var r := Pad2(n);
    NatRoundTrip(n);
    if n < 10 {
      assert r[..1] == "0";
      assert DigitsValue("0") == 0 by { assert "0"[..0] == []; }
    }
  }

  /** Two digits are the padding of their own value, so reading two digits loses nothing. */
  lemma Pad2OfDigits(t: string)
    requires |t| == 2 && AllDigits(t)
    ensures Pad2(DigitsValue(t)) == t
  {
    var a, b := DigitValue(t[0]), DigitValue(t[1]);
    assert t[..1] == [t[0]];
    assert DigitsValue([t[0]]) == a by { assert [t[0]][..0] == []; }
    assert DigitsValue(t) == 10 * a + b;
    assert DigitChar(a) == t[0] && DigitChar(b) == t[1];
    if a > 0 {
      var v := 10 * a + b;
      assert v / 10 == a && v % 10 == b;
      assert NatToString(v) == NatToString(a) + [DigitChar(b)];
    }
  }

  /** `formatDateTimeRU(d)` on the local calendar fields of `d`: `dd.mm.yyyy hh:mm`. */
  function FormatParts(p: DateParts): string {
    Joined(Pad2(p.day), Pad2(p.month0 + 1), IntToString(p.year), Pad2(p.hours), Pad2(p.minutes))
  }

  function FormatDateTimeRU(host: Host, d: int): string {
    FormatParts(host.localParts(d))
  }

  /** Two digits, read. */
  function ReadTwo(t: string): (r: Option<int>)
    ensures r.Some? ==> 0 <= r.value < 100 && Pad2(r.value) == t
  {
    if |t| == 2 && AllDigits(t) then
      Pad2OfDigits(t);
      Pad2TwoDigits(DigitsValue(t));
      Some(DigitsValue(t) as int)
    else None
  }

  /** A year as `String` prints it, read; text with leading zeros is refused. */
  function ReadYear(t: string): (r: Option<int>)
    ensures r.Some? ==> IntToString(r.value) == t
  {
    if ParseInt(t).Some? && IntToString(ParseInt(t).value) == t then Some(ParseInt(t).value) else None
  }

  predicate Separators(s: string)
    requires |s| >= 13
  {
    s[2] == '.' && s[5] == '.' && s[|s| - 6] == ' ' && s[|s| - 3] == ':'
  }

  /** Reading `dd.mm.yyyy hh:mm` text back into calendar fields. */
  function ReadParts(s: string): (r: Option<DateParts>) {
    if |s| < 13 || !Separators(s) then None
    else
      var dd, mm, yyyy, hh, mi := ReadTwo(s[..2]), ReadTwo(s[3..5]), ReadYear(s[6..|s| - 6]), ReadTwo(s[|s| - 5..|s| - 3]), ReadTwo(s[|s| - 2..]);
      if dd.None? || mm.None? || yyyy.None? || hh.None? || mi.None? then None
      else Some(DateParts(yyyy.value, mm.value - 1, dd.value, hh.value, mi.value))
  }

  /** The nine pieces of `dd.mm.yyyy hh:mm`. */
  function Joined(d: string, m: string, y: string, h: string, mi: string): string {
    d + "." + m + "." + y + " " + h + ":" + mi
  }

  /** Where the pieces of `dd.mm.yyyy hh:mm` sit, for any two-character fields. */
  lemma Layout(d: string, m: string, y: string, h: string, mi: string)
    requires |d| == 2 && |m| == 2 && |h| == 2 && |mi| == 2
    ensures |Joined(d, m, y, h, mi)| == 12 + |y|
    ensures Joined(d, m, y, h, mi)[..2] == d
    ensures Joined(d, m, y, h, mi)[3..5] == m
    ensures Joined(d, m, y, h, mi)[6..6 + |y|] == y
    ensures Joined(d, m, y, h, mi)[7 + |y|..9 + |y|] == h
    ensures Joined(d, m, y, h, mi)[10 + |y|..] == mi
  {
    var s := Joined(d, m, y, h, mi);
    var u := d + "." + m + ".";
    var v := " " + h + ":" + mi;
    assert s == u + y + v;
    assert |u| == 6 && |v| == 6;
    assert s[..2] == u[..2] == d;
    assert s[3..5] == u[3..5] == m;
    assert s[6..6 + |y|] == y;
    assert s[7 + |y|..9 + |y|] == v[1..3] == h;
    assert s[10 + |y|..] == v[4..] == mi;
  }

  /** The separators of `dd.mm.yyyy hh:mm`, for any two-character fields. */
  lemma JoinedSeparators(d: string, m: string, y: string, h: string, mi: string)
    requires |d| == 2 && |m| == 2 && |h| == 2 && |mi| == 2 && |y| >= 1
    ensures |Joined(d, m, y, h, mi)| >= 13 && Separators(Joined(d, m, y, h, mi))
  {
    var s := Joined(d, m, y, h, mi);
    var u := d + "." + m + ".";
    var v := " " + h + ":" + mi;
    assert s == u + y + v;
    assert s[2] == u[2] && s[5] == u[5];
    assert s[|s| - 6] == v[0] && s[|s| - 3] == v[3];
  }

  /** Any text of at least thirteen characters is its nine pieces put back together. */
  lemma Unlayout(s: string)
    requires |s| >= 13
    ensures s == s[..2] + [s[2]] + s[3..5] + [s[5]] + s[6..|s| - 6] + [s[|s| - 6]] + s[|s| - 5..|s| - 3] + [s[|s| - 3]] + s[|s| - 2..]
  {
    var u := s[..2] + [s[2]] + s[3..5] + [s[5]];
    var v := [s[|s| - 6]] + s[|s| - 5..|s| - 3] + [s[|s| - 3]] + s[|s| - 2..];
    assert u == s[..6];
    assert v == s[|s| - 6..];
    assert s == s[..6] + s[6..|s| - 6] + s[|s| - 6..];
  }

  /** Only text the formatter could have printed is read: reading is exact. */
  lemma ReadPartsExact(s: string)
    requires ReadParts(s).Some?
    ensures FormatParts(ReadParts(s).value) == s
  {
    var p := ReadParts(s).value;
    Unlayout(s);
    assert Pad2(p.day) == s[..2];
    assert Pad2(p.month0 + 1) == s[3..5];
    assert IntToString(p.year) == s[6..|s| - 6];
    assert Pad2(p.hours) == s[|s| - 5..|s| - 3];
    assert Pad2(p.minutes) == s[|s| - 2..];
  }

  /** Reading nine pieces put together reads each piece. */
  lemma ReadJoined(d: string, m: string, y: string, h: string, mi: string)
    requires ReadTwo(d).Some? && ReadTwo(m).Some? && ReadYear(y).Some? && ReadTwo(h).Some? && ReadTwo(mi).Some?
    ensures ReadParts(Joined(d, m, y, h, mi)) ==
      Some(DateParts(ReadYear(y).value, ReadTwo(m).value - 1, ReadTwo(d).value, ReadTwo(h).value, ReadTwo(mi).value))
  {
    var s := Joined(d, m, y, h, mi);
    IntTextEdges(ReadYear(y).value);
    Layout(d, m, y, h, mi);
    JoinedSeparators(d, m, y, h, mi);
    ReadPieces(s, d, m, y, h, mi);
  }

  /** Text with the separators in place reads as its pieces. */
  lemma ReadPieces(s: string, d: string, m: string, y: string, h: string, mi: string)
    requires |s| >= 13 && Separators(s)
    requires s[..2] == d && s[3..5] == m && s[6..|s| - 6] == y && s[|s| - 5..|s| - 3] == h && s[|s| - 2..] == mi
    requires ReadTwo(d).Some? && ReadTwo(m).Some? && ReadYear(y).Some? && ReadTwo(h).Some? && ReadTwo(mi).Some?
    ensures ReadParts(s) ==
      Some(DateParts(ReadYear(y).value, ReadTwo(m).value - 1, ReadTwo(d).value, ReadTwo(h).value, ReadTwo(mi).value))
  {
  }

  /** Two-digit padding reads back. */
  lemma ReadTwoPad2(n: int)
    requires 0 <= n < 100
    ensures ReadTwo(Pad2(n)) == Some(n)
  {
    Pad2TwoDigits(n);
  }

  /** A year's text reads back. */
  lemma ReadYearOfText(y: int)
    ensures ReadYear(IntToString(y)) == Some(y)
  {
    IntRoundTrip(y);
  }

  /** Every calendar field of two digits or fewer survives printing and reading back. */
  lemma {:induction false} FormatRoundTrip(p: DateParts)
    requires 0 <= p.day < 100 && 0 <= p.month0 + 1 < 100 && 0 <= p.hours < 100 && 0 <= p.minutes < 100
    ensures ReadParts(FormatParts(p)) == Some(p)
  {
    var d, m, y, h, mi := Pad2(p.day), Pad2(p.month0 + 1), IntToString(p.year), Pad2(p.hours), Pad2(p.minutes);
    ReadTwoPad2(p.day);
    ReadTwoPad2(p.month0 + 1);
    ReadTwoPad2(p.hours);
    ReadTwoPad2(p.minutes);
    ReadYearOfText(p.year);
    assert ReadTwo(d) == Some(p.day) && ReadTwo(m) == Some(p.month0 + 1) && ReadYear(y) == Some(p.year);
    assert ReadTwo(h) == Some(p.hours) && ReadTwo(mi) == Some(p.minutes);
    ReadJoined(d, m, y, h, mi);
    assert FormatParts(p) == Joined(d, m, y, h, mi);
  }

  /** Two instants whose calendar fields differ print differently (fields of at most two digits). */
  lemma FormatInjective(p: DateParts, q: DateParts)
    requires 0 <= p.day < 100 && 0 <= p.month0 + 1 < 100 && 0 <= p.hours < 100 && 0 <= p.minutes < 100
    requires 0 <= q.day < 100 && 0 <= q.month0 + 1 < 100 && 0 <= q.hours < 100 && 0 <= q.minutes < 100
    requires FormatParts(p) == FormatParts(q)
    ensures p == q
  {
    FormatRoundTrip(p);
    FormatRoundTrip(q);
  }

  /** The creation-time fields a pin may carry, in the order they are consulted. */
  function CreatedAtFields(pin: Value): seq<Value> {
    [Field(pin, "created_at"), Field(pin, "createdAt"), Field(pin, "created"),
     Field(pin, "created_time"), Field(pin, "createdTime")]
  }

  /** `formatPinCreatedAt(pin)`: the first present creation field, parsed and printed. */
  function FormatPinCreatedAt(host: Host, pin: Value): (r: Option<string>)
    ensures r.Some? <==> ParseDateTime(host, CoalesceAll(CreatedAtFields(pin))).Some?
    ensures r.Some? ==> r.value == FormatDateTimeRU(host, ParseDateTime(host, CoalesceAll(CreatedAtFields(pin))).value)
  {
    var d := ParseDateTime(host, CoalesceAll(CreatedAtFields(pin)));
    if d.Some? then Some(FormatDateTimeRU(host, d.value)) else None
  }

  /** A pin without a record, or with none of the fields, has no creation time. */
  lemma NoCreatedAt(host: Host, pin: Value)
    requires forall i :: 0 <= i < 5 ==> Nullish(CreatedAtFields(pin)[i])
    ensures FormatPinCreatedAt(host, pin) == None
  {
  }

  /**
   * The first present field decides: a `created_at` that cannot be read hides
   * any later field, even a readable one.
   */
  lemma {:induction false} FirstFieldDecides(host: Host, pin: Value, k: nat)
    requires k < 5 && !Nullish(CreatedAtFields(pin)[k])
    requires forall i :: 0 <= i < k ==> Nullish(CreatedAtFields(pin)[i])
    ensures FormatPinCreatedAt(host, pin).Some? <==> ParseDateTime(host, CreatedAtFields(pin)[k]).Some?
    ensures FormatPinCreatedAt(host, pin).Some? ==>
      FormatPinCreatedAt(host, pin).value == FormatDateTimeRU(host, ParseDateTime(host, CreatedAtFields(pin)[k]).value)
  {
    assert CoalesceAll(CreatedAtFields(pin)) == CreatedAtFields(pin)[k];
  }
}

=== FILE: decimal.dfy ===
/**
 * Decimal text of integers, as JavaScript's `String(n)` writes an integer-valued
 * number, and the reverse reading used where the application turns such text
 * back into a number.
 */
module Decimal {
  import opened Wrappers

  predicate IsDigit(c: char) {
    '0' <= c <= '9'
  }

  function DigitChar(d: int): (c: char)
    requires 0 <= d < 10
    ensures IsDigit(c) && DigitValue(c) == d
  {
    ('0' as int + d) as char
  }

  function DigitValue(c: char): int
    requires IsDigit(c)
  {
    c as int - '0' as int
  }

  /** Decimal digits of `n` without leading zeros. */
  function NatToString(n: nat): (r: string)
    ensures |r| >= 1 && forall i :: 0 <= i < |r| ==> IsDigit(r[i])
    ensures n < 10 <==> |r| == 1
    ensures n >= 10 ==> r[0] != '0'
  {
    if n < 10 then [DigitChar(n)] else NatToString(n / 10) + [DigitChar(n % 10)]
  }

  /** `String(n)` for an integer-valued number: a minus sign then the digits of |n|. */
  function IntToString(n: int): (r: string)
    ensures n >= 0 ==> r == NatToString(n)
    ensures n < 0 ==> r == "-" + NatToString(-n)
  {
    if n >= 0 then NatToString(n) else "-" + NatToString(-n)
  }

  predicate AllDigits(s: string) {
    forall i :: 0 <= i < |s| ==> IsDigit(s[i])
  }

  /** The value of a string of digits, read most significant first. */
  function DigitsValue(s: string): nat
    requires AllDigits(s)
  {
    if s == [] then 0 else 10 * DigitsValue(s[..|s| - 1]) + DigitValue(s[|s| - 1])
  }

  /**
   * `Number(s)` on decimal integer text: optional `-`, then at least one digit.
   * Any other text reads as not-a-number (`None`).
   */
  function ParseInt(s: string): (r: Option<int>)
    ensures r.Some? ==> s != []
  {
    if s != [] && s[0] == '-' && |s| > 1 && AllDigits(s[1..]) then Some(-(DigitsValue(s[1..]) as int))
    else if s != [] && AllDigits(s) then Some(DigitsValue(s))
    else None
  }

  lemma {:induction false} NatRoundTrip(n: nat)
    ensures DigitsValue(NatToString(n)) == n
  {
    if n >= 10 {
      var r := NatToString(n);
      NatRoundTrip(n / 10);
      assert r[..|r| - 1] == NatToString(n / 10);
    }
  }

  /** Reading back the decimal text of any integer gives the integer. */
  lemma IntRoundTrip(n: int)
    ensures ParseInt(IntToString(n)) == Some(n)
  {
    if n >= 0 {
      NatRoundTrip(n);
    } else {
      var t := IntToString(n);
      assert t[1..] == NatToString(-n);
      NatRoundTrip(-n);
    }
  }

  /** Distinct integers have distinct decimal text. */
  lemma IntToStringInjective(a: int, b: int)
    requires IntToString(a) == IntToString(b)
    ensures a == b
  {
    IntRoundTrip(a);
    IntRoundTrip(b);
  }

  /** Decimal text never contains the given non-digit, non-minus character. */
  lemma IntToStringAvoids(n: int, c: char)
    requires !IsDigit(c) && c != '-'
    ensures c !in IntToString(n)
  {
  }

  /** The text of an integer starts with a digit or `-` and ends with a digit. */
  lemma IntTextEdges(n: int)
    ensures var t := IntToString(n);
      t != [] && (IsDigit(t[0]) || t[0] == '-') && IsDigit(t[|t| - 1])
  {
    if n < 0 {
      var d := NatToString(-n);
      assert IntToString(n)[|IntToString(n)| - 1] == d[|d| - 1];
    }
  }
}

=== FILE: js.dfy ===
/**
 * The JavaScript values the application inspects without knowing their type
 * (user records, decoded token claims, raw pins), and the few language
 * operations applied to them: `==` against null, `??`, `||`, truthiness,
 * property access, `Number.isFinite`, `Number(text)` and `String(value)`.
 *
 * Library primitives whose behaviour is not reproduced here (`Number` on
 * arbitrary text, number formatting, `JSON.parse` and `JSON.stringify`, `decodeURIComponent`,
 * `Date` parsing and the local-time getters) are the fields of `Host`.
 */
module Js {
  import opened Wrappers
  import opened Strings
  import opened Decimal

  /** An IEEE double, with the finite values as reals. */
  datatype Num = Fin(value: real) | NaN | Infinity(negative: bool)

  /** A JavaScript value; an object is its own-property list in creation order. */
  datatype Value =
    | Undefined
    | Null
    | Bool(b: bool)
    | Number(n: Num)
    | Str(s: string)
    | Arr(items: seq<Value>)
    | Obj(props: seq<(string, Value)>)

  /** The local calendar fields of a time value (`getFullYear`, `getMonth`, ...). */
  datatype DateParts = DateParts(year: int, month0: int, day: int, hours: int, minutes: int)

  /** Library primitives, left abstract. `None` stands for "throws" or for NaN as noted. */
  datatype Host = Host(
    stringToNumber: string -> Num,         // `Number(s)` for text that is not a plain decimal integer
    fractionText: real -> string,          // `String(x)` for a finite non-integer `x`
    jsonParse: string -> Option<Value>,    // `JSON.parse`, `None` when it throws
    jsonStringify: Value -> string,        // `JSON.stringify`
    uriDecode: string -> Option<string>,   // `decodeURIComponent`, `None` when it throws
    dateParse: string -> Option<int>,      // `new Date(s).getTime()`, `None` when NaN
    localParts: int -> DateParts)          // local-time getters of `new Date(ms)`

  /** `v == null`: true for both `null` and `undefined`. */
  predicate Nullish(v: Value) {
    v.Undefined? || v.Null?
  }

  /** `a ?? b`. */
  function Coalesce(a: Value, b: Value): Value {
    if Nullish(a) then b else a
  }

  /** `a ?? b ?? ... ?? null` over `vs`. */
  function CoalesceAll(vs: seq<Value>): (r: Value)
    ensures (forall i :: 0 <= i < |vs| ==> Nullish(vs[i])) ==> r == Null
    ensures forall k :: 0 <= k < |vs| && !Nullish(vs[k]) && (forall i :: 0 <= i < k ==> Nullish(vs[i])) ==> r == vs[k]
  {
    if vs == [] then Null else Coalesce(vs[0], CoalesceAll(vs[1..]))
  }

  /** ECMAScript ToBoolean. */
  predicate Truthy(v: Value) {
    match v
    case Undefined => false
    case Null => false
    case Bool(b) => b
    case Number(n) => (n.Fin? && n.value != 0.0) || n.Infinity?
    case Str(s) => s != []
    case Arr(_) => true
    case Obj(_) => true
  }

  /** `a || b`: the first operand if truthy, else the second. */
  function Or(a: Value, b: Value): (r: Value)
    ensures Truthy(r) <==> Truthy(a) || Truthy(b)
  {
    if Truthy(a) then a else b
  }

  /** `v?.name` (and `v.name` where `v` is known not to be nullish): a missing property reads as `undefined`. */
  function Field(v: Value, name: string): (r: Value)
    ensures !v.Obj? ==> r == Undefined
  {
    match v
    case Obj(props) => Lookup(props, name)
    case _ => Undefined
  }

  function Lookup(props: seq<(string, Value)>, name: string): Value {
    if props == [] then Undefined
    else if props[0].0 == name then props[0].1
    else Lookup(props[1..], name)
  }

  /** `Number.isFinite(v)`: true only for finite numbers, with no conversion. */
  predicate IsFinite(v: Value) {
    v.Number? && v.n.Fin?
  }

  /** `Number(s)`: plain decimal integer text is read exactly; other text goes to the host. */
  function ToNumber(host: Host, s: string): (r: Num)
    ensures ParseInt(s).Some? ==> r == Fin(ParseInt(s).value as real)
  {
    match ParseInt(s)
    case Some(n) => Fin(n as real)
    case None => host.stringToNumber(s)
  }

  /** Reading back an integer's decimal text gives that integer: integer text is read exactly in this model. */
  lemma ToNumberOfIntText(host: Host, n: int)
    ensures ToNumber(host, IntToString(n)) == Fin(n as real)
  {
    IntRoundTrip(n);
  }

  /** `String(x)` for a number; integers print in decimal. */
  function NumberText(host: Host, n: Num): (r: string)
    ensures n.Fin? && n.value == n.value.Floor as real ==> r == IntToString(n.value.Floor)
  {
    match n
    case NaN => "NaN"
    case Infinity(neg) => if neg then "-Infinity" else "Infinity"
    case Fin(x) => if x == x.Floor as real then IntToString(x.Floor) else host.fractionText(x)
  }

  /** `String(v)`: arrays join their elements' text with `,`, nullish elements as empty text. */
  function ToText(host: Host, v: Value): string
    decreases v, 1
  {
    match v
    case Undefined => "undefined"
    case Null => "null"
    case Bool(b) => if b then "true" else "false"
    case Number(n) => NumberText(host, n)
    case Str(s) => s
    case Arr(items) => JoinTexts(host, items)
    case Obj(_) => "[object Object]"
  }

  function JoinTexts(host: Host, items: seq<Value>): string
    decreases items, 0
  {
    if items == [] then ""
    else
      var first := if Nullish(items[0]) then "" else ToText(host, items[0]);
      if |items| == 1 then first else first + "," + JoinTexts(host, items[1..])
  }
}

=== FILE: photo.dfy ===
/**
 * Turning a stored photo reference into something an image view can show
 * (full URLs, data URIs and device files as they are; legacy bare base64 as a
 * JPEG data URI; anything else as a path on the API server), and telling
 * device files, which still have to be uploaded, from the rest.
 */
module Photo {
  import opened Wrappers
  import opened Strings
  import Base64

  /** `API_BASE_URL` of `src/utils/config.ts`. */
  const ApiBaseUrl: string := "http://192.168.1.1:8081"

  const DataJpegPrefix: string := "data:image/jpeg;base64,"

  /** References that are shown as they are. */
  predicate PassesThrough(s: string) {
    || StartsWith(s, "data:") || StartsWith(s, "file://") || StartsWith(s, "content://")
    || StartsWith(s, "asset:") || StartsWith(s, "http://") || StartsWith(s, "https://")
  }

  /** A character of `[A-Za-z0-9+/=\s]`. */
  predicate Base64ish(c: char) {
    ('A' <= c <= 'Z') || ('a' <= c <= 'z') || ('0' <= c <= '9') || c == '+' || c == '/' || c == '=' || IsSpace(c)
  }

  /** The legacy heuristic: longer than 200 characters, all of them base64-ish. */
  predicate LooksLikeBase64(s: string) {
    |s| > 200 && forall i :: 0 <= i < |s| ==> Base64ish(s[i])
  }

  /** `s.replace(/\s+/g, '')`. */
  function RemoveSpaces(s: string): (r: string)
    ensures forall i :: 0 <= i < |r| ==> !IsSpace(r[i])
    ensures (forall i :: 0 <= i < |s| ==> !IsSpace(s[i])) ==> r == s
  {
    if s == [] then [] else (if IsSpace(s[0]) then [] else [s[0]]) + RemoveSpaces(s[1..])
  }

  /** `s.replace(/\/+$/, '')`: every trailing slash removed. */
  function TrimSlashes(s: string): (r: string)
    ensures |r| <= |s| && r == s[..|r|] && (r == [] || r[|r| - 1] != '/')
    ensures forall i :: |r| <= i < |s| ==> s[i] == '/'
  {
    if s == [] || s[|s| - 1] != '/' then s else TrimSlashes(s[..|s| - 1])
  }

  /** The server base has no trailing slash, so it is its own trimmed form. */
  lemma BaseHasNoTrailingSlash()
    ensures TrimSlashes(ApiBaseUrl) == ApiBaseUrl
  {
    assert ApiBaseUrl[|ApiBaseUrl| - 1] == '1';
  }

  /** A relative path on the API server, joined to the base with one slash. */
  function ServerPath(s: string): (r: string)
    requires s != []
    ensures |r| > |ApiBaseUrl| && r[..|ApiBaseUrl| + 1] == ApiBaseUrl + "/"
    ensures r[|ApiBaseUrl| + 1..] == if s[0] == '/' then s[1..] else s
    ensures r[|r| - 1] == s[|s| - 1]
  {
    var base := TrimSlashes(ApiBaseUrl);
    BaseHasNoTrailingSlash();
    var path := if StartsWith(s, "/") then s else "/" + s;
    assert StartsWith(s, "/") <==> s[0] == '/' by {
      assert s[..1] == [s[0]];
    }
    base + path
  }

  /** The conversion of an already trimmed, non-empty reference. */
  function ImageUri(s: string): (r: string)
    requires s != []
    ensures r != []
    ensures PassesThrough(s) ==> r == s
    ensures !PassesThrough(s) && LooksLikeBase64(s) ==> r == DataJpegPrefix + RemoveSpaces(s)
    ensures !PassesThrough(s) && !LooksLikeBase64(s) ==> r == ServerPath(s)
  {
    if PassesThrough(s) then s
    else if LooksLikeBase64(s) then DataJpegPrefix + RemoveSpaces(s)
    else ServerPath(s)
  }

  /** `photoToImageUri(photoLink)`: empty for a missing or blank reference. */
  function PhotoToImageUri(photoLink: Option<string>): (r: string)
    ensures r == [] <==> Trim(photoLink.GetOr("")) == []
    ensures r != [] ==> r == ImageUri(Trim(photoLink.GetOr("")))
  {
    var s := Trim(photoLink.GetOr(""));
    if s == [] then "" else ImageUri(s)
  }

  /** `isLocalPhotoUri(uri)`: a device file or content URI, which has to be uploaded. */
  predicate IsLocalPhotoUri(uri: Option<string>) {
    var s := Trim(uri.GetOr(""));
    s != [] && (StartsWith(s, "file://") || StartsWith(s, "content://"))
  }

  /** The photo shown for a non-blank link is non-blank and as local as the link. */
  lemma ShownPhoto(link: string)
    requires Trim(link) != []
    ensures link != []
    ensures Trim(PhotoToImageUri(Some(link))) != []
    ensures IsLocalPhotoUri(Some(PhotoToImageUri(Some(link)))) <==> IsLocalPhotoUri(Some(link))
  {
    ShownNotBlank(link);
    ShownLocality(link);
  }

  lemma ShownNotBlank(link: string)
    requires Trim(link) != []
    ensures Trim(PhotoToImageUri(Some(link))) != []
  {
    var s := Trim(link);
    TrimOfTrimmed(s);
    ImageUriPassesThrough(s);
  }

  lemma ShownLocality(link: string)
    requires Trim(link) != []
    ensures IsLocalPhotoUri(Some(PhotoToImageUri(Some(link)))) <==> IsLocalPhotoUri(Some(link))
  {
    var s := Trim(link);
    TrimOfTrimmed(s);
    ImageUriKeepsLocality(s);
    LocalityOfTrimmed(link);
  }

  /** Locality is decided on the trimmed text. */
  lemma LocalityOfTrimmed(link: string)
    ensures IsLocalPhotoUri(Some(Trim(link))) == IsLocalPhotoUri(Some(link))
  {
    TrimOfTrimmed(Trim(link));
  }

  /** A device photo is shown straight from the device, trimmed. */
  lemma LocalShownAsIs(uri: Option<string>)
    requires IsLocalPhotoUri(uri)
    ensures PhotoToImageUri(uri) == Trim(uri.GetOr(""))
  {
  }

  /** Nothing displayable comes of a missing or blank reference, and a blank one is not local. */
  lemma BlankReference(uri: Option<string>)
    requires Trim(uri.GetOr("")) == []
    ensures PhotoToImageUri(uri) == [] && !IsLocalPhotoUri(uri)
  {
  }

  /** A reference whose first character is neither white space nor `f` nor `c` is not blank and not a device file. */
  lemma NotLocalByFirstChar(s: string)
    requires s != [] && !IsSpace(s[0]) && s[0] != 'f' && s[0] != 'c'
    ensures Trim(s) != [] && !IsLocalPhotoUri(Some(s))
  {
    TrimKeepsHead(s);
    PrefixHead(Trim(s), "file://");
    PrefixHead(Trim(s), "content://");
  }

  /**
   * Converting for display keeps a reference's locality: a device file is
   * shown as the same device file, and nothing else turns into one.
   */
  lemma {:induction false} DisplayKeepsLocality(photoLink: Option<string>)
    ensures IsLocalPhotoUri(Some(PhotoToImageUri(photoLink))) <==> IsLocalPhotoUri(photoLink)
  {
    var s := Trim(photoLink.GetOr(""));
    if s != [] {
      TrimOfTrimmed(s);
      assert IsLocalPhotoUri(Some(s)) == IsLocalPhotoUri(photoLink);
      ImageUriKeepsLocality(s);
    }
  }

  lemma ImageUriKeepsLocality(s: string)
    requires s != [] && Trim(s) == s
    ensures IsLocalPhotoUri(Some(ImageUri(s))) <==> IsLocalPhotoUri(Some(s))
  {
    var r := ImageUri(s);
    if PassesThrough(s) {
      assert r == s;
    } else {
      NotPassingNotLocal(s);
      ConvertedFirstChar(s);
      NotLocalByFirstChar(r);
      assert !IsLocalPhotoUri(Some(r)) && !IsLocalPhotoUri(Some(s));
    }
  }

  /** A converted reference that did not pass through starts with `d` (data URI) or `h` (server URL). */
  lemma ConvertedFirstChar(s: string)
    requires s != [] && !PassesThrough(s)
    ensures ImageUri(s)[0] == 'd' || ImageUri(s)[0] == 'h'
  {
    if LooksLikeBase64(s) {
      assert ImageUri(s) == DataJpegPrefix + RemoveSpaces(s);
    } else {
      var r := ImageUri(s);
      assert r == ServerPath(s);
      assert r[0] == r[..|ApiBaseUrl| + 1][0];
    }
  }

  /** Device files pass through, so what does not pass through is not one. */
  lemma NotPassingNotLocal(s: string)
    requires s != [] && Trim(s) == s && !PassesThrough(s)
    ensures !IsLocalPhotoUri(Some(s))
  {
  }

  /** What a trimmed reference converts to is trimmed and is shown as it is. */
  lemma {:induction false} ImageUriPassesThrough(s: string)
    requires s != [] && Trim(s) == s
    ensures PassesThrough(ImageUri(s)) && Trim(ImageUri(s)) == ImageUri(s)
  {
    var r := ImageUri(s);
    assert !IsSpace(s[0]) && !IsSpace(s[|s| - 1]);
    if PassesThrough(s) {
    } else if LooksLikeBase64(s) {
      var body := RemoveSpaces(s);
      NoSpaceLeftIsEmpty(s);
      assert r == DataJpegPrefix + body;
      assert r[..5] == "data:";
      assert r[|r| - 1] == body[|body| - 1];
      TrimOfTrimmed(r);
    } else {
      assert r[..7] == "http://" by {
        assert r[..7] == r[..|ApiBaseUrl| + 1][..7];
      }
      TrimOfTrimmed(r);
    }
  }

  /** Converting twice is converting once: every result is shown as it is. */
  lemma {:induction false} PhotoToImageUriIdempotent(photoLink: Option<string>)
    ensures PhotoToImageUri(Some(PhotoToImageUri(photoLink))) == PhotoToImageUri(photoLink)
  {
    var s := Trim(photoLink.GetOr(""));
    var r := PhotoToImageUri(photoLink);
    if s == [] {
      assert Trim(r) == [];
    } else {
      TrimOfTrimmed(s);
      ImageUriPassesThrough(s);
      assert PhotoToImageUri(Some(r)) == ImageUri(r);
    }
  }

  /** Removing the spaces leaves something of any text that is not all spaces. */
  lemma {:induction false} NoSpaceLeftIsEmpty(s: string)
    requires s != [] && !IsSpace(s[0])
    ensures RemoveSpaces(s) != []
  {
    assert RemoveSpaces(s)[0] == s[0];
  }

  /** Standard base64 text is base-64-ish through and through. */
  lemma EncodedIsBase64ish(bytes: seq<Base64.Byte>)
    ensures forall i :: 0 <= i < |Base64.Encode(bytes)| ==>
      Base64ish(Base64.Encode(bytes)[i]) && !IsSpace(Base64.Encode(bytes)[i]) && Base64.Encode(bytes)[i] != ':'
  {
    Base64.EncodeAlphabet(bytes);
    forall i | 0 <= i < |Base64.Encode(bytes)|
      ensures Base64ish(Base64.Encode(bytes)[i]) && !IsSpace(Base64.Encode(bytes)[i]) && Base64.Encode(bytes)[i] != ':'
    {
      AlphabetChar(Base64.Encode(bytes)[i]);
    }
  }

  /** A character the base64 decoder looks up is no space and no colon. */
  lemma AlphabetChar(c: char)
    requires 0 <= Base64.IndexOfChar(c)
    ensures Base64ish(c) && !IsSpace(c) && c != ':'
  {
  }

  /** Every scheme that passes through has a colon, so text without one is not passed through. */
  lemma NoColonNoScheme(e: string)
    requires forall i :: 0 <= i < |e| ==> e[i] != ':'
    ensures !PassesThrough(e)
  {
    if |e| >= 5 {
      assert e[..5][4] == e[4];
    }
    if |e| >= 6 {
      assert e[..6][5] == e[5];
    }
    if |e| >= 7 {
      assert e[..7][4] == e[4] && e[..7][6] == e[6];
    }
    if |e| >= 8 {
      assert e[..8][5] == e[5];
    }
    if |e| >= 10 {
      assert e[..10][7] == e[7];
    }
  }

  /**
   * A legacy photo saved as bare standard base64 (longer than 200 characters)
   * becomes a JPEG data URI around exactly that text.
   */
  lemma LegacyBase64Photo(bytes: seq<Base64.Byte>)
    requires |Base64.Encode(bytes)| > 200
    ensures PhotoToImageUri(Some(Base64.Encode(bytes))) == DataJpegPrefix + Base64.Encode(bytes)
  {
    EncodedIsBase64ish(bytes);
    LegacyText(Base64.Encode(bytes));
  }

  /** Long base64 text with no spaces is wrapped as it is. */
  lemma LegacyText(e: string)
    requires |e| > 200
    requires forall i :: 0 <= i < |e| ==> Base64ish(e[i]) && !IsSpace(e[i]) && e[i] != ':'
    ensures PhotoToImageUri(Some(e)) == DataJpegPrefix + e
  {
    LegacyImageUri(e);
    TrimOfTrimmed(e);
  }

  lemma LegacyImageUri(e: string)
    requires |e| > 200
    requires forall i :: 0 <= i < |e| ==> Base64ish(e[i]) && !IsSpace(e[i]) && e[i] != ':'
    ensures ImageUri(e) == DataJpegPrefix + e
  {
    NoColonNoScheme(e);
    assert LooksLikeBase64(e);
    assert RemoveSpaces(e) == e;
  }
}

=== FILE: pindetails.dfy ===
/**
 * The pin details screen (`src/screens/PinDetailsScreen.tsx`): the pin is
 * looked up in the loaded list, its category and status come from the
 * device storage (or the defaults), and in edit mode the description, the
 * photo, the category and the status can be changed. Saving uploads the
 * photo only when it is new, sends the pin's own coordinates with the
 * trimmed description, and always stores the category and status on the
 * device.
 */
module PinDetails {
  import opened Wrappers
  import opened Strings
  import opened Js
  import opened Requests
  import opened Pins
  import opened Photo
  import CreatePin
  import PinMeta

  /**
   * The screen's state. `photoUri` is what the image view shows (remote or
   * local), `photoLink` what is sent to the server. The category and status
   * hold whatever was read back from storage, so they are JavaScript values.
   */
  datatype Editor = Editor(
    pin: Option<Pin>,
    edit: bool,
    busy: bool,
    descr: string,
    photoUri: string,
    photoLink: string,
    categoryId: Value,
    statusId: Value)

  /** The state before loading: nothing found, category `other`, status `new`. */
  function Opened(): (e: Editor)
    ensures e.pin.None? && !e.edit && !e.busy
    ensures CategoryById(AsId(e.categoryId)).id == "other" && StatusById(AsId(e.statusId)).id == "new"
  {
    Editor(None, false, false, "", "", "", Str("other"), Str("new"))
  }

  /** An id as compared by `categoryById`/`statusById`: only text can equal a listed id. */
  function AsId(v: Value): (r: Option<string>)
    ensures r.Some? <==> v.Str?
  {
    if v.Str? then Some(v.s) else None
  }

  /** `all.find((p) => p.id === pinId) ?? null`: the first pin with that id. */
  function FindPin(pins: seq<Pin>, id: int): (r: Option<Pin>)
    ensures r.None? <==> forall i :: 0 <= i < |pins| ==> pins[i].id != id
    ensures r.Some? ==> exists k :: 0 <= k < |pins| && pins[k] == r.value && r.value.id == id &&
                                    forall i :: 0 <= i < k ==> pins[i].id != id
  {
    if pins == [] then None
    else if pins[0].id == id then Some(pins[0])
    else
      var r := FindPin(pins[1..], id);
      assert r.Some? ==> exists k :: 1 <= k < |pins| && pins[k] == r.value && r.value.id == id &&
                                     forall i :: 0 <= i < k ==> pins[i].id != id by {
        if r.Some? {
          var k :| 0 <= k < |pins[1..]| && pins[1..][k] == r.value && r.value.id == id &&
                   forall i :: 0 <= i < k ==> pins[1..][i].id != id;
          assert pins[k + 1] == r.value;
          assert forall i :: 1 <= i < k + 1 ==> pins[i].id != id by {
            forall i | 1 <= i < k + 1
              ensures pins[i].id != id
            {
              assert pins[i] == pins[1..][i - 1];
            }
          }
        }
      }
      r
  }

  /** `(await getPinMeta(pinId)) ?? defaultPinMeta()`. */
  function LoadedMeta(host: Host, store: PinMeta.Store, pinId: int, now: int): (m: Value)
    ensures PinMeta.Key(pinId) !in store ==> m == PinMeta.MetaValue(PinMeta.DefaultPinMeta(now))
  {
    var got := PinMeta.GetPinMeta(host, store, pinId);
    if got.None? || Nullish(got.value) then PinMeta.MetaValue(PinMeta.DefaultPinMeta(now)) else got.value
  }

  /** The edited fields as a pin shows them: its description and link (empty when missing) and the displayable photo. */
  function ShowPin(e: Editor, p: Pin): Editor {
    e.(descr := p.description.GetOr(""),
       photoLink := p.photoLink.GetOr(""),
       photoUri := PhotoToImageUri(Some(p.photoLink.GetOr(""))))
  }

  /**
   * `load()`: `fetched` is the first page of pins (`None` when the request
   * threw, which leaves the state as it was). The pin is looked up by id; the
   * category and status are taken from the stored entry or the defaults; the
   * edited fields are filled from the pin only when it was found.
   */
  function Load(host: Host, store: PinMeta.Store, e: Editor, fetched: Option<seq<Pin>>, pinId: int, now: int): (r: Editor)
    ensures fetched.None? ==> r == e
    ensures fetched.Some? ==> r.pin == FindPin(fetched.value, pinId)
    ensures fetched.Some? ==> r.categoryId == Field(LoadedMeta(host, store, pinId, now), "categoryId")
    ensures fetched.Some? ==> r.statusId == Field(LoadedMeta(host, store, pinId, now), "statusId")
    ensures fetched.Some? && r.pin.None? ==> r.descr == e.descr && r.photoUri == e.photoUri && r.photoLink == e.photoLink
    ensures fetched.Some? && r.pin.Some? ==>
      var link := r.pin.value.photoLink.GetOr("");
      r.descr == r.pin.value.description.GetOr("") && r.photoLink == link && r.photoUri == PhotoToImageUri(Some(link))
    ensures r.edit == e.edit && r.busy == e.busy
  {
    match fetched
    case None => e
    case Some(pins) =>
      var found := FindPin(pins, pinId);
      var meta := LoadedMeta(host, store, pinId, now);
      var e' := e.(pin := found, categoryId := Field(meta, "categoryId"), statusId := Field(meta, "statusId"));
      match found
      case None => e'
      case Some(p) => ShowPin(e', p)
  }

  /** The edit button. */
  function StartEdit(e: Editor): (r: Editor)
    ensures r.edit && r.(edit := e.edit) == e
  {
    e.(edit := true)
  }

  /** `pickImage`: a new device photo replaces the shown one and drops the link, so it will be uploaded. */
  function PickImage(e: Editor, asset: Option<string>): (r: Editor)
    ensures asset.None? ==> r == e
    ensures asset.Some? ==> r.photoUri == asset.value && r.photoLink == [] && r.(photoUri := e.photoUri, photoLink := e.photoLink) == e
  {
    match asset
    case None => e
    case Some(uri) => e.(photoUri := uri, photoLink := "")
  }

  /** The remove-photo button clears both the shown photo and the link. */
  function RemovePhoto(e: Editor): (r: Editor)
    ensures Trim(r.photoUri) == [] && r.photoLink == [] && r.(photoUri := e.photoUri, photoLink := e.photoLink) == e
  {
    e.(photoUri := "", photoLink := "")
  }

  /** Tapping a category chip or a status chip. */
  function ChooseCategory(e: Editor, i: nat): (r: Editor)
    requires i < |Categories|
    ensures CategoryById(AsId(r.categoryId)) == Categories[i] && r.(categoryId := e.categoryId) == e
  {
    CategoryLookupListed(i);
    e.(categoryId := Str(Categories[i].id))
  }

  function ChooseStatus(e: Editor, i: nat): (r: Editor)
    requires i < |Statuses|
    ensures StatusById(AsId(r.statusId)) == Statuses[i] && r.(statusId := e.statusId) == e
  {
    StatusLookupListed(i);
    e.(statusId := Str(Statuses[i].id))
  }

  /**
   * The cancel button (shown only once a pin is loaded): leaves edit mode and
   * puts the pin's description and photo back. The chosen category and status
   * are not put back.
   */
  function Cancel(e: Editor): (r: Editor)
    requires e.pin.Some?
    ensures !r.edit && r.categoryId == e.categoryId && r.statusId == e.statusId && r.pin == e.pin
  {
    ShowPin(e.(edit := false), e.pin.value)
  }

  /** `!photoLink || isLocalPhotoUri(photoUri)`: the photo has no link yet, or is a device file. */
  predicate NeedsUpload(e: Editor) {
    e.photoLink == [] || IsLocalPhotoUri(Some(e.photoUri))
  }

  /** The object `setPinMeta` is given on save. */
  function SavedMeta(e: Editor, now: int): (v: Value)
    ensures Field(v, "categoryId") == e.categoryId && Field(v, "statusId") == e.statusId
  {
    var v := Obj([("categoryId", e.categoryId), ("statusId", e.statusId), ("updatedAt", Number(Fin(now as real)))]);
    assert Lookup(v.props, "statusId") == Lookup(v.props[1..], "statusId") by {
      assert v.props[0].0 != "statusId";
    }
    assert v.props[1..][0] == ("statusId", e.statusId);
    v
  }

  datatype SaveRefusal = PhotoRequired | PhotoNotLocal

  /**
   * How saving ends: `NotLoaded` does nothing, `Refused` alerts before any
   * request, `Failed` is the error alert after the upload threw.
   */
  datatype SaveOutcome = NotLoaded | Refused(reason: SaveRefusal) | Failed | Saved(payload: CreatePin.PinCreate, editor: Editor, store: PinMeta.Store)

  /**
   * `onSave`: `uploaded` is what the upload returned (`None` when it threw),
   * `reply` the pin the server returned for the update (`None` when the update
   * failed, which is tolerated), `now` the clock. The entry is stored under
   * the id of the pin being edited.
   */
  function Save(host: Host, e: Editor, store: PinMeta.Store, uploaded: Option<string>, reply: Option<Pin>, now: int): (o: SaveOutcome)
    ensures o.NotLoaded? <==> e.pin.None?
    ensures o == Refused(PhotoRequired) <==> e.pin.Some? && Trim(e.photoUri) == []
    ensures o == Refused(PhotoNotLocal) <==> e.pin.Some? && Trim(e.photoUri) != [] && e.photoLink == [] && !IsLocalPhotoUri(Some(e.photoUri))
    ensures o.Saved? <==> e.pin.Some? && Trim(e.photoUri) != [] && (!NeedsUpload(e) || (IsLocalPhotoUri(Some(e.photoUri)) && uploaded.Some?))
    ensures o.Saved? ==> o.payload.photoLink == Some(if NeedsUpload(e) then uploaded.value else e.photoLink)
    ensures o.Saved? ==> !o.editor.edit && !o.editor.busy && o.payload.photoLink == Some(o.editor.photoLink)
    ensures o.Saved? ==> o.payload.x == e.pin.value.x && o.payload.y == e.pin.value.y
    ensures o.Saved? ==> o.payload.description == CreatePin.TrimmedOrNull(e.descr)
    ensures o.Saved? ==> o.store == PinMeta.WriteEntry(host, store, e.pin.value.id, SavedMeta(e, now))
  {
    match e.pin
    case None => NotLoaded
    case Some(p) =>
      if Trim(e.photoUri) == [] then Refused(PhotoRequired)
      else if NeedsUpload(e) && !IsLocalPhotoUri(Some(e.photoUri)) then Refused(PhotoNotLocal)
      else if NeedsUpload(e) && uploaded.None? then Failed
      else
        var link := if NeedsUpload(e) then uploaded.value else e.photoLink;
        var payload := CreatePin.PinCreate(p.x, p.y, Some(link), CreatePin.TrimmedOrNull(e.descr));
        var pin' := if reply.Some? then reply else e.pin;
        Saved(payload,
              e.(pin := pin', photoLink := link, edit := false, busy := false),
              PinMeta.WriteEntry(host, store, p.id, SavedMeta(e, now)))
  }

  /** Without a stored entry the screen shows the default category and status. */
  lemma LoadWithoutEntry(host: Host, store: PinMeta.Store, e: Editor, pins: seq<Pin>, pinId: int, now: int)
    requires PinMeta.Key(pinId) !in store
    ensures Load(host, store, e, Some(pins), pinId, now).categoryId == Str("other")
    ensures Load(host, store, e, Some(pins), pinId, now).statusId == Str("new")
  {
    PinMeta.MetaValueFields(PinMeta.DefaultPinMeta(now));
  }

  /**
   * Saving and opening the pin again shows the category and status that were
   * saved, whatever they were.
   */
  lemma {:induction false} SaveThenLoad(host: Host, e: Editor, store: PinMeta.Store, uploaded: Option<string>, reply: Option<Pin>,
                                        now: int, e0: Editor, pins: seq<Pin>, later: int)
    requires Save(host, e, store, uploaded, reply, now).Saved?
    requires PinMeta.JsonRoundTrip(host, SavedMeta(e, now))
    ensures var o := Save(host, e, store, uploaded, reply, now);
      var r := Load(host, o.store, e0, Some(pins), e.pin.value.id, later);
      r.categoryId == e.categoryId && r.statusId == e.statusId
  {
    var id := e.pin.value.id;
    var o := Save(host, e, store, uploaded, reply, now);
    var v := SavedMeta(e, now);
    assert o.store == PinMeta.WriteEntry(host, store, id, v);
    PinMeta.WriteThenGet(host, store, id, v, id);
    StoredMetaLoads(host, o.store, e0, pins, id, later, v);
  }

  /** An object read back from storage is what loading takes the category and status from. */
  lemma StoredMetaLoads(host: Host, store: PinMeta.Store, e0: Editor, pins: seq<Pin>, id: int, now: int, v: Value)
    requires PinMeta.GetPinMeta(host, store, id) == Some(v) && v.Obj?
    ensures Load(host, store, e0, Some(pins), id, now).categoryId == Field(v, "categoryId")
    ensures Load(host, store, e0, Some(pins), id, now).statusId == Field(v, "statusId")
  {
    assert LoadedMeta(host, store, id, now) == v;
  }

  /** Cancelling puts back exactly the description and photo that loading the same pin shows. */
  lemma CancelRestoresLoad(host: Host, store: PinMeta.Store, e0: Editor, pins: seq<Pin>, pinId: int, now: int, e: Editor)
    requires Load(host, store, e0, Some(pins), pinId, now).pin.Some?
    requires e.pin == Load(host, store, e0, Some(pins), pinId, now).pin
    ensures var l := Load(host, store, e0, Some(pins), pinId, now);
      Cancel(e).descr == l.descr && Cancel(e).photoUri == l.photoUri && Cancel(e).photoLink == l.photoLink
  {
  }

  /** A photo that already has a link and is not a device file is kept: nothing is uploaded. */
  lemma KeptPhotoNotUploaded(host: Host, e: Editor, store: PinMeta.Store, u1: Option<string>, u2: Option<string>, reply: Option<Pin>, now: int)
    requires e.pin.Some? && Trim(e.photoUri) != [] && e.photoLink != [] && !IsLocalPhotoUri(Some(e.photoUri))
    ensures Save(host, e, store, u1, reply, now) == Save(host, e, store, u2, reply, now)
    ensures Save(host, e, store, u1, reply, now).Saved?
    ensures Save(host, e, store, u1, reply, now).payload.photoLink == Some(e.photoLink)
  {
  }

  /**
   * Opening a pin with a remote photo and saving without touching the photo
   * sends the pin's own link back and uploads nothing; a link that is itself a
   * device file is uploaded again.
   */
  lemma {:induction false} UntouchedPhotoKept(host: Host, store: PinMeta.Store, e0: Editor, pins: seq<Pin>, pinId: int, now: int,
                                              uploaded: string, reply: Option<Pin>, later: int)
    requires FindPin(pins, pinId).Some?
    requires var link := FindPin(pins, pinId).value.photoLink; link.Some? && Trim(link.value) != []
    ensures var link := FindPin(pins, pinId).value.photoLink.value;
      var e := Load(host, store, e0, Some(pins), pinId, now);
      var o := Save(host, e, store, Some(uploaded), reply, later);
      o.Saved? && o.payload.photoLink == Some(if IsLocalPhotoUri(Some(link)) then uploaded else link)
  {
    var link := FindPin(pins, pinId).value.photoLink.value;
    var e := Load(host, store, e0, Some(pins), pinId, now);
    assert e.pin == FindPin(pins, pinId);
    assert e.photoLink == link && e.photoUri == PhotoToImageUri(Some(link));
    ShownLinkSaved(host, e, store, link, uploaded, reply, later);
  }

  /** Saving an editor that shows the photo of its own non-blank link. */
  lemma ShownLinkSaved(host: Host, e: Editor, store: PinMeta.Store, link: string, uploaded: string, reply: Option<Pin>, now: int)
    requires e.pin.Some? && Trim(link) != [] && e.photoLink == link && e.photoUri == PhotoToImageUri(Some(link))
    ensures var o := Save(host, e, store, Some(uploaded), reply, now);
      o.Saved? && o.payload.photoLink == Some(if IsLocalPhotoUri(Some(link)) then uploaded else link)
  {
    ShownPhoto(link);
    SavedWithLink(host, e, store, uploaded, reply, now);
  }

  /** A loaded editor with a non-blank photo and a link whose locality the photo shares is saved. */
  lemma SavedWithLink(host: Host, e: Editor, store: PinMeta.Store, uploaded: string, reply: Option<Pin>, now: int)
    requires e.pin.Some? && Trim(e.photoUri) != [] && e.photoLink != []
    requires IsLocalPhotoUri(Some(e.photoUri)) == IsLocalPhotoUri(Some(e.photoLink))
    ensures var o := Save(host, e, store, Some(uploaded), reply, now);
      o.Saved? && o.payload.photoLink == Some(if IsLocalPhotoUri(Some(e.photoLink)) then uploaded else e.photoLink)
  {
  }

  /** A newly picked device photo is uploaded; a picked photo that is not a device file is refused. */
  lemma PickedPhotoUploaded(host: Host, e: Editor, store: PinMeta.Store, uri: string, uploaded: string, reply: Option<Pin>, now: int)
    requires e.pin.Some? && Trim(uri) != []
    ensures var o := Save(host, PickImage(e, Some(uri)), store, Some(uploaded), reply, now);
      (IsLocalPhotoUri(Some(uri)) ==> o.Saved? && o.payload.photoLink == Some(uploaded)) &&
      (!IsLocalPhotoUri(Some(uri)) ==> o == Refused(PhotoNotLocal))
  {
  }

  /** After removing the photo, saving is refused until another is picked. */
  lemma RemovedPhotoRefused(host: Host, e: Editor, store: PinMeta.Store, uploaded: Option<string>, reply: Option<Pin>, now: int)
    requires e.pin.Some?
    ensures Save(host, RemovePhoto(e), store, uploaded, reply, now) == Refused(PhotoRequired)
  {
  }

  /** When the chips were used, the saved entry is exactly the typed record `setPinMeta` documents. */
  lemma SavedMetaTyped(e: Editor, now: int, c: string, s: string)
    requires e.categoryId == Str(c) && e.statusId == Str(s)
    ensures SavedMeta(e, now) == PinMeta.MetaValue(PinMeta.PinMeta(c, s, now))
  {
  }
}

=== FILE: pinmeta.dfy ===
/**
 * The category and status of a pin, which the server does not keep: they live
 * in the device's key-value storage under `clarity_pin_meta:<id>`, as JSON.
 * The storage is a map from key to stored text; `JSON.parse` and
 * `JSON.stringify` are the host's.
 */
module PinMeta {
  import opened Wrappers
  import opened Strings
  import opened Decimal
  import opened Js
  import opened Requests

  /** What is remembered about one pin; `updatedAt` is in unix milliseconds. */
  datatype PinMeta = PinMeta(categoryId: string, statusId: string, updatedAt: int)

  /** The device's key-value storage (`AsyncStorage`). */
  type Store = map<string, string>

  const KeyPrefix: string := "clarity_pin_meta:"

  /** The storage key of a pin id. */
  function Key(id: int): (k: string)
    ensures StartsWith(k, KeyPrefix) && k[|KeyPrefix|..] == IntToString(id)
  {
    KeyPrefix + IntToString(id)
  }

  /** Distinct pins never share a storage key. */
  lemma KeyInjective(a: int, b: int)
    requires Key(a) == Key(b)
    ensures a == b
  {
    IntToStringInjective(a, b);
  }

  /** The id read back from a key: strip the prefix, then `Number`. */
  function IdOfKey(host: Host, k: string): Num {
    ToNumber(host, ReplaceFirst(k, KeyPrefix, ""))
  }

  /** Every key this module writes gives back the pin id it was made from. */
  lemma IdOfKeyRoundTrip(host: Host, id: int)
    ensures IdOfKey(host, Key(id)) == Fin(id as real)
  {
    ReplaceFirstAtStart(Key(id), KeyPrefix);
    ToNumberOfIntText(host, id);
  }

  /** The JSON object `setPinMeta` writes. */
  function MetaValue(m: PinMeta): Value {
    Obj([("categoryId", Str(m.categoryId)), ("statusId", Str(m.statusId)), ("updatedAt", Number(Fin(m.updatedAt as real)))])
  }

  /** The object's fields read back as the record's. */
  lemma MetaValueFields(m: PinMeta)
    ensures Field(MetaValue(m), "categoryId") == Str(m.categoryId)
    ensures Field(MetaValue(m), "statusId") == Str(m.statusId)
  {
    var props := MetaValue(m).props;
    assert Lookup(props, "statusId") == Lookup(props[1..], "statusId") by {
      assert props[0].0 != "statusId";
    }
    assert props[1..][0] == ("statusId", Str(m.statusId));
  }

  /** The host's JSON reads back what it wrote for `v`, and never writes empty text. */
  predicate JsonRoundTrip(host: Host, v: Value) {
    host.jsonStringify(v) != [] && host.jsonParse(host.jsonStringify(v)) == Some(v)
  }

  /**
   * `getPinMeta(id)`: `None` for a missing or empty entry and for text that does
   * not parse; otherwise whatever the text parses to, unchecked.
   */
  function GetPinMeta(host: Host, store: Store, id: int): (r: Option<Value>)
    ensures Key(id) !in store ==> r == None
    ensures Key(id) in store && store[Key(id)] != [] ==> r == host.jsonParse(store[Key(id)])
  {
    var k := Key(id);
    if k !in store || store[k] == [] then None else host.jsonParse(store[k])
  }

  /** `setPinMeta(id, meta)`: the one entry of this pin is (over)written. */
  function SetPinMeta(host: Host, store: Store, id: int, meta: PinMeta): Store {
    WriteEntry(host, store, id, MetaValue(meta))
  }

  /**
   * The write behind `setPinMeta` for whatever object the caller holds: its
   * fields are typed as ids, but a screen may pass on values it read back
   * unchecked.
   */
  function WriteEntry(host: Host, store: Store, id: int, v: Value): (r: Store)
    ensures Key(id) in r && r[Key(id)] == host.jsonStringify(v)
    ensures forall k :: k != Key(id) ==> (k in r <==> k in store)
    ensures forall k :: k != Key(id) && k in store ==> r[k] == store[k]
  {
    store[Key(id) := host.jsonStringify(v)]
  }

  /** What is written is read back, and every other pin's entry reads as before. */
  lemma SetThenGet(host: Host, store: Store, id: int, meta: PinMeta, other: int)
    requires JsonRoundTrip(host, MetaValue(meta))
    ensures GetPinMeta(host, SetPinMeta(host, store, id, meta), id) == Some(MetaValue(meta))
    ensures other != id ==> GetPinMeta(host, SetPinMeta(host, store, id, meta), other) == GetPinMeta(host, store, other)
  {
    WriteThenGet(host, store, id, MetaValue(meta), other);
  }

  lemma WriteThenGet(host: Host, store: Store, id: int, v: Value, other: int)
    requires JsonRoundTrip(host, v)
    ensures GetPinMeta(host, WriteEntry(host, store, id, v), id) == Some(v)
    ensures other != id ==> GetPinMeta(host, WriteEntry(host, store, id, v), other) == GetPinMeta(host, store, other)
  {
    if other != id && Key(other) == Key(id) {
      KeyInjective(other, id);
    }
  }

  /** `AsyncStorage.multiGet(keys)`: each key with its text, or `None` when absent. */
  function MultiGet(store: Store, keys: seq<string>): (pairs: seq<(string, Option<string>)>)
    ensures |pairs| == |keys|
    ensures forall i :: 0 <= i < |keys| ==> pairs[i].0 == keys[i]
    ensures forall i :: 0 <= i < |keys| ==> pairs[i].1 == if keys[i] in store then Some(store[keys[i]]) else None
  {
    seq(|keys|, i requires 0 <= i < |keys| => (keys[i], if keys[i] in store then Some(store[keys[i]]) else None))
  }

  function KeysOf(ids: seq<int>): (ks: seq<string>)
    ensures |ks| == |ids| && forall i :: 0 <= i < |ids| ==> ks[i] == Key(ids[i])
  {
    seq(|ids|, i requires 0 <= i < |ids| => Key(ids[i]))
  }

  /**
   * `getManyPinMeta(ids)`: one batched read. Entries that are missing, empty or
   * do not parse are skipped; the id of each entry is recovered from its key.
   * The result agrees with reading each pin on its own.
   */
  method GetManyPinMeta(host: Host, store: Store, ids: seq<int>) returns (out: map<real, Value>)
    ensures forall i :: 0 <= i < |ids| ==> (ids[i] as real in out <==> GetPinMeta(host, store, ids[i]).Some?)
    ensures forall i :: 0 <= i < |ids| && ids[i] as real in out ==> out[ids[i] as real] == GetPinMeta(host, store, ids[i]).value
    ensures forall x :: x in out ==> exists i :: 0 <= i < |ids| && x == ids[i] as real
  {
    out := map[];
    if |ids| == 0 {
      return;
    }
    var pairs := MultiGet(store, KeysOf(ids));
    for j := 0 to |pairs|
      invariant RecordedUpTo(host, store, ids, j, out)
    {
      var e := PairEntry(host, pairs[j]);
      assert pairs[j] == (Key(ids[j]), if Key(ids[j]) in store then Some(store[Key(ids[j])]) else None);
      PairEntryOfKey(host, store, ids[j]);
      ghost var before := out;
      if e.Some? {
        out := out[e.value.0 := e.value.1];
      }
      RecordStep(host, store, ids, j, before, out);
    }
  }

  /** The loop's invariant: positions before `j` are recorded exactly as reading them alone says. */
  ghost predicate RecordedUpTo(host: Host, store: Store, ids: seq<int>, j: int, out: map<real, Value>)
    requires 0 <= j <= |ids|
  {
    Agrees(host, store, ids, j, out) && OnlyIds(ids, j, out)
  }

  ghost predicate Agrees(host: Host, store: Store, ids: seq<int>, j: int, out: map<real, Value>)
    requires 0 <= j <= |ids|
  {
    && (forall i :: 0 <= i < j ==> (ids[i] as real in out <==> GetPinMeta(host, store, ids[i]).Some?))
    && (forall i :: 0 <= i < j && ids[i] as real in out ==> out[ids[i] as real] == GetPinMeta(host, store, ids[i]).value)
  }

  ghost predicate OnlyIds(ids: seq<int>, j: int, out: map<real, Value>)
    requires 0 <= j <= |ids|
  {
    forall x :: x in out ==> exists i :: 0 <= i < j && x == ids[i] as real
  }

  lemma RecordStep(host: Host, store: Store, ids: seq<int>, j: int, before: map<real, Value>, after: map<real, Value>)
    requires 0 <= j < |ids|
    requires RecordedUpTo(host, store, ids, j, before)
    requires var g := GetPinMeta(host, store, ids[j]);
      after == if g.Some? then before[ids[j] as real := g.value] else before
    ensures RecordedUpTo(host, store, ids, j + 1, after)
  {
    var g, x := GetPinMeta(host, store, ids[j]), ids[j] as real;
    assert x in before ==> g.Some? by {
      if x in before {
        var i :| 0 <= i < j && x == ids[i] as real;
        assert GetPinMeta(host, store, ids[i]) == g;
      }
    }
    AgreesStep(host, store, ids, j, before, after);
    OnlyIdsStep(ids, j, before, after, g);
  }

  lemma AgreesStep(host: Host, store: Store, ids: seq<int>, j: int, before: map<real, Value>, after: map<real, Value>)
    requires 0 <= j < |ids|
    requires Agrees(host, store, ids, j, before)
    requires ids[j] as real in before ==> GetPinMeta(host, store, ids[j]).Some?
    requires var g := GetPinMeta(host, store, ids[j]);
      after == if g.Some? then before[ids[j] as real := g.value] else before
    ensures Agrees(host, store, ids, j + 1, after)
  {
    var g, x := GetPinMeta(host, store, ids[j]), ids[j] as real;
    forall i | 0 <= i < j + 1
      ensures ids[i] as real in after <==> GetPinMeta(host, store, ids[i]).Some?
      ensures ids[i] as real in after ==> after[ids[i] as real] == GetPinMeta(host, store, ids[i]).value
    {
      if ids[i] == ids[j] {
        assert GetPinMeta(host, store, ids[i]) == g;
      } else {
        assert ids[i] as real != x;
      }
    }
  }

  lemma OnlyIdsStep(ids: seq<int>, j: int, before: map<real, Value>, after: map<real, Value>, g: Option<Value>)
    requires 0 <= j < |ids|
    requires OnlyIds(ids, j, before)
    requires after == if g.Some? then before[ids[j] as real := g.value] else before
    ensures OnlyIds(ids, j + 1, after)
  {
    forall y | y in after
      ensures exists i :: 0 <= i < j + 1 && y == ids[i] as real
    {
      if y == ids[j] as real {
        assert y == ids[j] as real;
      } else {
        assert y in before;
        var i :| 0 <= i < j && y == ids[i] as real;
        assert 0 <= i < j + 1;
      }
    }
  }

  /**
   * One pass of the loop over `multiGet`'s pairs: the id and parsed entry to
   * record, or `None` when the pair is skipped (empty key or text, an id that
   * is not finite, text that does not parse).
   */
  function PairEntry(host: Host, pair: (string, Option<string>)): Option<(real, Value)> {
    var (k, v) := pair;
    if k == [] || v.None? || v.value == [] then None
    else
      match IdOfKey(host, k)
      case Fin(id) =>
        (match host.jsonParse(v.value)
         case Some(parsed) => Some((id, parsed))
         case None => None)
      case _ => None
  }

  /** The pair read for a pin records exactly what reading that pin alone returns, under its id. */
  lemma PairEntryOfKey(host: Host, store: Store, id: int)
    ensures var g := GetPinMeta(host, store, id);
      PairEntry(host, (Key(id), if Key(id) in store then Some(store[Key(id)]) else None))
        == if g.Some? then Some((id as real, g.value)) else None
  {
    IdOfKeyRoundTrip(host, id);
  }

  /** `defaultPinMeta()`: category `other`, status `new`, stamped with the current time. */
  function DefaultPinMeta(now: int): (r: PinMeta)
    ensures r.updatedAt == now
    ensures CategoryById(Some(r.categoryId)).id == r.categoryId == CategoryById(None).id
    ensures StatusById(Some(r.statusId)).id == r.statusId == StatusById(None).id
  {
    PinMeta("other", "new", now)
  }
}

=== FILE: pinowner.dfy ===
/**
 * The owner of a pin, read from whichever field the server version uses.
 */
module PinOwner {
  import opened Wrappers
  import opened Decimal
  import opened Js

  /** The owner fields, in the order they are consulted. */
  function OwnerFields(pin: Value): seq<Value> {
    [Field(pin, "owner_id"), Field(pin, "ownerId"), Field(pin, "user_id"), Field(pin, "userId"),
     Field(pin, "created_by"), Field(pin, "creator_id"), Field(pin, "createdBy")]
  }

  /**
   * `getPinOwnerId(pin)`: the first present owner field; text is read with
   * `Number`; only a finite number is an owner id.
   */
  function PinOwnerId(host: Host, pin: Value): (r: Option<real>)
    ensures var raw := CoalesceAll(OwnerFields(pin));
      r.Some? <==> IsFinite(raw) || (raw.Str? && ToNumber(host, raw.s).Fin?)
  {
    var raw := CoalesceAll(OwnerFields(pin));
    var num := if raw.Str? then Number(ToNumber(host, raw.s)) else raw;
    if IsFinite(num) then Some(num.n.value) else None
  }

  /** A pin carrying none of the fields (or no pin at all) has no owner. */
  lemma NoOwnerFields(host: Host, pin: Value)
    requires forall i :: 0 <= i < 7 ==> Nullish(OwnerFields(pin)[i])
    ensures PinOwnerId(host, pin) == None
  {
  }

  /**
   * The first present field decides: a number is the id, integer text reads as
   * its integer, and anything else (a flag, an object, a non-finite number) is
   * no owner, even when a later field holds a good id.
   */
  lemma {:induction false} FirstOwnerFieldDecides(host: Host, pin: Value, k: nat)
    requires k < 7 && !Nullish(OwnerFields(pin)[k])
    requires forall i :: 0 <= i < k ==> Nullish(OwnerFields(pin)[i])
    ensures IsFinite(OwnerFields(pin)[k]) ==> PinOwnerId(host, pin) == Some(OwnerFields(pin)[k].n.value)
    ensures OwnerFields(pin)[k].Str? && ParseInt(OwnerFields(pin)[k].s).Some? ==>
      PinOwnerId(host, pin) == Some(ParseInt(OwnerFields(pin)[k].s).value as real)
    ensures !OwnerFields(pin)[k].Str? && !IsFinite(OwnerFields(pin)[k]) ==> PinOwnerId(host, pin) == None
  {
    assert CoalesceAll(OwnerFields(pin)) == OwnerFields(pin)[k];
  }

  /** An id written as text and the same id as a number name the same owner. */
  lemma OwnerIdTextOrNumber(host: Host, pin: Value, pin': Value, id: int)
    requires Field(pin, "owner_id") == Number(Fin(id as real))
    requires Field(pin', "owner_id") == Str(IntToString(id))
    ensures PinOwnerId(host, pin) == PinOwnerId(host, pin') == Some(id as real)
  {
    ToNumberOfIntText(host, id);
    assert CoalesceAll(OwnerFields(pin)) == Number(Fin(id as real));
    assert CoalesceAll(OwnerFields(pin')) == Str(IntToString(id));
  }
}

=== FILE: pins.dfy ===
/**
 * The pin (citizen report) and map-region records shared by the screens
 * (`src/types/api.ts`, `react-native-maps`' `Region`), and the status and
 * category filter selections with their `'all'` wildcard.
 */
module Pins {
  import opened Wrappers
  import opened Seqs

  /**
   * A pin as the server returns it. `x` is the longitude and `y` the latitude;
   * category and status may be missing on older records.
   */
  datatype Pin = Pin(
    id: int,
    x: real,
    y: real,
    photoLink: Option<string>,
    description: Option<string>,
    categoryId: Option<string>,
    statusId: Option<string>)

  datatype LatLng = LatLng(latitude: real, longitude: real)

  /** The visible map extent: a centre and the span on each axis, in degrees. */
  datatype Region = Region(latitude: real, longitude: real, latitudeDelta: real, longitudeDelta: real)

  /** `DEFAULT_REGION` of `src/utils/config.ts`. */
  const DefaultRegion: Region := Region(54.5168, 36.2491, 0.05, 0.05)

  /** A filter chip selection: `'all'` or one vocabulary id. */
  datatype Choice = All | Only(id: string)

  /** `'all'` accepts anything; otherwise the pin's field must be present and equal. */
  predicate Accepts(c: Choice, field: Option<string>) {
    c.All? || field == Some(c.id)
  }

  predicate MatchesFilters(p: Pin, status: Choice, category: Choice) {
    Accepts(status, p.statusId) && Accepts(category, p.categoryId)
  }

  function IdOf(p: Pin): int {
    p.id
  }

  function Ids(ps: seq<Pin>): seq<int> {
    Map(ps, IdOf)
  }

  lemma IdsAppend(a: seq<Pin>, b: seq<Pin>)
    ensures Ids(a + b) == Ids(a) + Ids(b)
  {
    MapAppend(a, b, IdOf);
  }
}

=== FILE: pinslist.dfy ===
/**
 * The pins list screen (`src/screens/PinsListScreen.tsx`): the list is kept
 * newest first, filtered by the status and category chips and a free-text
 * query, and a pin may be deleted by an administrator or by its owner while
 * it is still new.
 */
module PinsList {
  import opened Wrappers
  import opened Strings
  import opened Decimal
  import opened Seqs
  import opened Js
  import opened Pins
  import opened Clustering

  // ---------------------------------------------------------------- load

  function NegId(p: Pin): int {
    -p.id
  }

  /** `[...data].sort((a, b) => b.id - a.id)`: a permutation with ids never increasing. */
  function NewestFirst(data: seq<Pin>): (r: seq<Pin>)
    ensures multiset(r) == multiset(data)
    ensures forall i, j :: 0 <= i < j < |r| ==> r[i].id >= r[j].id
  {
    var r := SortBy(data, NegId);
    assert forall i, j :: 0 <= i < j < |r| ==> NegId(r[i]) <= NegId(r[j]);
    r
  }

  /**
   * The head of the newest-first list is one of the pins and no pin has a
   * larger id; the sort being stable, it is the first pin with the largest id.
   */
  lemma NewestFirstHead(pins: seq<Pin>)
    requires pins != []
    ensures NewestFirst(pins) != [] && NewestFirst(pins)[0] in pins
    ensures forall i :: 0 <= i < |pins| ==> pins[i].id <= NewestFirst(pins)[0].id
    ensures exists j :: 0 <= j < |pins| && pins[j] == NewestFirst(pins)[0] && forall i :: 0 <= i < j ==> pins[i].id < pins[j].id
  {
    assert NewestFirst(pins) == SortBy(pins, NegId);
    var j := SortByHead(pins, NegId);
    assert forall i :: 0 <= i < |pins| ==> NegId(pins[j]) <= NegId(pins[i]);
    assert forall i :: 0 <= i < j ==> NegId(pins[i]) > NegId(pins[j]);
  }

  /** When the server's ids are distinct, the list is strictly newest first. */
  lemma NewestFirstStrict(data: seq<Pin>)
    requires Distinct(Ids(data))
    ensures forall i, j :: 0 <= i < j < |NewestFirst(data)| ==> NewestFirst(data)[i].id > NewestFirst(data)[j].id
  {
    var r := NewestFirst(data);
    MapPermutation(data, r, IdOf);
    DistinctPermutation(Ids(data), Ids(r));
    forall i, j | 0 <= i < j < |r|
      ensures r[i].id > r[j].id
    {
      assert Ids(r)[i] != Ids(r)[j];
    }
  }

  // ---------------------------------------------------------------- filter

  /** The query as it is compared: trimmed and lower-cased. */
  function Query(q: string): string {
    Lower(Trim(q))
  }

  /** The searched text of a pin: its description (or nothing) and `#<id>`; never the photo. */
  function Haystack(p: Pin): string {
    p.description.GetOr("") + " #" + IntToString(p.id)
  }

  /** An empty query matches everything; otherwise the lower-cased haystack must contain it. */
  predicate MatchesQuery(p: Pin, query: string) {
    query == [] || Contains(Lower(Haystack(p)), query)
  }

  predicate Keep(p: Pin, status: Choice, category: Choice, query: string) {
    MatchesFilters(p, status, category) && MatchesQuery(p, query)
  }

  /** `filtered`: the pins passing both chips and the query, in list order. */
  function FilteredList(pins: seq<Pin>, status: Choice, category: Choice, q: string): (r: seq<Pin>)
    ensures forall i :: 0 <= i < |r| ==> r[i] in pins && Keep(r[i], status, category, Query(q))
    ensures forall i :: 0 <= i < |pins| && Keep(pins[i], status, category, Query(q)) ==> pins[i] in r
  {
    Filter(pins, p => Keep(p, status, category, Query(q)))
  }

  /** The list filter keeps order and every accepted pin as often as it occurs. */
  lemma FilteredListSpec(pins: seq<Pin>, status: Choice, category: Choice, q: string, p: Pin)
    ensures IsSubseq(FilteredList(pins, status, category, q), pins)
    ensures multiset(FilteredList(pins, status, category, q))[p] ==
            if Keep(p, status, category, Query(q)) then multiset(pins)[p] else 0
  {
    FilterIsSubseq(pins, x => Keep(x, status, category, Query(q)));
    FilterMultiset(pins, x => Keep(x, status, category, Query(q)), p);
  }

  /** A blank query filters exactly as the map does. */
  lemma {:induction false} BlankQueryIsMapFilter(pins: seq<Pin>, status: Choice, category: Choice, q: string)
    requires Trim(q) == []
    ensures FilteredList(pins, status, category, q) == FilteredPins(pins, status, category)
  {
    assert Query(q) == [];
    FilterAgree(pins, x => Keep(x, status, category, Query(q)), x => MatchesFilters(x, status, category));
  }

  /** The photo is never searched: pins differing only in their photo are kept alike. */
  lemma PhotoNotSearched(p: Pin, photo: Option<string>, status: Choice, category: Choice, query: string)
    ensures Keep(p.(photoLink := photo), status, category, query) == Keep(p, status, category, query)
  {
    assert Haystack(p.(photoLink := photo)) == Haystack(p);
  }

  /** Lower-casing leaves `#` and digits alone. */
  lemma LowerIdText(n: int)
    ensures Lower("#" + IntToString(n)) == "#" + IntToString(n)
  {
    var t := "#" + IntToString(n);
    forall i | 0 <= i < |t|
      ensures Lower(t)[i] == t[i]
    {
      assert i == 0 || IsDigit(t[i]) || t[i] == '-';
    }
  }

  /** Searching `#<id>` finds the pin with that id (when the chips let it through). */
  lemma {:induction false} SearchByOwnId(p: Pin, status: Choice, category: Choice, q: string)
    requires MatchesFilters(p, status, category)
    requires Trim(q) == "#" + IntToString(p.id)
    ensures Keep(p, status, category, Query(q))
  {
    LowerIdText(p.id);
    IdQueryMatches(p);
  }

  lemma IdQueryMatches(p: Pin)
    ensures MatchesQuery(p, "#" + IntToString(p.id))
  {
    var t := "#" + IntToString(p.id);
    var d := p.description.GetOr("");
    LowerIdText(p.id);
    assert Haystack(p) == (d + " ") + t;
    LowerKeepsTail(d + " ", t);
  }

  /** Text that lower-cases to itself is found at the end of any text it ends. */
  lemma LowerKeepsTail(a: string, t: string)
    requires Lower(t) == t
    ensures Contains(Lower(a + t), t)
  {
    var h := a + t;
    forall i | 0 <= i < |t|
      ensures Lower(h)[|a|..|a| + |t|][i] == t[i]
    {
      assert h[|a| + i] == t[i];
      assert Lower(t)[i] == LowerChar(t[i]);
    }
    assert Lower(h)[|a|..|a| + |t|] == t;
    assert MatchAt(Lower(h), t, |a|);
  }

  // ---------------------------------------------------------------- delete

  /** `ownerId === currentUserId` for a number-or-null owner id. */
  predicate SameId(ownerId: Option<real>, currentUserId: Value) {
    match ownerId
    case Some(x) => currentUserId == Number(Fin(x))
    case None => currentUserId.Null?
  }

  /** `isOwner`: a truthy current user id strictly equal to the pin's owner id. */
  predicate IsOwner(currentUserId: Value, ownerId: Option<real>) {
    Truthy(currentUserId) && SameId(ownerId, currentUserId)
  }

  /** `canDelete`: an administrator, or the owner of a pin still new (a missing status counts as new). */
  predicate CanDelete(isAdmin: bool, currentUserId: Value, ownerId: Option<real>, statusId: Option<string>) {
    isAdmin || (IsOwner(currentUserId, ownerId) && statusId.GetOr("new") == "new")
  }

  /** Who may delete, spelled out: besides administrators, only a non-zero numeric user id equal to the owner id, on a new or status-less pin. */
  lemma CanDeleteIff(isAdmin: bool, currentUserId: Value, ownerId: Option<real>, statusId: Option<string>)
    ensures CanDelete(isAdmin, currentUserId, ownerId, statusId) <==>
      isAdmin || (ownerId.Some? && ownerId.value != 0.0 && currentUserId == Number(Fin(ownerId.value))
                  && (statusId == None || statusId == Some("new")))
  {
  }

  /** A user id written as text never owns a pin: the comparison is strict. */
  lemma TextUserIdNeverOwns(s: string, ownerId: Option<real>, statusId: Option<string>)
    ensures CanDelete(false, Str(s), ownerId, statusId) == false
  {
  }

  /** After a successful delete: `prev.filter(p => p.id !== id)`. */
  function RemoveById(pins: seq<Pin>, id: int): (r: seq<Pin>)
    ensures forall i :: 0 <= i < |r| ==> r[i].id != id && r[i] in pins
    ensures forall i :: 0 <= i < |pins| && pins[i].id != id ==> pins[i] in r
  {
    Filter(pins, (p: Pin) => p.id != id)
  }

  /** Exactly the pins with that id go; the others stay, as often as before and in order. */
  lemma RemoveByIdSpec(pins: seq<Pin>, id: int, p: Pin)
    ensures IsSubseq(RemoveById(pins, id), pins)
    ensures multiset(RemoveById(pins, id))[p] == if p.id == id then 0 else multiset(pins)[p]
  {
    FilterIsSubseq(pins, (x: Pin) => x.id != id);
    FilterMultiset(pins, (x: Pin) => x.id != id, p);
  }
}

=== FILE: requests.dfy ===
/**
 * The fixed vocabularies of request categories and statuses
 * (`src/constants/requests.ts`) and their lookups with fallback.
 */
module Requests {
  import opened Wrappers

  datatype Category = Category(id: string, title: string, emoji: string)

  datatype Status = Status(id: string, title: string, color: string)

  const Categories: seq<Category> := [
    Category("trash", "Мусор", "🗑️"),
    Category("dump", "Свалка", "🏚️"),
    Category("overflow_bin", "Переполненная урна", "🧺"),
    Category("dirty_road", "Грязь/разлив", "💧"),
    Category("graffiti", "Граффити", "🎨"),
    Category("other", "Другое", "❓")
  ]

  const Statuses: seq<Status> := [
    Status("new", "Новая", "#0f172a"),
    Status("in_progress", "В работе", "#92400e"),
    Status("done", "Решено", "#166534"),
    Status("rejected", "Отклонено", "#7f1d1d")
  ]

  /** The six category ids and the four status ids are pairwise distinct. */
  lemma IdsDistinct()
    ensures |Categories| == 6 && |Statuses| == 4
    ensures forall i, j :: 0 <= i < j < |Categories| ==> Categories[i].id != Categories[j].id
    ensures forall i, j :: 0 <= i < j < |Statuses| ==> Statuses[i].id != Statuses[j].id
  {
  }

  /** Index of the first category with this id, or -1 (`Array.prototype.findIndex`). */
  function FindCategory(id: Option<string>, from: nat): (r: int)
    requires from <= |Categories|
    ensures r == -1 || (from <= r < |Categories| && Some(Categories[r].id) == id)
    ensures r == -1 <==> forall i :: from <= i < |Categories| ==> Some(Categories[i].id) != id
    decreases |Categories| - from
  {
    if from == |Categories| then -1
    else if Some(Categories[from].id) == id then from
    else FindCategory(id, from + 1)
  }

  function FindStatus(id: Option<string>, from: nat): (r: int)
    requires from <= |Statuses|
    ensures r == -1 || (from <= r < |Statuses| && Some(Statuses[r].id) == id)
    ensures r == -1 <==> forall i :: from <= i < |Statuses| ==> Some(Statuses[i].id) != id
    decreases |Statuses| - from
  {
    if from == |Statuses| then -1
    else if Some(Statuses[from].id) == id then from
    else FindStatus(id, from + 1)
  }

  /** `categoryById`: the listed category with that id, otherwise the last entry ('other'). */
  function CategoryById(id: Option<string>): (c: Category)
    ensures c in Categories
    ensures (exists i :: 0 <= i < |Categories| && Some(Categories[i].id) == id) ==> Some(c.id) == id
    ensures (forall i :: 0 <= i < |Categories| ==> Some(Categories[i].id) != id) ==> c.id == "other"
  {
    var i := FindCategory(id, 0);
    if i < 0 then Categories[|Categories| - 1] else Categories[i]
  }

  /** `statusById`: the listed status with that id, otherwise the first entry ('new'). */
  function StatusById(id: Option<string>): (s: Status)
    ensures s in Statuses
    ensures (exists i :: 0 <= i < |Statuses| && Some(Statuses[i].id) == id) ==> Some(s.id) == id
    ensures (forall i :: 0 <= i < |Statuses| ==> Some(Statuses[i].id) != id) ==> s.id == "new"
  {
    var i := FindStatus(id, 0);
    if i < 0 then Statuses[0] else Statuses[i]
  }

  /** Looking up a listed category's own id returns exactly that entry. */
  lemma CategoryLookupListed(i: int)
    requires 0 <= i < |Categories|
    ensures CategoryById(Some(Categories[i].id)) == Categories[i]
  {
    IdsDistinct();
  }

  lemma StatusLookupListed(i: int)
    requires 0 <= i < |Statuses|
    ensures StatusById(Some(Statuses[i].id)) == Statuses[i]
  {
    IdsDistinct();
  }
}

=== FILE: seqs.dfy ===
/**
 * Sequence combinators in the shape of JavaScript's `Array.prototype.filter`,
 * `map` and `sort`, with the facts the screens rely on: filtering keeps input
 * order and exactly the accepted elements, sorting is an ordered permutation.
 */
module Seqs {

  /** `s.filter(f)`. */
  function Filter<T>(s: seq<T>, f: T -> bool): (r: seq<T>)
    ensures |r| <= |s|
    ensures forall i :: 0 <= i < |r| ==> r[i] in s && f(r[i])
    ensures forall i :: 0 <= i < |s| && f(s[i]) ==> s[i] in r
  {
    if s == [] then [] else (if f(s[0]) then [s[0]] else []) + Filter(s[1..], f)
  }

  /** `s.map(f)`. */
  function Map<T, U>(s: seq<T>, f: T -> U): (r: seq<U>)
    ensures |r| == |s| && forall i :: 0 <= i < |s| ==> r[i] == f(s[i])
  {
    if s == [] then [] else [f(s[0])] + Map(s[1..], f)
  }

  /** Number of elements accepted by `f` (`s.filter(f).length`). */
  function Count<T>(s: seq<T>, f: T -> bool): nat {
    |Filter(s, f)|
  }

  /** The positions of `s` holding an element `f` accepts. */
  ghost function Positions<T>(s: seq<T>, f: T -> bool): set<int> {
    set i | 0 <= i < |s| && f(s[i])
  }

  /** The count is the number of positions whose element is accepted. */
  lemma {:induction false} CountPositions<T>(s: seq<T>, f: T -> bool)
    ensures Count(s, f) == |Positions(s, f)|
  {
    if s != [] {
      var n := |s| - 1;
      CountPositions(s[..n], f);
      FilterSnoc(s, f);
      PositionsSnoc(s, f);
      if f(s[n]) {
        assert n !in Positions(s[..n], f);
      }
    }
  }

  lemma FilterSnoc<T>(s: seq<T>, f: T -> bool)
    requires s != []
    ensures Filter(s, f) == Filter(s[..|s| - 1], f) + (if f(s[|s| - 1]) then [s[|s| - 1]] else [])
  {
    var init, x := s[..|s| - 1], s[|s| - 1];
    assert s == init + [x];
    FilterAppend(init, [x], f);
    FilterSingle(x, f);
  }

  lemma FilterSingle<T>(x: T, f: T -> bool)
    ensures Filter([x], f) == if f(x) then [x] else []
  {
    assert [x][1..] == [];
  }

  lemma PositionsSnoc<T>(s: seq<T>, f: T -> bool)
    requires s != []
    ensures Positions(s, f) == Positions(s[..|s| - 1], f) + (if f(s[|s| - 1]) then {|s| - 1} else {})
  {
    var n := |s| - 1;
    forall i | 0 <= i < n
      ensures s[..n][i] == s[i]
    {
    }
  }

  /** `r` can be obtained from `s` by deleting elements: it keeps `s`'s order. */
  ghost predicate IsSubseq<T>(r: seq<T>, s: seq<T>)
    decreases |s|
  {
    if r == [] then true
    else if s == [] then false
    else if r[0] == s[0] then IsSubseq(r[1..], s[1..])
    else IsSubseq(r, s[1..])
  }

  lemma {:induction false} FilterIsSubseq<T>(s: seq<T>, f: T -> bool)
    ensures IsSubseq(Filter(s, f), s)
  {
    if s != [] {
      FilterIsSubseq(s[1..], f);
      if f(s[0]) {
        assert Filter(s, f) == [s[0]] + Filter(s[1..], f);
        assert Filter(s, f)[1..] == Filter(s[1..], f);
      } else {
        assert Filter(s, f) == Filter(s[1..], f);
        SubseqOfTail(Filter(s[1..], f), s);
      }
    }
  }

  lemma {:induction false} SubseqOfTail<T>(r: seq<T>, s: seq<T>)
    requires s != [] && IsSubseq(r, s[1..])
    ensures IsSubseq(r, s)
    decreases |s|, |r|
  {
    if r != [] && r[0] == s[0] {
      SubseqDropHead(r, s[1..]);
    }
  }

  lemma {:induction false} SubseqDropHead<T>(r: seq<T>, s: seq<T>)
    requires r != [] && IsSubseq(r, s)
    ensures IsSubseq(r[1..], s)
    decreases |s|, |r|
  {
    if s != [] {
      if r[0] == s[0] {
        if r[1..] != [] { SubseqOfTail(r[1..], s); }
      } else {
        SubseqDropHead(r, s[1..]);
        if r[1..] != [] { SubseqOfTail(r[1..], s); }
      }
    }
  }

  /** Filtering distributes over concatenation. */
  lemma {:induction false} FilterAppend<T>(a: seq<T>, b: seq<T>, f: T -> bool)
    ensures Filter(a + b, f) == Filter(a, f) + Filter(b, f)
  {
    if a != [] {
      assert (a + b)[1..] == a[1..] + b;
      FilterAppend(a[1..], b, f);
    } else {
      assert a + b == b;
    }
  }

  /** A filter that accepts everything returns its input unchanged. */
  lemma {:induction false} FilterAll<T>(s: seq<T>, f: T -> bool)
    requires forall i :: 0 <= i < |s| ==> f(s[i])
    ensures Filter(s, f) == s
  {
    if s != [] {
      FilterAll(s[1..], f);
    }
  }

  /** Filtering keeps every accepted element with its multiplicity and drops the rest. */
  lemma {:induction false} FilterMultiset<T>(s: seq<T>, f: T -> bool, x: T)
    ensures multiset(Filter(s, f))[x] == if f(x) then multiset(s)[x] else 0
  {
    if s != [] {
      FilterMultiset(s[1..], f, x);
      var head := if f(s[0]) then [s[0]] else [];
      assert Filter(s, f) == head + Filter(s[1..], f);
      assert multiset(Filter(s, f)) == multiset(head) + multiset(Filter(s[1..], f));
      assert s == [s[0]] + s[1..];
      assert multiset(s) == multiset{s[0]} + multiset(s[1..]);
    }
  }

  lemma {:induction false} MapAppend<T, U>(a: seq<T>, b: seq<T>, f: T -> U)
    ensures Map(a + b, f) == Map(a, f) + Map(b, f)
  {
  }

  /** How often `y` occurs in `s.map(f)`: the number of elements `f` sends to `y`. */
  lemma {:induction false} MapMultiplicity<T, U>(s: seq<T>, f: T -> U, y: U, g: T -> bool)
    requires forall x :: g(x) <==> f(x) == y
    ensures multiset(Map(s, f))[y] == Count(s, g)
  {
    if s != [] {
      MapMultiplicity(s[1..], f, y, g);
      assert Map(s, f) == [f(s[0])] + Map(s[1..], f);
      assert Filter(s, g) == (if g(s[0]) then [s[0]] else []) + Filter(s[1..], g);
    }
  }

  /** The positions of `s` whose element `f` sends to `y`. */
  ghost function KeyPositions<T, U>(s: seq<T>, f: T -> U, y: U): set<int> {
    set i | 0 <= i < |s| && f(s[i]) == y
  }

  /** How often `y` occurs in `s.map(f)`: the number of positions whose element `f` sends to `y`. */
  lemma MapMultiplicityPositions<T, U>(s: seq<T>, f: T -> U, y: U)
    ensures multiset(Map(s, f))[y] == |KeyPositions(s, f, y)|
  {
    var g: T -> bool := x => f(x) == y;
    MapMultiplicity(s, f, y, g);
    CountPositions(s, g);
    PositionsOfKey(s, f, y, g);
  }

  /** No element is sent to `y`: no position. */
  lemma NoKeyPositions<T, U>(s: seq<T>, f: T -> U, y: U)
    requires forall i :: 0 <= i < |s| ==> f(s[i]) != y
    ensures KeyPositions(s, f, y) == {}
  {
  }

  lemma PositionsOfKey<T, U>(s: seq<T>, f: T -> U, y: U, g: T -> bool)
    requires forall x :: g(x) <==> f(x) == y
    ensures Positions(s, g) == KeyPositions(s, f, y)
  {
  }

  lemma MultisetRemoveAt<T>(s: seq<T>, i: int)
    requires 0 <= i < |s|
    ensures multiset(s[..i] + s[i + 1..]) == multiset(s) - multiset{s[i]}
  {
    assert s == s[..i] + [s[i]] + s[i + 1..];
  }

  lemma MemberIndex<T>(s: seq<T>, x: T) returns (i: int)
    requires x in multiset(s)
    ensures 0 <= i < |s| && s[i] == x
  {
    assert x in s;
    i :| 0 <= i < |s| && s[i] == x;
  }

  lemma MapRemoveAt<T, U>(s: seq<T>, i: int, f: T -> U)
    requires 0 <= i < |s|
    ensures multiset(Map(s[..i] + s[i + 1..], f)) == multiset(Map(s, f)) - multiset{f(s[i])}
    ensures f(s[i]) in multiset(Map(s, f))
  {
    var ms := Map(s, f);
    MapSkip(s, i, f);
    MultisetRemoveAt(ms, i);
    assert ms[i] == f(s[i]);
  }

  /** Mapping a list without its `i`-th element is the map without its `i`-th element. */
  lemma MapSkip<T, U>(s: seq<T>, i: int, f: T -> U)
    requires 0 <= i < |s|
    ensures Map(s[..i] + s[i + 1..], f) == Map(s, f)[..i] + Map(s, f)[i + 1..]
  {
    var ms := Map(s, f);
    var rest := s[..i] + s[i + 1..];
    var l := Map(rest, f);
    var r := ms[..i] + ms[i + 1..];
    forall j | 0 <= j < |l|
      ensures l[j] == r[j]
    {
      if j < i {
        assert rest[j] == s[j] && r[j] == ms[j];
      } else {
        assert rest[j] == s[j + 1] && r[j] == ms[j + 1];
      }
    }
  }

  lemma AddBack<T>(m: multiset<T>, y: T)
    requires y in m
    ensures multiset{y} + (m - multiset{y}) == m
  {
  }

  /** Applying the same function to two permutations of each other gives permutations. */
  lemma {:induction false} MapPermutation<T, U>(a: seq<T>, b: seq<T>, f: T -> U)
    requires multiset(a) == multiset(b)
    ensures multiset(Map(a, f)) == multiset(Map(b, f))
    decreases |a|
  {
    if a == [] {
      assert |b| == |multiset(b)| == 0;
    } else {
      var x := a[0];
      assert a == [x] + a[1..];
      var i := MemberIndex(b, x);
      var b' := b[..i] + b[i + 1..];
      MultisetRemoveAt(b, i);
      MapPermutation(a[1..], b', f);
      MapRemoveAt(b, i, f);
      assert Map(a, f) == [f(x)] + Map(a[1..], f);
      AddBack(multiset(Map(b, f)), f(x));
    }
  }

  /** Two tests that agree on every element filter alike. */
  lemma {:induction false} FilterAgree<T>(s: seq<T>, f: T -> bool, g: T -> bool)
    requires forall i :: 0 <= i < |s| ==> f(s[i]) == g(s[i])
    ensures Filter(s, f) == Filter(s, g)
  {
    if s != [] {
      FilterAgree(s[1..], f, g);
    }
  }

  /** No element occurs twice. */
  predicate Distinct<T(==)>(s: seq<T>) {
    forall i, j :: 0 <= i < j < |s| ==> s[i] != s[j]
  }

  /** In a sequence without repeats each element occurs at most once. */
  lemma {:induction false} DistinctOnce<T>(s: seq<T>, x: T)
    requires Distinct(s)
    ensures multiset(s)[x] <= 1
  {
    if s != [] {
      assert s == [s[0]] + s[1..];
      DistinctOnce(s[1..], x);
      if s[0] == x {
        assert x !in s[1..];
      }
    }
  }

  /** Two positions holding the same element make it occur twice. */
  lemma TwiceAtTwoPositions<T>(s: seq<T>, i: int, j: int)
    requires 0 <= i < j < |s| && s[i] == s[j]
    ensures multiset(s)[s[i]] >= 2
  {
    assert s == s[..j] + [s[j]] + s[j + 1..];
    assert s[..j][i] == s[i];
  }

  /** Reordering keeps a sequence free of repeats. */
  lemma DistinctPermutation<T>(a: seq<T>, b: seq<T>)
    requires multiset(a) == multiset(b) && Distinct(a)
    ensures Distinct(b)
  {
    forall i, j | 0 <= i < j < |b|
      ensures b[i] != b[j]
    {
      DistinctOnce(a, b[i]);
      if b[i] == b[j] {
        TwiceAtTwoPositions(b, i, j);
      }
    }
  }

  /** Ascending by `key`. */
  ghost predicate SortedBy<T>(s: seq<T>, key: T -> int) {
    forall i, j :: 0 <= i < j < |s| ==> key(s[i]) <= key(s[j])
  }

  /** Places `x` before the first element whose key is not smaller than `x`'s. */
  function Insert<T>(x: T, s: seq<T>, key: T -> int): seq<T> {
    if s == [] || key(x) <= key(s[0]) then [x] + s
    else [s[0]] + Insert(x, s[1..], key)
  }

  /** Inserting adds exactly the one element. */
  lemma {:induction false} InsertMultiset<T>(x: T, s: seq<T>, key: T -> int)
    ensures |Insert(x, s, key)| == |s| + 1
    ensures multiset(Insert(x, s, key)) == multiset(s) + multiset{x}
  {
    if s != [] && key(x) > key(s[0]) {
      InsertMultiset(x, s[1..], key);
      assert s == [s[0]] + s[1..];
    }
  }

  /** Inserting into a sorted list keeps it sorted, and nothing smaller than `x` and the old head appears. */
  lemma {:induction false} InsertSorted<T>(x: T, s: seq<T>, key: T -> int)
    requires SortedBy(s, key)
    ensures SortedBy(Insert(x, s, key), key)
    ensures forall i :: 0 <= i < |Insert(x, s, key)| ==> key(Insert(x, s, key)[i]) >= (if s == [] then key(x) else Min(key(x), key(s[0])))
  {
    InsertMultiset(x, s, key);
    var r := Insert(x, s, key);
    if s == [] || key(x) <= key(s[0]) {
      assert forall i :: 1 <= i < |r| ==> r[i] == s[i - 1];
    } else {
      var t := Insert(x, s[1..], key);
      InsertSorted(x, s[1..], key);
      assert forall i :: 0 <= i < |t| ==> key(s[0]) <= key(t[i]) by {
        if |s| > 1 {
          assert key(s[0]) <= key(s[1]) && s[1..][0] == s[1];
        }
      }
      assert forall i :: 1 <= i < |r| ==> r[i] == t[i - 1];
    }
  }

  function Min(a: int, b: int): int {
    if a <= b then a else b
  }

  /**
   * The sort is stable at its head: it is the FIRST element of the input with
   * the smallest key.
   */
  lemma {:induction false} SortByHead<T>(s: seq<T>, key: T -> int) returns (j: nat)
    requires s != []
    ensures j < |s| && SortBy(s, key)[0] == s[j]
    ensures forall i :: 0 <= i < |s| ==> key(s[j]) <= key(s[i])
    ensures forall i :: 0 <= i < j ==> key(s[i]) > key(s[j])
  {
    var t := SortBy(s[1..], key);
    var k := 0;
    if t != [] {
      k := SortByHead(s[1..], key);
      ShiftHead(s, key, k);
    }
    SortByStep(s, key);
    j := InsertHead(s, t, key, k);
  }

  lemma SortByStep<T>(s: seq<T>, key: T -> int)
    requires s != []
    ensures SortBy(s, key) == Insert(s[0], SortBy(s[1..], key), key)
  {
  }

  /** The facts about the tail's first smallest element, moved to positions of `s`. */
  lemma ShiftHead<T>(s: seq<T>, key: T -> int, k: nat)
    requires k < |s| - 1
    requires forall i :: 0 <= i < |s[1..]| ==> key(s[1..][k]) <= key(s[1..][i])
    requires forall i :: 0 <= i < k ==> key(s[1..][i]) > key(s[1..][k])
    ensures s[1..][k] == s[k + 1]
    ensures forall i :: 1 <= i < |s| ==> key(s[k + 1]) <= key(s[i])
    ensures forall i :: 1 <= i < k + 1 ==> key(s[i]) > key(s[k + 1])
  {
    forall i | 1 <= i < |s|
      ensures key(s[k + 1]) <= key(s[i]) && (i < k + 1 ==> key(s[i]) > key(s[k + 1]))
    {
      assert s[i] == s[1..][i - 1];
    }
  }

  /** One insertion step: `t` is the sorted tail, whose head is `s[k + 1]`, the tail's first smallest. */
  lemma InsertHead<T>(s: seq<T>, t: seq<T>, key: T -> int, k: nat) returns (j: nat)
    requires s != [] && |t| == |s| - 1
    requires t != [] ==> k < |t| && t[0] == s[k + 1]
    requires t != [] ==> forall i :: 1 <= i < |s| ==> key(s[k + 1]) <= key(s[i])
    requires t != [] ==> forall i :: 1 <= i < k + 1 ==> key(s[i]) > key(s[k + 1])
    ensures j < |s| && Insert(s[0], t, key)[0] == s[j]
    ensures forall i :: 0 <= i < |s| ==> key(s[j]) <= key(s[i])
    ensures forall i :: 0 <= i < j ==> key(s[i]) > key(s[j])
  {
    if t == [] || key(s[0]) <= key(t[0]) {
      j := 0;
    } else {
      j := k + 1;
    }
  }

  /** `[...s].sort((a, b) => key(a) - key(b))`: an ascending permutation of `s`. */
  function SortBy<T>(s: seq<T>, key: T -> int): (r: seq<T>)
    ensures SortedBy(r, key)
    ensures multiset(r) == multiset(s)
    ensures |r| == |s|
  {
    if s == [] then []
    else
      assert s == [s[0]] + s[1..];
      InsertMultiset(s[0], SortBy(s[1..], key), key);
      InsertSorted(s[0], SortBy(s[1..], key), key);
      Insert(s[0], SortBy(s[1..], key), key)
  }

  /** The elements whose key is below `v`. */
  function KeyBelow<T>(key: T -> int, v: int): T -> bool {
    x => key(x) < v
  }

  /** The elements whose key is at most `v`. */
  function KeyAtMost<T>(key: T -> int, v: int): T -> bool {
    x => key(x) <= v
  }

  /** A filter that accepts nothing returns nothing. */
  lemma {:induction false} FilterNone<T>(s: seq<T>, f: T -> bool)
    requires forall i :: 0 <= i < |s| ==> !f(s[i])
    ensures Filter(s, f) == []
  {
    if s != [] {
      FilterNone(s[1..], f);
    }
  }

  /** Permutations of each other have as many elements accepted by `f`. */
  lemma CountPermutation<T>(a: seq<T>, b: seq<T>, f: T -> bool)
    requires multiset(a) == multiset(b)
    ensures Count(a, f) == Count(b, f)
  {
    forall x
      ensures multiset(Filter(a, f))[x] == multiset(Filter(b, f))[x]
    {
      FilterMultiset(a, f, x);
      FilterMultiset(b, f, x);
    }
    var fa, fb := Filter(a, f), Filter(b, f);
    assert multiset(fa) == multiset(fb);
    assert |fa| == |multiset(fa)| == |multiset(fb)| == |fb|;
  }

  /**
   * In an ascending sequence the element at `idx` has at most `idx` elements
   * with a smaller key and more than `idx` with a key no larger: it is the
   * `idx`-th smallest.
   */
  lemma SortedRank<T>(t: seq<T>, key: T -> int, idx: int)
    requires SortedBy(t, key) && 0 <= idx < |t|
    ensures Count(t, KeyBelow(key, key(t[idx]))) <= idx < Count(t, KeyAtMost(key, key(t[idx])))
  {
    SmallerBefore(t, key, idx);
    NoLargerThrough(t, key, idx);
  }

  /** Every element with a smaller key comes before `idx`. */
  lemma SmallerBefore<T>(t: seq<T>, key: T -> int, idx: int)
    requires SortedBy(t, key) && 0 <= idx < |t|
    ensures Count(t, KeyBelow(key, key(t[idx]))) <= idx
  {
    var lt := KeyBelow(key, key(t[idx]));
    var head, tail := t[..idx], t[idx..];
    assert t == head + tail;
    FilterAppend(head, tail, lt);
    forall i | 0 <= i < |tail|
      ensures !lt(tail[i])
    {
      assert tail[i] == t[idx + i];
    }
    FilterNone(tail, lt);
  }

  /** Every element up to and including `idx` has a key no larger. */
  lemma NoLargerThrough<T>(t: seq<T>, key: T -> int, idx: int)
    requires SortedBy(t, key) && 0 <= idx < |t|
    ensures idx < Count(t, KeyAtMost(key, key(t[idx])))
  {
    var le := KeyAtMost(key, key(t[idx]));
    var head, tail := t[..idx + 1], t[idx + 1..];
    assert t == head + tail;
    FilterAppend(head, tail, le);
    FilterAll(head, le);
  }

  /** The `idx`-th element of an ascending permutation `t` of `s` has rank `idx` among the elements of `s`. */
  lemma PermutationRank<T>(s: seq<T>, t: seq<T>, key: T -> int, idx: int)
    requires SortedBy(t, key) && multiset(t) == multiset(s) && 0 <= idx < |t|
    ensures t[idx] in s
    ensures Count(s, KeyBelow(key, key(t[idx]))) <= idx < Count(s, KeyAtMost(key, key(t[idx])))
  {
    var v := key(t[idx]);
    SortedRank(t, key, idx);
    CountPermutation(t, s, KeyBelow(key, v));
    CountPermutation(t, s, KeyAtMost(key, v));
    assert t[idx] in multiset(t);
  }

  /** The `idx`-th element of `s` sorted by `key` has rank `idx` among the elements of `s`. */
  lemma SortByRank<T>(s: seq<T>, key: T -> int, idx: int)
    requires 0 <= idx < |s|
    ensures var t := SortBy(s, key);
            t[idx] in s &&
            Count(s, KeyBelow(key, key(t[idx]))) <= idx < Count(s, KeyAtMost(key, key(t[idx])))
  {
    PermutationRank(s, SortBy(s, key), key, idx);
  }
}

=== FILE: stats.dfy ===
/**
 * The statistics screen (`src/screens/StatsScreen.tsx`): how many pins there
 * are, how many have a photo or a description, tallies by status and by
 * category (a missing status counts as `new`, a missing category as `other`),
 * and the newest pin.
 *
 * A tally is a plain object used as a record from id to count; it is modelled
 * as an insertion-ordered association list.
 */
module Stats {
  import opened Wrappers
  import opened Strings
  import opened Seqs
  import opened Assoc
  import opened Pins
  import opened PinsList

  type Tally = Assoc<string, nat>

  /** `t[k] = (t[k] ?? 0) + 1`. */
  function Bump<K(==)>(t: Assoc<K, nat>, k: K): (r: Assoc<K, nat>)
    ensures Get(r, k) == Some(Get(t, k).GetOr(0) + 1)
  {
    var v := Get(t, k).GetOr(0) + 1;
    PutGetSame(t, k, v);
    Put(t, k, v)
  }

  /** The loop over the keys, one `Bump` per key, in order. */
  function TallyOf(ks: seq<string>): Tally {
    if ks == [] then [] else Bump(TallyOf(ks[..|ks| - 1]), ks[|ks| - 1])
  }

  /** The sum of a tally's counts. */
  function SumCounts<K>(t: Assoc<K, nat>): nat {
    if t == [] then 0 else t[0].1 + SumCounts(t[1..])
  }

  lemma {:induction false} SumCountsAppend<K>(t: Assoc<K, nat>, e: (K, nat))
    ensures SumCounts(t + [e]) == SumCounts(t) + e.1
  {
    if t != [] {
      assert (t + [e])[1..] == t[1..] + [e];
      SumCountsAppend(t[1..], e);
    }
  }

  lemma {:induction false} SumCountsUpdate<K>(t: Assoc<K, nat>, i: int, e: (K, nat))
    requires 0 <= i < |t|
    ensures SumCounts(t[i := e]) == SumCounts(t) - t[i].1 + e.1
  {
    if i > 0 {
      assert t[i := e][1..] == t[1..][i - 1 := e];
      SumCountsUpdate(t[1..], i - 1, e);
    }
  }

  /** Each bump adds exactly one to the sum. */
  lemma {:induction false} BumpSum<K>(t: Assoc<K, nat>, k: K)
    ensures SumCounts(Bump(t, k)) == SumCounts(t) + 1
  {
    var i, v := Find(t, k), Get(t, k).GetOr(0) + 1;
    BumpIsPut(t, k);
    if i >= 0 {
      GetFound(t, k);
      PutFound(t, k, v);
      SumCountsUpdate(t, i, (k, v));
    } else {
      PutNew(t, k, v);
      SumCountsAppend(t, (k, v));
    }
  }

  lemma {:induction false} BumpIsPut<K>(t: Assoc<K, nat>, k: K)
    ensures Bump(t, k) == Put(t, k, Get(t, k).GetOr(0) + 1)
  {
  }

  /** The counts of a tally add up to the number of keys tallied. */
  lemma {:induction false} TallySum(ks: seq<string>)
    ensures SumCounts(TallyOf(ks)) == |ks|
  {
    if ks != [] {
      TallySum(ks[..|ks| - 1]);
      BumpSum(TallyOf(ks[..|ks| - 1]), ks[|ks| - 1]);
    }
  }

  /** Bumping one key leaves every other key's count alone. */
  lemma {:induction false} BumpOther<K>(t: Assoc<K, nat>, k: K, k': K)
    requires k' != k
    ensures Get(Bump(t, k), k') == Get(t, k')
  {
    var v: nat := Get(t, k).GetOr(0) + 1;
    var r := Put(t, k, v);
    BumpIsPut(t, k);
    assert Bump(t, k) == r;
    PutGetOther(t, k, v, k');
    assert Get(r, k') == Get(t, k');
  }

  /** A key is counted exactly as often as it occurs, and a key that never occurs is absent. */
  lemma {:induction false} TallyCounts(ks: seq<string>, k: string)
    ensures Get(TallyOf(ks), k).Some? <==> k in ks
    ensures Get(TallyOf(ks), k).GetOr(0) == multiset(ks)[k]
  {
    if ks != [] {
      var init, last := ks[..|ks| - 1], ks[|ks| - 1];
      assert ks == init + [last];
      TallyCounts(init, k);
      TallyStep(init, last, k);
    }
  }

  /** One more key: its count goes up by one, the others stay. */
  lemma TallyStep(init: seq<string>, last: string, k: string)
    requires Get(TallyOf(init), k).Some? <==> k in init
    requires Get(TallyOf(init), k).GetOr(0) == multiset(init)[k]
    ensures Get(TallyOf(init + [last]), k).Some? <==> k in init + [last]
    ensures Get(TallyOf(init + [last]), k).GetOr(0) == multiset(init + [last])[k]
  {
    var ks := init + [last];
    assert ks[..|ks| - 1] == init;
    var t := TallyOf(init);
    assert TallyOf(ks) == Bump(t, last);
    assert multiset(ks) == multiset(init) + multiset{last};
    if last != k {
      BumpOther(t, last, k);
      assert multiset(ks)[k] == multiset(init)[k];
    } else {
      assert multiset(ks)[k] == multiset(init)[k] + 1;
    }
  }

  /** `stats.byStatus[id] ?? 0`: the count shown for one vocabulary id. */
  function Shown(t: Tally, id: string): nat {
    Get(t, id).GetOr(0)
  }

  /** The shown count is the number of occurrences, zero for an id that never occurs. */
  lemma ShownCount(ks: seq<string>, id: string)
    ensures Shown(TallyOf(ks), id) == multiset(ks)[id]
  {
    TallyCounts(ks, id);
  }

  /** Every id is shown with its number of occurrences. */
  lemma TallyShown(ks: seq<string>)
    ensures forall id :: Shown(TallyOf(ks), id) == multiset(ks)[id]
  {
    forall id
      ensures Shown(TallyOf(ks), id) == multiset(ks)[id]
    {
      ShownCount(ks, id);
    }
  }

  function StatusKey(p: Pin): string {
    p.statusId.GetOr("new")
  }

  function CategoryKey(p: Pin): string {
    p.categoryId.GetOr("other")
  }

  predicate HasPhoto(p: Pin) {
    p.photoLink.Some? && p.photoLink.value != []
  }

  predicate HasDescription(p: Pin) {
    p.description.Some? && Trim(p.description.value) != []
  }

  datatype Summary = Summary(
    total: nat,
    withPhoto: nat,
    withDesc: nat,
    last: Option<Pin>,
    byStatus: Tally,
    byCategory: Tally)

  /** `stats`: the summary of the loaded pins. */
  function Summarize(pins: seq<Pin>): (s: Summary)
    ensures s.total == |pins|
    ensures s.withPhoto == |Positions(pins, HasPhoto)| && s.withDesc == |Positions(pins, HasDescription)|
    ensures SumCounts(s.byStatus) == s.total && SumCounts(s.byCategory) == s.total
    ensures s.last.None? <==> pins == []
    ensures s.last.Some? ==> s.last.value in pins && forall i :: 0 <= i < |pins| ==> pins[i].id <= s.last.value.id
    ensures s.last.Some? ==> exists j :: 0 <= j < |pins| && pins[j] == s.last.value && forall i :: 0 <= i < j ==> pins[i].id < pins[j].id
    ensures forall id :: Shown(s.byStatus, id) == multiset(Map(pins, StatusKey))[id]
    ensures forall id :: Shown(s.byCategory, id) == multiset(Map(pins, CategoryKey))[id]
  {
    var sorted := NewestFirst(pins);
    TallyShown(Map(pins, StatusKey));
    TallyShown(Map(pins, CategoryKey));
    TallySum(Map(pins, StatusKey));
    TallySum(Map(pins, CategoryKey));
    var last := if sorted == [] then None else Some(sorted[0]);
    assert |sorted| == |pins| by { assert |multiset(sorted)| == |multiset(pins)|; }
    assert pins != [] ==> sorted[0] in pins && forall i :: 0 <= i < |pins| ==> pins[i].id <= sorted[0].id by {
      if pins != [] { NewestFirstHead(pins); }
    }
    assert pins != [] ==> exists j :: 0 <= j < |pins| && pins[j] == sorted[0] && forall i :: 0 <= i < j ==> pins[i].id < pins[j].id by {
      if pins != [] { NewestFirstHead(pins); }
    }
    CountPositions(pins, HasPhoto);
    CountPositions(pins, HasDescription);
    Summary(
      |pins|,
      Count(pins, HasPhoto),
      Count(pins, HasDescription),
      last,
      TallyOf(Map(pins, StatusKey)),
      TallyOf(Map(pins, CategoryKey)))
  }

  /** The count shown for an id is the number of pins with that status, or that category. */
  lemma SummarizeTallies(pins: seq<Pin>, id: string)
    ensures Shown(Summarize(pins).byStatus, id) == |KeyPositions(pins, StatusKey, id)|
    ensures Shown(Summarize(pins).byCategory, id) == |KeyPositions(pins, CategoryKey, id)|
  {
    var s := Summarize(pins);
    assert Shown(s.byStatus, id) == multiset(Map(pins, StatusKey))[id];
    assert Shown(s.byCategory, id) == multiset(Map(pins, CategoryKey))[id];
    MapMultiplicityPositions(pins, StatusKey, id);
    MapMultiplicityPositions(pins, CategoryKey, id);
  }

  /**
   * `new` is shown for every pin whose status is missing or `new`, and `other`
   * for every pin whose category is missing or `other`.
   */
  lemma MissingFieldsDefault(pins: seq<Pin>)
    ensures Shown(Summarize(pins).byStatus, "new") == |NewOrNoStatus(pins)|
    ensures Shown(Summarize(pins).byCategory, "other") == |OtherOrNoCategory(pins)|
  {
    SummarizeTallies(pins, "new");
    SummarizeTallies(pins, "other");
    DefaultKeys(pins);
  }

  /** A status or a category that no pin has is shown as 0. */
  lemma AbsentShownZero(pins: seq<Pin>, id: string)
    ensures (forall i :: 0 <= i < |pins| ==> StatusKey(pins[i]) != id) ==> Shown(Summarize(pins).byStatus, id) == 0
    ensures (forall i :: 0 <= i < |pins| ==> CategoryKey(pins[i]) != id) ==> Shown(Summarize(pins).byCategory, id) == 0
  {
    SummarizeTallies(pins, id);
    if forall i :: 0 <= i < |pins| ==> StatusKey(pins[i]) != id {
      NoKeyPositions(pins, StatusKey, id);
    }
    if forall i :: 0 <= i < |pins| ==> CategoryKey(pins[i]) != id {
      NoKeyPositions(pins, CategoryKey, id);
    }
  }

  /** The positions of the pins with no status or the status `new`. */
  ghost function NewOrNoStatus(pins: seq<Pin>): set<int> {
    set i | 0 <= i < |pins| && (pins[i].statusId.None? || pins[i].statusId == Some("new"))
  }

  /** The positions of the pins with no category or the category `other`. */
  ghost function OtherOrNoCategory(pins: seq<Pin>): set<int> {
    set i | 0 <= i < |pins| && (pins[i].categoryId.None? || pins[i].categoryId == Some("other"))
  }

  lemma DefaultKeys(pins: seq<Pin>)
    ensures KeyPositions(pins, StatusKey, "new") == NewOrNoStatus(pins)
    ensures KeyPositions(pins, CategoryKey, "other") == OtherOrNoCategory(pins)
  {
  }

  /** A pin without a status is counted as new, and one without a category as other. */
  lemma MissingFieldCounted(pins: seq<Pin>, p: Pin)
    requires p in pins && p.statusId.None? && p.categoryId.None?
    ensures Shown(Summarize(pins).byStatus, "new") >= 1
    ensures Shown(Summarize(pins).byCategory, "other") >= 1
  {
    var i :| 0 <= i < |pins| && pins[i] == p;
    var st, ca := Map(pins, StatusKey), Map(pins, CategoryKey);
    assert st[i] == "new" && ca[i] == "other";
    ShownOccurring(st, i);
    ShownOccurring(ca, i);
  }

  /** A key that occurs is shown with a count of at least one. */
  lemma ShownOccurring(ks: seq<string>, i: int)
    requires 0 <= i < |ks|
    ensures Shown(TallyOf(ks), ks[i]) >= 1
  {
    ShownCount(ks, ks[i]);
    assert ks[i] in multiset(ks);
  }

  /** An empty link is not a photo, and a description of spaces is not a description. */
  lemma EmptyFieldsNotCounted(p: Pin, blank: string)
    requires Trim(blank) == []
    ensures !HasPhoto(p.(photoLink := Some(""))) && !HasPhoto(p.(photoLink := None))
    ensures !HasDescription(p.(description := Some(blank)))
  {
  }
}

=== FILE: strings.dfy ===
/**
 * String primitives of ECMAScript used by the application, over `seq<char>`:
 * `trim`, `toLowerCase` on Latin and Cyrillic letters, `startsWith`, `includes`, `replace` of the first
 * occurrence, `split` on one character and the `\s` character class.
 */
module Strings {

  /** ECMAScript WhiteSpace and LineTerminator code points (what `trim` and `\s` match). */
  predicate IsSpace(c: char) {
    || c == '\t' || c == '\n' || c == '\U{B}' || c == '\U{C}' || c == '\r' || c == ' '
    || c == '\U{A0}' || c == '\U{1680}' || ('\U{2000}' <= c <= '\U{200A}')
    || c == '\U{2028}' || c == '\U{2029}' || c == '\U{202F}' || c == '\U{205F}'
    || c == '\U{3000}' || c == '\U{FEFF}'
  }

  function TrimStart(s: string): (r: string)
    ensures |r| <= |s| && r == s[|s| - |r|..]
    ensures r == [] || !IsSpace(r[0])
    ensures forall i :: 0 <= i < |s| - |r| ==> IsSpace(s[i])
  {
    if s == [] || !IsSpace(s[0]) then s else TrimStart(s[1..])
  }

  function TrimEnd(s: string): (r: string)
    ensures |r| <= |s| && r == s[..|r|]
    ensures r == [] || !IsSpace(r[|r| - 1])
    ensures forall i :: |r| <= i < |s| ==> IsSpace(s[i])
  {
    if s == [] || !IsSpace(s[|s| - 1]) then s else TrimEnd(s[..|s| - 1])
  }

  /** `String.prototype.trim`. */
  function Trim(s: string): (r: string)
    ensures r == [] || (!IsSpace(r[0]) && !IsSpace(r[|r| - 1]))
    ensures |r| <= |s|
  {
    TrimEnd(TrimStart(s))
  }

  /** Printable ASCII characters other than the space are not white space. */
  lemma NotSpaceVisible(c: char)
    requires '!' <= c <= '~'
    ensures !IsSpace(c)
  {
  }

  /** A string that starts and ends with a non-space character is left alone by `trim`. */
  lemma TrimOfTrimmed(s: string)
    requires s == [] || (!IsSpace(s[0]) && !IsSpace(s[|s| - 1]))
    ensures Trim(s) == s
  {
  }

  /** `trim` yields the empty string exactly when every character is white space. */
  lemma {:induction false} TrimEmptyIff(s: string)
    ensures Trim(s) == [] <==> forall i :: 0 <= i < |s| ==> IsSpace(s[i])
  {
    if s != [] && !IsSpace(s[0]) {
      assert TrimStart(s) == s;
    } else if s != [] {
      TrimEmptyIff(s[1..]);
      assert forall i :: 1 <= i < |s| ==> s[i] == s[1..][i - 1];
    }
  }

  /**
   * Lower case of the Latin capitals `A`-`Z` and the Cyrillic capitals
   * `Ѐ`-`Я` (U+0400-U+042F); every other character is unchanged.
   */
  function LowerChar(c: char): (r: char)
    ensures IsAsciiUpper(c) ==> 'a' <= r <= 'z'
    ensures !IsAsciiUpper(c) && !('\U{400}' <= c <= '\U{42F}') ==> r == c
  {
    if IsAsciiUpper(c) then (c as int + 32) as char
    else if '\U{410}' <= c <= '\U{42F}' then (c as int + 32) as char
    else if '\U{400}' <= c <= '\U{40F}' then (c as int + 80) as char
    else c
  }

  predicate IsAsciiUpper(c: char) {
    'A' <= c <= 'Z'
  }

  /** `toLowerCase` restricted to the Latin and the basic Cyrillic letters. */
  function Lower(s: string): (r: string)
    ensures |r| == |s| && forall i :: 0 <= i < |s| ==> r[i] == LowerChar(s[i])
  {
    seq(|s|, i requires 0 <= i < |s| => LowerChar(s[i]))
  }

  predicate StartsWith(s: string, prefix: string) {
    |prefix| <= |s| && s[..|prefix|] == prefix
  }

  /** `sub` occurs in `s` at position `i`. */
  predicate MatchAt(s: string, sub: string, i: int) {
    0 <= i <= |s| - |sub| && s[i..i + |sub|] == sub
  }

  /** `s.includes(sub)`: some window of `s` equals `sub`. */
  predicate Contains(s: string, sub: string) {
    exists i | 0 <= i <= |s| - |sub| :: MatchAt(s, sub, i)
  }

  /** Position of the first occurrence of `sub` in `s`, or -1 (`s.indexOf(sub)`). */
  function IndexOf(s: string, sub: string): (r: int)
    ensures r == -1 || MatchAt(s, sub, r)
    ensures r >= 0 ==> forall i :: 0 <= i < r ==> !MatchAt(s, sub, i)
    ensures r == -1 <==> !Contains(s, sub)
  {
    IndexFrom(s, sub, 0)
  }

  function IndexFrom(s: string, sub: string, k: nat): (r: int)
    ensures r == -1 || (k <= r && MatchAt(s, sub, r))
    ensures r >= 0 ==> forall i :: k <= i < r ==> !MatchAt(s, sub, i)
    ensures r == -1 <==> forall i :: k <= i ==> !MatchAt(s, sub, i)
    decreases |s| + 1 - k
  {
    if k + |sub| > |s| then -1
    else if s[k..k + |sub|] == sub then k
    else IndexFrom(s, sub, k + 1)
  }

  /** `s.replace(pat, rep)` with a string pattern: only the first occurrence is replaced. */
  function ReplaceFirst(s: string, pat: string, rep: string): (r: string)
    ensures !Contains(s, pat) ==> r == s
  {
    var k := IndexOf(s, pat);
    if k < 0 then s else s[..k] + rep + s[k + |pat|..]
  }

  /** A prefix fixes the first character. */
  lemma PrefixHead(t: string, p: string)
    requires p != []
    ensures StartsWith(t, p) ==> t[0] == p[0]
  {
    if StartsWith(t, p) {
      assert t[..|p|][0] == t[0];
    }
  }

  /** Text starting with a non-space character keeps that character first when trimmed. */
  lemma TrimKeepsHead(s: string)
    requires s != [] && !IsSpace(s[0])
    ensures Trim(s) != [] && Trim(s)[0] == s[0]
  {
    assert TrimStart(s) == s;
    var r := TrimEnd(s);
    assert r == s[..|r|];
  }

  lemma ReplaceFirstAtStart(s: string, pat: string)
    requires StartsWith(s, pat)
    ensures ReplaceFirst(s, pat, "") == s[|pat|..]
  {
    assert MatchAt(s, pat, 0);
  }

  /** Every character not in `s`'s occurrences of `c`: the number of `c` in `s`. */
  function CountChar(s: string, c: char): nat {
    if s == [] then 0 else (if s[0] == c then 1 else 0) + CountChar(s[1..], c)
  }

  /** `s.split(sep)` for a one-character separator. */
  function Split(s: string, sep: char): (parts: seq<string>)
    ensures |parts| == CountChar(s, sep) + 1
    ensures forall i :: 0 <= i < |parts| ==> sep !in parts[i]
  {
    if s == [] then [[]]
    else
      var rest := Split(s[1..], sep);
      if s[0] == sep then [[]] + rest
      else [[s[0]] + rest[0]] + rest[1..]
  }

  /** `parts.join(sep)`. */
  function Join(parts: seq<string>, sep: char): string
    requires |parts| > 0
  {
    if |parts| == 1 then parts[0] else parts[0] + [sep] + Join(parts[1..], sep)
  }

  /** Splitting and joining back on the same character is the identity. */
  lemma {:induction false} SplitJoin(s: string, sep: char)
    ensures Join(Split(s, sep), sep) == s
  {
    if s != [] {
      var rest := Split(s[1..], sep);
      SplitJoin(s[1..], sep);
      if s[0] == sep {
        assert Split(s, sep) == [[]] + rest;
      } else {
        var parts := Split(s, sep);
        assert parts == [[s[0]] + rest[0]] + rest[1..];
        if |rest| == 1 {
          assert Join(parts, sep) == [s[0]] + rest[0];
        } else {
          assert parts[1..] == rest[1..];
          assert Join(rest, sep) == rest[0] + [sep] + Join(rest[1..], sep);
        }
      }
    }
  }

  /** A string splits into at least two parts exactly when it holds the separator. */
  lemma {:induction false} SplitHasTwoParts(s: string, sep: char)
    ensures |Split(s, sep)| >= 2 <==> sep in s
  {
    CountCharPositive(s, sep);
  }

  lemma {:induction false} CountCharPositive(s: string, c: char)
    ensures CountChar(s, c) > 0 <==> c in s
  {
    if s != [] {
      CountCharPositive(s[1..], c);
      assert s == [s[0]] + s[1..];
    }
  }

  /** The text between the first and the second separator (the second part of a split). */
  lemma {:induction false} SplitSecondPart(s: string, sep: char, k: nat)
    requires k < |s| && s[k] == sep && sep !in s[..k]
    ensures |Split(s, sep)| >= 2
    ensures Split(s, sep)[0] == s[..k]
    ensures Split(s, sep)[1..] == Split(s[k + 1..], sep)
  {
    if k == 0 {
      assert s[1..] == s[k + 1..];
    } else {
      assert s[1..][k - 1] == sep;
      assert s[1..][..k - 1] == s[1..k];
      assert sep !in s[1..k] by { assert forall i :: 1 <= i < k ==> s[i] == s[..k][i]; }
      SplitSecondPart(s[1..], sep, k - 1);
      assert s[1..][k..] == s[k + 1..];
      assert s[..k] == [s[0]] + s[1..k];
    }
  }

  /** In `a.b.c` with no separator inside `a` or `b`, the second part of the split is `b`. */
  lemma SplitMiddle(a: string, b: string, c: string, sep: char)
    requires sep !in a && sep !in b
    ensures |Split(a + [sep] + b + [sep] + c, sep)| >= 2
    ensures Split(a + [sep] + b + [sep] + c, sep)[1] == b
  {
    var rest := b + [sep] + c;
    var t := a + [sep] + rest;
    assert t == a + [sep] + b + [sep] + c;
    assert t[|a|] == sep && t[..|a|] == a && t[|a| + 1..] == rest;
    SplitSecondPart(t, sep, |a|);
    assert rest[|b|] == sep && rest[..|b|] == b;
    SplitSecondPart(rest, sep, |b|);
    assert Split(t, sep)[1] == Split(t, sep)[1..][0];
  }
}

=== FILE: viewport.dfy ===
/**
 * The map screen's viewport handling (`src/screens/MapScreen.tsx`): the
 * region-change gate that ignores sub-epsilon jitter, the pan and zoom
 * detectors, the Android marker-tracking window driven by one resettable timer,
 * the focus-from-another-screen region and `zoomToCluster`.
 *
 * Timers are explicit: a pending `setTimeout` is an element of `live`, the
 * ref holding the latest handle is `timerRef`, and a timer firing is an event.
 * Elapsed time is not modelled; a timer's delay is only recorded.
 */
module Viewport {
  import opened Wrappers
  import opened Pins

  /** Changes smaller than this on all four region fields are jitter. */
  const Eps: real := 0.00001
  /** A pan is significant beyond this fraction of the span. */
  const PanFactor: real := 0.18
  /** Floor for the reference span of the pan test. */
  const MinRefSpan: real := 0.001
  /** A zoom is significant from this relative change of `latitudeDelta` on. */
  const ZoomRatio: real := 0.12
  /** Tracking window after a significant pan, in milliseconds. */
  const PanWindowMs: int := 650
  /** Tracking window after a significant zoom, a data or filter change, in milliseconds. */
  const ZoomWindowMs: int := 700
  /** Span of the region shown when another screen asks to focus a point. */
  const FocusSpan: real := 0.02
  /** Smallest span `zoomToCluster` zooms to. */
  const MinClusterZoomSpan: real := 0.002

  function Abs(x: real): (r: real)
    ensures r >= 0.0 && (r == x || r == -x)
  {
    if x < 0.0 then -x else x
  }

  function Max(a: real, b: real): (r: real)
    ensures r >= a && r >= b && (r == a || r == b)
  {
    if a >= b then a else b
  }

  /** `Platform.OS`, reduced to what the screen distinguishes. */
  datatype Platform = Android | Other

  /** `tracksClusters`: cluster badges are always tracked on Android and never elsewhere. */
  function TracksClusters(platform: Platform): (r: bool)
    ensures r <==> platform == Android
  {
    platform.Android?
  }

  // ---------------------------------------------------------------- the gate

  /** All four fields moved by less than `Eps`: the event is ignored. */
  predicate Jitter(prev: Region, next: Region) {
    Abs(prev.latitude - next.latitude) < Eps &&
    Abs(prev.longitude - next.longitude) < Eps &&
    Abs(prev.latitudeDelta - next.latitudeDelta) < Eps &&
    Abs(prev.longitudeDelta - next.longitudeDelta) < Eps
  }

  /** `movedALot`: the centre moved by more than 18% of the larger span on some axis. */
  predicate MovedALot(prev: Region, next: Region) {
    var refLat := Max(Max(prev.latitudeDelta, next.latitudeDelta), MinRefSpan);
    var refLon := Max(Max(prev.longitudeDelta, next.longitudeDelta), MinRefSpan);
    Abs(next.latitude - prev.latitude) > refLat * PanFactor ||
    Abs(next.longitude - prev.longitude) > refLon * PanFactor
  }

  /** A relative change of the latitude span of at least 12% against the last significant zoom. */
  predicate SignificantZoom(lastZoom: real, nextZoom: real) {
    lastZoom > 0.0 && Abs(nextZoom - lastZoom) / lastZoom >= ZoomRatio
  }

  // ---------------------------------------------------------------- state

  /** A pending `setTimeout(() => setTracksPins(false), ms)`. */
  datatype Timer = Timer(id: nat, ms: int)

  /**
   * The screen's viewport state. `region` is both the `region` state and
   * `lastRegionRef` (they are only ever assigned together); `lastZoom` is
   * `lastZoomRef`; `nextId` is the handle the next timer gets.
   */
  datatype MapState = MapState(
    region: Region,
    lastZoom: real,
    tracksPins: bool,
    timerRef: Option<nat>,
    live: seq<Timer>,
    nextId: nat)

  /** The state on first render, before any effect runs. */
  function Initial(platform: Platform): (s: MapState)
    ensures s.region == DefaultRegion && s.lastZoom == DefaultRegion.latitudeDelta
    ensures s.tracksPins <==> platform == Android
    ensures s.live == [] && s.timerRef == None
  {
    MapState(DefaultRegion, DefaultRegion.latitudeDelta, platform.Android?, None, [], 1)
  }

  /** The timers of `live` other than the one with handle `id`. */
  function Cancel(live: seq<Timer>, id: nat): (r: seq<Timer>)
    ensures |r| <= |live|
    ensures forall i :: 0 <= i < |r| ==> r[i] in live && r[i].id != id
    ensures forall i :: 0 <= i < |live| && live[i].id != id ==> live[i] in r
  {
    if live == [] then []
    else if live[0].id == id then Cancel(live[1..], id)
    else [live[0]] + Cancel(live[1..], id)
  }

  /** `clearTimeout(tracksTimerRef.current)` when the ref holds a handle. */
  function ClearPending(s: MapState): MapState {
    if s.timerRef.Some? then s.(live := Cancel(s.live, s.timerRef.value)) else s
  }

  /**
   * The invariant of every reachable state: at most one timer is pending, the
   * ref holds its handle, handles are fresh, a pending timer means the window
   * is open, and off Android nothing ever happens.
   */
  ghost predicate Inv(s: MapState, platform: Platform) {
    |s.live| <= 1 &&
    (s.live != [] ==> s.timerRef == Some(s.live[0].id) && s.live[0].id < s.nextId) &&
    (s.live != [] ==> s.tracksPins) &&
    (platform == Other ==> !s.tracksPins && s.live == [] && s.timerRef == None)
  }

  /** `enableTracksPinsTemporarily(ms)`. */
  function Enable(s: MapState, platform: Platform, ms: int): (r: MapState)
    ensures platform == Other ==> r == s
    ensures platform == Android && Inv(s, platform) ==>
              r.tracksPins && r.live == [Timer(s.nextId, ms)] && r.timerRef == Some(s.nextId)
    ensures r.region == s.region && r.lastZoom == s.lastZoom
  {
    if platform == Other then s
    else
      var cleared := ClearPending(s);
      cleared.(tracksPins := true, live := cleared.live + [Timer(s.nextId, ms)],
               timerRef := Some(s.nextId), nextId := s.nextId + 1)
  }

  /** The timer with handle `id` fires: `setTracksPins(false)`; the ref keeps its stale handle. */
  function Fire(s: MapState, id: nat): (r: MapState)
    ensures (exists i :: 0 <= i < |s.live| && s.live[i].id == id) ==> !r.tracksPins
    ensures forall i :: 0 <= i < |r.live| ==> r.live[i].id != id
    ensures r.region == s.region && r.timerRef == s.timerRef
  {
    if exists i :: 0 <= i < |s.live| && s.live[i].id == id then
      s.(tracksPins := false, live := Cancel(s.live, id))
    else s
  }

  /** `onRegionChangeComplete(next)`. */
  function OnRegionChange(s: MapState, platform: Platform, next: Region): (r: MapState)
    ensures Jitter(s.region, next) ==> r == s
    ensures !Jitter(s.region, next) ==> r.region == next
    ensures r.lastZoom == if !Jitter(s.region, next) && SignificantZoom(s.lastZoom, next.latitudeDelta)
                          then next.latitudeDelta else s.lastZoom
  {
    var prev := s.region;
    if Jitter(prev, next) then s
    else
      var s1 := s.(region := next);
      var s2 := if MovedALot(prev, next) then Enable(s1, platform, PanWindowMs) else s1;
      if SignificantZoom(s.lastZoom, next.latitudeDelta)
      then Enable(s2.(lastZoom := next.latitudeDelta), platform, ZoomWindowMs)
      else s2
  }

  /** The effect on `[pins.length, status, category]`: its cleanup clears the timer, then it re-arms 700 ms. */
  function OnDataChange(s: MapState, platform: Platform): MapState {
    Enable(ClearPending(s), platform, ZoomWindowMs)
  }

  /** Focus requested by another screen: centre on the point with a 0.02 span. */
  function Focus(s: MapState, at: LatLng): (r: MapState)
    ensures r.region.latitude == at.latitude && r.region.longitude == at.longitude
    ensures r.region.latitudeDelta == FocusSpan && r.region.longitudeDelta == FocusSpan
    ensures r == s.(region := r.region)
  {
    s.(region := Region(at.latitude, at.longitude, FocusSpan, FocusSpan))
  }

  /** `zoomToCluster(center)`: centre on the badge and halve both spans, but not below 0.002. */
  function ZoomToCluster(s: MapState, center: LatLng): (r: MapState)
    ensures r.region.latitude == center.latitude && r.region.longitude == center.longitude
    ensures r.region.latitudeDelta >= MinClusterZoomSpan && r.region.longitudeDelta >= MinClusterZoomSpan
    ensures r.region.latitudeDelta * 2.0 >= s.region.latitudeDelta && r.region.longitudeDelta * 2.0 >= s.region.longitudeDelta
    ensures r.region.latitudeDelta == s.region.latitudeDelta / 2.0 || r.region.latitudeDelta == MinClusterZoomSpan
    ensures r.region.longitudeDelta == s.region.longitudeDelta / 2.0 || r.region.longitudeDelta == MinClusterZoomSpan
    ensures r == s.(region := r.region)
  {
    s.(region := Region(center.latitude, center.longitude,
                        Max(s.region.latitudeDelta / 2.0, MinClusterZoomSpan),
                        Max(s.region.longitudeDelta / 2.0, MinClusterZoomSpan)))
  }

  /** Each new span is exactly half the old one when that is at least 0.002, and 0.002 otherwise. */
  lemma ZoomToClusterSpans(s: MapState, center: LatLng)
    ensures var r := ZoomToCluster(s, center);
      && (s.region.latitudeDelta / 2.0 >= MinClusterZoomSpan ==> r.region.latitudeDelta == s.region.latitudeDelta / 2.0)
      && (s.region.latitudeDelta / 2.0 < MinClusterZoomSpan ==> r.region.latitudeDelta == MinClusterZoomSpan)
      && (s.region.longitudeDelta / 2.0 >= MinClusterZoomSpan ==> r.region.longitudeDelta == s.region.longitudeDelta / 2.0)
      && (s.region.longitudeDelta / 2.0 < MinClusterZoomSpan ==> r.region.longitudeDelta == MinClusterZoomSpan)
  {
  }

  // ---------------------------------------------------------------- runs

  datatype Event =
    | Mount
    | RegionChange(next: Region)
    | TimerFires(id: nat)
    | DataChange  // `pins.length`, the status chip or the category chip changed; a reload of as many pins is no event
    | FocusOn(at: LatLng)
    | ClusterTap(center: LatLng)
    | Unmount

  function Step(s: MapState, platform: Platform, e: Event): MapState {
    match e
    case Mount => Enable(s, platform, ZoomWindowMs)
    case RegionChange(next) => OnRegionChange(s, platform, next)
    case TimerFires(id) => Fire(s, id)
    case DataChange => OnDataChange(s, platform)
    case FocusOn(at) => Focus(s, at)
    case ClusterTap(center) => ZoomToCluster(s, center)
    case Unmount => ClearPending(s)
  }

  function Run(s: MapState, platform: Platform, es: seq<Event>): MapState
    decreases |es|
  {
    if es == [] then s else Run(Step(s, platform, es[0]), platform, es[1..])
  }

  lemma InitialInv(platform: Platform)
    ensures Inv(Initial(platform), platform)
  {
  }

  lemma CancelSingle(live: seq<Timer>, id: nat)
    requires |live| <= 1 && forall i :: 0 <= i < |live| ==> live[i].id == id
    ensures Cancel(live, id) == []
  {
  }

  lemma ClearPendingInv(s: MapState, platform: Platform)
    requires Inv(s, platform)
    ensures Inv(ClearPending(s), platform) && ClearPending(s).live == []
  {
    if s.timerRef.Some? {
      CancelSingle(s.live, s.timerRef.value);
    }
  }

  lemma EnableInv(s: MapState, platform: Platform, ms: int)
    requires Inv(s, platform)
    ensures Inv(Enable(s, platform, ms), platform)
  {
    if platform == Android {
      ClearPendingInv(s, platform);
    }
  }

  lemma FireInv(s: MapState, platform: Platform, id: nat)
    requires Inv(s, platform)
    ensures Inv(Fire(s, id), platform)
  {
    if exists i :: 0 <= i < |s.live| && s.live[i].id == id {
      CancelSingle(s.live, id);
    }
  }

  /** Every event keeps the invariant. */
  lemma StepInv(s: MapState, platform: Platform, e: Event)
    requires Inv(s, platform)
    ensures Inv(Step(s, platform, e), platform)
  {
    match e
    case Mount => EnableInv(s, platform, ZoomWindowMs);
    case RegionChange(next) => RegionChangeInv(s, platform, next);
    case TimerFires(id) => FireInv(s, platform, id);
    case DataChange => DataChangeInv(s, platform);
    case FocusOn(at) => assert Step(s, platform, e) == Focus(s, at);
    case ClusterTap(center) => assert Step(s, platform, e) == ZoomToCluster(s, center);
    case Unmount => ClearPendingInv(s, platform);
  }

  lemma RegionChangeInv(s: MapState, platform: Platform, next: Region)
    requires Inv(s, platform)
    ensures Inv(OnRegionChange(s, platform, next), platform)
  {
    var prev := s.region;
    if !Jitter(prev, next) {
      var s1 := s.(region := next);
      var s2 := if MovedALot(prev, next) then Enable(s1, platform, PanWindowMs) else s1;
      EnableInv(s1, platform, PanWindowMs);
      EnableInv(s2.(lastZoom := next.latitudeDelta), platform, ZoomWindowMs);
    }
  }

  lemma DataChangeInv(s: MapState, platform: Platform)
    requires Inv(s, platform)
    ensures Inv(OnDataChange(s, platform), platform)
  {
    ClearPendingInv(s, platform);
    EnableInv(ClearPending(s), platform, ZoomWindowMs);
  }

  /**
   * Whatever happens, at most one tracking timer is pending, and on a platform
   * other than Android the pin-tracking flag stays off and no timer is ever set.
   */
  lemma {:induction false} RunInv(platform: Platform, es: seq<Event>)
    ensures Inv(Run(Initial(platform), platform, es), platform)
    ensures |Run(Initial(platform), platform, es).live| <= 1
    ensures platform == Other ==> !Run(Initial(platform), platform, es).tracksPins
  {
    InitialInv(platform);
    RunFrom(Initial(platform), platform, es);
  }

  lemma {:induction false} RunFrom(s: MapState, platform: Platform, es: seq<Event>)
    requires Inv(s, platform)
    ensures Inv(Run(s, platform, es), platform)
    decreases |es|
  {
    if es != [] {
      StepInv(s, platform, es[0]);
      RunFrom(Step(s, platform, es[0]), platform, es[1..]);
    }
  }

  /**
   * On Android a region change that is not jitter opens a tracking window when
   * it is a significant pan or zoom: the flag is on and exactly one timer is
   * pending, of 700 ms if the zoom was significant and else of 650 ms. A change
   * that is neither leaves the tracking fields alone.
   */
  lemma RegionChangeTracking(s: MapState, next: Region)
    requires Inv(s, Android) && !Jitter(s.region, next)
    ensures var r := OnRegionChange(s, Android, next);
            var zoom := SignificantZoom(s.lastZoom, next.latitudeDelta);
            if zoom || MovedALot(s.region, next) then
              r.tracksPins && |r.live| == 1 && r.live[0].ms == (if zoom then ZoomWindowMs else PanWindowMs) &&
              r.timerRef == Some(r.live[0].id)
            else
              r.tracksPins == s.tracksPins && r.live == s.live && r.timerRef == s.timerRef
  {
    var s1 := s.(region := next);
    EnableInv(s1, Android, PanWindowMs);
  }

  /** A timer that fires closes the window; the stale handle left in the ref cancels nothing later. */
  lemma FireClosesWindow(s: MapState, platform: Platform)
    requires Inv(s, platform) && s.live != []
    ensures !Step(s, platform, TimerFires(s.live[0].id)).tracksPins
    ensures Step(s, platform, TimerFires(s.live[0].id)).live == []
  {
    CancelSingle(s.live, s.live[0].id);
  }

  /** Data or filter changes on Android always reopen the window for 700 ms, replacing any pending timer. */
  lemma DataChangeReopens(s: MapState)
    requires Inv(s, Android)
    ensures var r := Step(s, Android, DataChange);
            r.tracksPins && |r.live| == 1 && r.live[0].ms == ZoomWindowMs && r.region == s.region
  {
    ClearPendingInv(s, Android);
  }

  /**
   * The thresholds on concrete regions: moving the centre by 0.02 under a
   * 0.1 span is a pan (0.02 > 0.018); a span going from 0.1 to 0.08 is a
   * zoom (20%), to 0.095 is not (5%), and exactly 12% is.
   */
  lemma ThresholdScenarios()
    ensures MovedALot(Region(50.0, 30.0, 0.1, 0.1), Region(50.02, 30.0, 0.1, 0.1))
    ensures !MovedALot(Region(50.0, 30.0, 0.1, 0.1), Region(50.018, 30.0, 0.1, 0.1))
    ensures SignificantZoom(0.1, 0.08) && !SignificantZoom(0.1, 0.095) && SignificantZoom(0.1, 0.088)
  {
  }

  /** A change of exactly `Eps` in any one field is not jitter. */
  lemma JitterBoundary(r: Region)
    ensures Jitter(r, r)
    ensures !Jitter(r, r.(latitude := r.latitude + Eps)) && !Jitter(r, r.(longitudeDelta := r.longitudeDelta - Eps))
  {
  }
}

=== FILE: wrappers.dfy ===
/** Failure-compatible wrappers shared by every module of the model. */
module Wrappers {

  /** A value that may be absent: JavaScript's `null`/`undefined` for a typed field. */
  datatype Option<+T> = None | Some(value: T) {

    /** `x ?? d` on a typed field. */
    function GetOr(default: T): T {
      match this
      case Some(v) => v
      case None => default
    }
  }
}
